=== FILE: README.md ===
# Search-and-facet engine of a catalogue of discontinued products

A Dafny model of the core of a React/TypeScript single-page catalogue of discontinued Google products. The model covers:

- **Normalizer** (`normalizer.dfy`, on top of `text.dfy`). It lower-cases text, blanks every character outside `\w` and white space, splits on white-space runs, drops one-character tokens and stop words, and applies a first-match-wins suffix stemmer.
- **TF-IDF index and scorer** (`tfidf.dfy`, with the generic stable sort of `stable_sort.dfy`). It covers:
  - the product id and searchable text;
  - `buildTFIDFIndex` (documents by id, document frequency per term);
  - log-dampened term frequency and smoothed inverse document frequency;
  - the query-length average;
  - the name boost (+2 for the whole query in the name, +0.5 for any space-separated piece of it);
  - the hard `>= 1` cut-off and the descending sort.
- **Filter evaluator and facet counter** (`filters.dfy`): `applyFilters` and `countByFacet`, together with the raw-type mapping `mapTypeToProductType`.
- **Filter-state transitions** (`use_filters.dfy`): the four toggles, setting the query, clearing, and the active-filter count.
- **Sort comparator** (`sort_products.dfy`): `sortProducts` for the six sort options.
- **Orchestration** (`app.dfy`):
  - `handleSearchResults`;
  - the list the grid receives (ranked results narrowed by facets in rank order during a search, otherwise the sorted filtered catalogue);
  - the lists and filters the facet panel counts over.
- **Facet panel** (`facet_panel.dfy`): its enumerations, the flattened category and reason groups, and the option counts it displays.
- **Hierarchical facet group** (`hierarchical.dfy`): the parent checkbox's none/some/all state, select-all and deselect-all, the parent count, and expanding and collapsing groups.
- **Product grid** (`grid.dfy`): pages of nine, Previous and Next, the row of page buttons and ellipses, page colours, and the reset to page 1.
- **Product card and detail** (`product_view.dfy`): the displayed type with its `'Services'` fallback, the lifespan badge colours, and the related links with their singular or plural heading.

The closed enumerations of `src/types/Product.ts` are datatypes, each with its label and a parser back, in `catalog.dfy`. The JavaScript array and string built-ins the code relies on are in `seqs.dfy` and `text.dfy`:
- `filter`, `includes`, `reduce`;
- `toLowerCase`, `trim`, `split(' ')`, `includes` on strings.

Foreign computations become parameters:
- **`Math.log`** is a parameter `ln: real -> real`. The lemmas that need it assume `IsLog(ln)`: `ln(1) = 0`, and `ln` is strictly increasing on the positive reals.
- **`new Date(s).getTime()`** is a parameter `time: string -> int`.
- **`localeCompare`** is a parameter `rank: string -> real`. It is compared by difference, which makes it a total preorder.

Scores are exact reals.

Where the code departs from its documented design, the model follows the code:
- The inverse document frequency of a term that occurs in no document is 0, not a positive smoothed value (`src/utils/tfidfSearch.ts:112`).
- Tokenisation keeps `_` and ASCII letters and digits only, because it uses `\w` (`src/utils/tfidfSearch.ts:7`).
- The ranked branch of the list is taken only when both a query and search results are present (`src/App.tsx:48`).
- The facet panel is handed the hook's filters, whose query is the search query (see Findings).

Other behaviours of the code that the model states:
- A query ending in a space gives every product at least the 0.5 partial-name boost, because `split(' ')` yields an empty piece; a product whose name contains the whole lower-cased query gets the full boost of 2 instead.
- A query made only of stop words empties the list rather than restoring the catalogue.
- Stemming can produce `""` or a stop word, because stop words are removed before stemming.
- Duplicate ids overwrite the stored document but count twice in the document frequency.
- "Clear all" keeps the search results on screen.
- The type facet counts a product under its `productType`, while the type filter looks only at the mapped raw `type`. A product can therefore be counted under "Apps" and still be removed by selecting "Apps".

## Model

| member | source | states |
|---|---|---|
| Catalog.LifespanClosed | src/types/Product.ts:1 | exactly five lifespan categories, pairwise distinct, each label parsing back to its category |
| Catalog.TypeClosed | src/types/Product.ts:3 | exactly three product types, each label parsing back to its type |
| Catalog.CategoryClosed | src/types/Product.ts:5-17 | exactly twelve product categories, distinct, each label parsing back |
| Catalog.CategoryRoundTrip | src/types/Product.ts:5-17 | every category is enumerated and its label parses back to it |
| Catalog.ReasonClosed | src/types/Product.ts:19-26 | exactly seven shutdown reasons, distinct, each label parsing back |
| Catalog.SortOptionClosed | src/types/Product.ts:62-68 | exactly six sort options, distinct, each label parsing back |
| Catalog.LifespanLabelInjective | src/types/Product.ts:1 | two lifespan categories share a label exactly when they are the same category |
| Catalog.TypeLabelInjective | src/types/Product.ts:3 | two product types share a label exactly when they are the same type |
| Catalog.CategoryLabelInjective | src/types/Product.ts:5-17 | two product categories share a label exactly when they are the same category |
| Catalog.ReasonLabelInjective | src/types/Product.ts:19-26 | two shutdown reasons share a label exactly when they are the same reason |
| Text.TrimEmptyIffBlank | src/utils/tfidfSearch.ts:138 | `trim()` yields the empty string exactly when the text is all white space |
| Text.SplitOnSpaceRoundTrip | src/utils/tfidfSearch.ts:162 | the pieces of `split(' ')` hold no space and joined with single spaces give back the text |
| Text.EmptyPieceFromDoubleSpace | src/utils/tfidfSearch.ts:162 | two adjacent spaces always yield an empty piece |
| Text.WordsEmptyIffBlank | src/utils/tfidfSearch.ts:8 | splitting on white-space runs yields no word exactly when the text is all white space |
| Text.WordsOfJoin | src/utils/tfidfSearch.ts:8 | non-empty words without white space, joined by single spaces, split back into exactly those words |
| Text.ContainsIffOccurs | src/utils/filterHelpers.ts:19-21 | `includes` holds exactly when the needle occurs at some position |
| Normalizer.Clean | src/utils/tfidfSearch.ts:6-7 | cleaning keeps the length; a character whose lower case is a `\w` character becomes that lower case, and any other character becomes white space |
| Normalizer.Tokenize | src/utils/tfidfSearch.ts:4-10 | the tokens are an order-preserving subsequence of the white-space-separated words of the cleaned text, each of at least two `\w` characters; every word of two or more characters occurs among the tokens as often as among the words, and a shorter one not at all |
| Normalizer.RemoveStopWords | src/utils/tfidfSearch.ts:13-27 | the result is an order-preserving subsequence with no stop word; a token that is not a stop word occurs in it as often as in the input, a stop word not at all |
| Normalizer.Stem | src/utils/tfidfSearch.ts:30-42 | stemming removes at most four characters and never lengthens a word |
| Normalizer.StemShape | src/utils/tfidfSearch.ts:30-42 | the stem is a prefix of the word, except under the `ies` rule, which ends it in `y` |
| Normalizer.StemKeepsTokenChars | src/utils/tfidfSearch.ts:30-42 | stemming a word of `\w` characters leaves only `\w` characters |
| Normalizer.ProcessText | src/utils/tfidfSearch.ts:44-48 | there is one term per token that is not a stop word, in order: the k-th term is the stem of the k-th such token; every term consists of `\w` characters, and the stem of every kept token is a term |
| Normalizer.TokenizeAppend | src/utils/tfidfSearch.ts:4-10 | tokenising two texts joined by a space gives the tokens of the first followed by those of the second |
| Normalizer.ProcessTextAppend | src/utils/tfidfSearch.ts:44-48 | processing two texts joined by a space gives the terms of the first followed by those of the second |
| Normalizer.WordIsTerm | src/utils/tfidfSearch.ts:4-48 | a word of the cleaned text with two or more characters that is not a stop word contributes its stem to the terms |
| Normalizer.TermIsWord | src/utils/tfidfSearch.ts:4-48 | every term is the stem of a word of the cleaned text that is not a stop word |
| Normalizer.StopWordLength | src/utils/tfidfSearch.ts:13-23 | no stop word is longer than six characters, and "should" is the only one of six |
| Normalizer.StopWordsOnly | src/utils/tfidfSearch.ts:25-27 | text whose tokens are all stop words processes to no terms |
| Normalizer.StemRunning | src/utils/tfidfSearch.ts:32 | "running" stems to "runn" |
| Normalizer.StemStudies | src/utils/tfidfSearch.ts:34 | "studies" stems to "study" |
| Normalizer.StemBoxes | src/utils/tfidfSearch.ts:35 | "boxes" stems to "box" |
| Normalizer.StemGlass | src/utils/tfidfSearch.ts:36 | "glass" is left alone by the "ss" exception |
| Normalizer.StemSings | src/utils/tfidfSearch.ts:36 | "sings" stems to "sing" |
| Normalizer.StemToEmpty | src/utils/tfidfSearch.ts:32 | "ing" stems to the empty string |
| Normalizer.StemToStopWord | src/utils/tfidfSearch.ts:44-48 | "willing" is no stop word but stems to the stop word "will", which survives because removal precedes stemming |
| TfIdf.ProductId | src/utils/tfidfSearch.ts:50-52 | a product is keyed by its identifier when it has one and by its name otherwise; the key is empty only when both are |
| TfIdf.TypeText | src/utils/tfidfSearch.ts:60 | the type part is the enumerated type's label, else the raw `type` field, else empty |
| TfIdf.TextParts | src/utils/tfidfSearch.ts:55-64 | the parts are name, description, category, type, shutdown reason and reason detail (empty when absent), then every notable feature in order |
| TfIdf.JoinTerms | src/utils/tfidfSearch.ts:65 | processing parts joined by single spaces gives each part's terms in order: no word is merged or split across parts |
| TfIdf.ProductTerms | src/utils/tfidfSearch.ts:55-66 | a product's terms are the terms of its text parts, concatenated in order, starting with those of its name |
| TfIdf.AddTerms | src/utils/tfidfSearch.ts:88-91 | adding a product's term set gives exactly the old terms plus the new ones as keys, raises the frequency of each of its terms by one and leaves every other frequency as it was |
| TfIdf.BuildIndex | src/utils/tfidfSearch.ts:76-100 | the index counts all products, keeps them, stores a document for every product id, and the frequency of a term is the number of products whose term set holds it |
| TfIdf.DocumentFrequencyCounts | src/utils/tfidfSearch.ts:87-91 | each product adds one to the frequency of each distinct term it has |
| TfIdf.DocumentsKeys | src/utils/tfidfSearch.ts:84-85 | every product id gets an entry in the documents |
| TfIdf.DocumentsFromEntries | src/utils/tfidfSearch.ts:81-85 | every stored document is the term sequence of some product with that id |
| TfIdf.EntriesWellFormed | src/utils/tfidfSearch.ts:81-97 | no frequency exceeds the number of documents, and every stored term has frequency at least 1 |
| TfIdf.DocumentsLastWins | src/utils/tfidfSearch.ts:85 | with duplicate ids the last product's terms are the stored document |
| TfIdf.DocumentOfOwnTerms | src/utils/tfidfSearch.ts:50-52 | with a unique id, the document looked up for a product is its own terms |
| TfIdf.CountPositive | src/utils/tfidfSearch.ts:104 | the occurrence count is positive exactly when the term is in the document |
| TfIdf.TfBounds | src/utils/tfidfSearch.ts:103-107 | term frequency is 0 for an absent term and at least 1 for a present one |
| TfIdf.TfMonotone | src/utils/tfidfSearch.ts:103-107 | more occurrences give a strictly higher term frequency |
| TfIdf.IdfBounds | src/utils/tfidfSearch.ts:110-115 | inverse document frequency is 0 when the frequency is 0 and at least 1 otherwise |
| TfIdf.IdfDecreasing | src/utils/tfidfSearch.ts:110-115 | a rarer term (smaller positive frequency) has a strictly larger inverse document frequency |
| TfIdf.SumNonNegative | src/utils/tfidfSearch.ts:118-125 | the summed TF-IDF over the query terms is never negative |
| TfIdf.ScoreNonNegative | src/utils/tfidfSearch.ts:118-129 | the query-length-averaged score is never negative |
| TfIdf.SumAllTerms | src/utils/tfidfSearch.ts:118-125 | when every query term is in the document, the sum is at least the number of query terms |
| TfIdf.ScoreAllTerms | src/utils/tfidfSearch.ts:118-129 | a document holding every query term averages a score of at least 1 |
| TfIdf.SumNoTerms | src/utils/tfidfSearch.ts:118-125 | when no query term is in the document, the sum is 0 |
| TfIdf.ByScoreDescending | src/utils/tfidfSearch.ts:173 | sorting by score leaves the results in non-increasing score order |
| TfIdf.ByScoreKeepsTies | src/utils/tfidfSearch.ts:173 | sorting by score is stable: results with equal scores keep their input order |
| TfIdf.Search | src/utils/tfidfSearch.ts:137-176 | a blank query or one with no terms returns nothing; results are in non-increasing score order |
| TfIdf.SearchIsRank | src/utils/tfidfSearch.ts:137-146 | the two early exits return nothing; otherwise search ranks the processed query |
| TfIdf.RankMembership | src/utils/tfidfSearch.ts:150-170 | a result is in the ranking exactly when it is a catalogue product with its final score and that score is at least 1 |
| TfIdf.RankTiesInCatalogueOrder | src/utils/tfidfSearch.ts:173 | results with equal scores keep catalogue order |
| TfIdf.NameMatchFound | src/utils/tfidfSearch.ts:157-168 | in the ranking of a processed query, a product whose name contains the whole query, case aside, is always present |
| TfIdf.AllTermsFound | src/utils/tfidfSearch.ts:118-129 | in the ranking of a non-empty processed query, a product whose document holds every query term is always present |
| TfIdf.SearchAtMostProducts | src/utils/tfidfSearch.ts:137-176 | search never returns more results than the catalogue has products |
| TfIdf.NameMatchSearched | src/utils/tfidfSearch.ts:137-176 | a query that is not blank and keeps at least one term returns every product whose name contains it, case aside |
| TfIdf.AllTermsSearched | src/utils/tfidfSearch.ts:137-176 | a query that is not blank and keeps at least one term returns every product whose document holds all its terms |
| TfIdf.UnrelatedNotFound | src/utils/tfidfSearch.ts:155-169 | a product with no query term and no query piece in its name is never returned |
| TfIdf.WholeGivesPiece | src/utils/tfidfSearch.ts:160-163 | whenever the whole query is in the name, some piece of it is too |
| TfIdf.TrailingSpaceBoostsAll | src/utils/tfidfSearch.ts:160-163 | a query ending in a space gives every name at least the 0.5 boost: exactly 0.5, or 2 when the name contains the whole query |
| Filters.MapTypeLabels | src/utils/filterHelpers.ts:4-11 | each type's own label maps back to it, and the mapping ignores case |
| Filters.MapTypeEmpty | src/utils/filterHelpers.ts:5 | a missing or empty raw type maps to no type |
| Filters.ApplyFilters | src/utils/filterHelpers.ts:13-57 | the result is an order-preserving subsequence holding exactly the products that pass every dimension, each as many times as in the input |
| Filters.NoFiltersKeepAll | src/utils/filterHelpers.ts:16-53 | with nothing selected and no query every product is kept, in order |
| Filters.ApplyFiltersIdempotent | src/utils/filterHelpers.ts:13-57 | filtering a filtered list again changes nothing |
| Filters.SelectionOrderIrrelevant | src/utils/filterHelpers.ts:26-53 | only which values are selected matters, not their order or repetition |
| Filters.TypeSelectionNeedsRawType | src/utils/filterHelpers.ts:33-39 | with a type selected, every kept product has a raw type that maps to a type |
| Filters.Tally | src/utils/filterHelpers.ts:65-69 | the counts have a key for every listed value and no other |
| Filters.CountEach | src/utils/filterHelpers.ts:65-106 | the counting loop leaves, for every listed non-empty value, the number of products carrying it, 0 for the empty value, and no other key |
| Filters.WalkKeys | src/utils/filterHelpers.ts:67-104 | the walk has a key for exactly the listed values |
| Filters.WalkCounts | src/utils/filterHelpers.ts:89-106 | after the walk, a listed non-empty value's count is the number of products carrying it, and the empty value stays 0 |
| Filters.WalkIsTally | src/utils/filterHelpers.ts:65-106 | the walk the loop performs equals the tally that counts each listed value directly |
| Filters.CountByFacet | src/utils/filterHelpers.ts:59-109 | the loop computes, for every listed value, the number of products passing the other dimensions that carry it |
| Filters.LifespanCountIsWhatIf | src/utils/filterHelpers.ts:71-86 | a lifespan's count is the length of the list if that lifespan alone were selected |
| Filters.CategoryCountIsWhatIf | src/utils/filterHelpers.ts:71-86 | a category's count is the length of the list if that category alone were selected |
| Filters.ReasonCountIsWhatIf | src/utils/filterHelpers.ts:71-86 | a reason's count is the length of the list if that reason alone were selected |
| Filters.TypeCountIsWhatIf | src/utils/filterHelpers.ts:77-95 | a type's count is the what-if list length, provided enumerated and raw types agree |
| Filters.TypeCountDisagreesWithFilter | src/utils/filterHelpers.ts:33-39 | a product with `productType` Apps and no raw type is counted under Apps yet removed by selecting Apps |
| Filters.FacetCountsComplete | src/utils/filterHelpers.ts:86-106 | over distinct listed values, each count is the number of kept products carrying it, and the counts sum to the kept products carrying any of them |
| UseFilters.Toggle | src/hooks/useFilters.ts:21-55 | a toggle flips the value's membership, keeps every other value, appends an absent value at the end, and removes a present one keeping order |
| UseFilters.ToggleKeepsDistinct | src/hooks/useFilters.ts:24-26 | toggling keeps a list free of duplicates |
| UseFilters.ToggleLength | src/hooks/useFilters.ts:24-26 | on a duplicate-free list a toggle changes the length by exactly one |
| UseFilters.ToggleTwice | src/hooks/useFilters.ts:24-26 | toggling an absent value twice gives back the list, and toggling any value twice gives back its members |
| UseFilters.ReachableNoDuplicates | src/hooks/useFilters.ts:10-66 | every state the hook's actions can reach has no duplicate selection |
| UseFilters.CountZeroIffInitial | src/hooks/useFilters.ts:64-76 | the active count is 0 exactly in the initial state, which is what clearing returns |
| UseFilters.ToggleMovesCountByOne | src/hooks/useFilters.ts:68-76 | a toggle moves the active count by one, down for a present value and up for an absent one |
| UseFilters.ActionsAreLocal | src/hooks/useFilters.ts:21-62 | each toggle and the query setter change only their own field |
| StableSort.SortBy | src/utils/sortHelpers.ts:4-27 | sorting by a key returns a permutation in non-decreasing key order |
| StableSort.SortByStable | src/utils/sortHelpers.ts:4-27 | elements with equal keys keep their input order |
| StableSort.SortBySorted | src/utils/sortHelpers.ts:4-27 | a list already in key order comes back unchanged |
| Sorting.SortProducts | src/utils/sortHelpers.ts:3-27 | the result is a permutation of the input in which no pair is out of order by the option's comparator |
| Sorting.SortProductsByName | src/utils/sortHelpers.ts:3-32 | any option string gives a permutation of the input |
| Sorting.KeyMatchesCompare | src/utils/sortHelpers.ts:7-27 | each comparator is the difference of one sort key |
| Sorting.SortProductsStable | src/utils/sortHelpers.ts:4-27 | products the comparator ties keep their input order |
| Sorting.SortProductsIdempotent | src/utils/sortHelpers.ts:3-27 | sorting a sorted list again changes nothing |
| Sorting.UnknownOptionKeepsOrder | src/utils/sortHelpers.ts:29-30 | an unknown option returns the list unchanged; each known label sorts by its option |
| Sorting.OppositeSwaps | src/utils/sortHelpers.ts:7-27 | each descending comparator is the ascending one with arguments swapped, and vice versa |
| Sorting.OppositeReadsBackwards | src/utils/sortHelpers.ts:7-27 | a list sorted by one option, read backwards, is ordered by the opposite option |
| Sorting.LifespanOrder | src/utils/sortHelpers.ts:17-21 | `lifespan-desc` gives non-increasing months and `lifespan-asc` non-decreasing months |
| App.FilteredProducts | src/App.tsx:44-53 | the grid's list holds exactly the base list's products that pass the facets, with the text test suppressed |
| App.HandleSearchResultsState | src/App.tsx:37-41 | results are kept exactly when the query is non-empty, both query copies become the query, and facets and sort are untouched |
| App.PerformSearch | src/components/SearchBox.tsx:28-50 | a blank query stores no results and an empty query; any other stores results, at most one per product and none for a query without terms, with the query as typed; the filter hook mirrors the query, and facets and sort are untouched |
| App.TextTestNeverApplied | src/App.tsx:46 | changing the filter query never changes the grid's list |
| App.SearchKeepsRankOrder | src/App.tsx:44-51 | during a search the list is a subsequence of the ranked results passing the facets, whatever the sort option |
| App.NoSearchSorts | src/App.tsx:52 | without a search the list is in the chosen option's order |
| App.BlankQueryRestoresCatalogue | src/components/SearchBox.tsx:31-34 | a blank query clears results and query, and lists the catalogue's products passing the facets |
| App.SearchListsRankedProducts | src/components/SearchBox.tsx:44-47 | a non-blank query lists the ranked products narrowed by facets, in rank order |
| App.StopWordQueryListsNothing | src/components/SearchBox.tsx:44-47 | a non-blank query with no terms empties the list |
| App.ClearAllKeepsSearch | src/App.tsx:44-51 | clearing all filters during a search zeroes the count but leaves exactly the search results on screen |
| App.PanelAsWrittenMissesListedProduct | src/App.tsx:75-86 | a listed search hit is counted 0 in its own lifespan by the panel as written, 1 by the corrected panel |
| App.PanelLifespanMatchesList | src/App.tsx:75-86 | each lifespan count is the length of the grid's list if that lifespan alone were selected |
| App.PanelCategoryMatchesList | src/App.tsx:75-86 | each category option's count is the length of the grid's list if that category alone were selected |
| App.PanelReasonMatchesList | src/App.tsx:75-86 | each reason option's count is the length of the grid's list if that reason alone were selected |
| App.PanelsAgreeWithoutQuery | src/App.tsx:75-86 | with no query in the filters, the as-written and corrected panels agree |
| FacetPanel.Flatten | src/components/facets/FacetPanel.tsx:64 | the flat list holds every grouped value and nothing else |
| FacetPanel.FlattenAppend | src/components/facets/FacetPanel.tsx:64 | flattening two runs of groups concatenates their flat lists, so values keep the order of the groups and their order within a group |
| FacetPanel.FlattenSingle | src/components/facets/FacetPanel.tsx:64 | the flat list of a single group is that group's values |
| FacetPanel.RenderPanel | src/components/facets/FacetPanel.tsx:155-207 | the panel lists every lifespan and type label in order, and every use-case and shutdown-reason group with its name and its values in order, each option with a count |
| FacetPanel.LifespanOptionsExact | src/components/facets/FacetPanel.tsx:21-27 | the lifespan facet lists each of the five categories once, in enumeration order |
| FacetPanel.TypeOptionsExact | src/components/facets/FacetPanel.tsx:29 | the type facet lists each of the three types once, in enumeration order |
| FacetPanel.CategoryOptionsValue | src/components/facets/FacetPanel.tsx:32-64 | the flattened category groups, in group order |
| FacetPanel.CategoryOptionsExact | src/components/facets/FacetPanel.tsx:32-64 | the flattened groups hold each of the twelve categories exactly once and nothing else |
| FacetPanel.ReasonOptionsValue | src/components/facets/FacetPanel.tsx:67-83 | the flattened reason groups, in group order |
| FacetPanel.ReasonOptionsExact | src/components/facets/FacetPanel.tsx:67-83 | the flattened groups hold each of the seven reasons exactly once and nothing else |
| FacetPanel.LifespanOptionCounts | src/components/facets/FacetPanel.tsx:105-108 | the i-th lifespan option shows the what-if count of the i-th category |
| FacetPanel.TypeOptionCounts | src/components/facets/FacetPanel.tsx:109-112 | the i-th type option shows the what-if count of the i-th type, provided enumerated and raw types agree |
| FacetPanel.CategoryOptionCounts | src/components/facets/FacetPanel.tsx:113-116 | every category option shows the what-if count of its own category |
| FacetPanel.ReasonOptionCounts | src/components/facets/FacetPanel.tsx:117-120 | every reason option shows the what-if count of its own reason |
| HierarchicalFacets.InitiallyExpanded | src/components/facets/HierarchicalFacetGroup.tsx:39-41 | every parent, and nothing else, starts expanded |
| HierarchicalFacets.ToggleExpanded | src/components/facets/HierarchicalFacetGroup.tsx:44-54 | toggling flips the named parent and leaves every other parent as it was |
| HierarchicalFacets.ToggleExpandedTwice | src/components/facets/HierarchicalFacetGroup.tsx:44-54 | toggling a parent twice restores the expanded set |
| HierarchicalFacets.SelectionStateOf | src/components/facets/HierarchicalFacetGroup.tsx:57-65 | 'none' exactly when no option is selected (an empty parent included), 'all' exactly when there are options and all are selected |
| HierarchicalFacets.ApplyTogglesFlips | src/components/facets/HierarchicalFacetGroup.tsx:73-84 | successive toggles of distinct values flip exactly those values |
| HierarchicalFacets.ParentToggleSelectsOrClears | src/components/facets/HierarchicalFacetGroup.tsx:68-86 | from 'all' the click leaves none selected, otherwise all, and values outside the group keep their state |
| HierarchicalFacets.HandleCategoryToggle | src/components/facets/HierarchicalFacetGroup.tsx:68-86 | clicking a parent changes the state of its own options' values only, whether or not the values are distinct |
| HierarchicalFacets.CategoryCount | src/components/facets/HierarchicalFacetGroup.tsx:89-91 | the parent count bounds every option's count, and is 0 exactly when every count is 0 or missing |
| HierarchicalFacets.CategoryCountAppend | src/components/facets/HierarchicalFacetGroup.tsx:89-91 | the parent count of two runs of options is the sum of their counts, so the parent shows the total of its options |
| HierarchicalFacets.CategoryCountSingle | src/components/facets/HierarchicalFacetGroup.tsx:90 | one option contributes its count, a missing count as 0 |
| Grid.JsRem | src/components/product/ProductGrid.tsx:29 | JavaScript's remainder differs from the dividend by a multiple of the divisor, lies strictly between -b and b with the dividend's sign, and agrees with the mathematical remainder on non-negative dividends |
| Grid.TotalPages | src/components/product/ProductGrid.tsx:46 | the page count is the least number of nine-product pages that holds the list |
| Grid.JsSlice | src/components/product/ProductGrid.tsx:49 | a slice is never longer than the list; in-range bounds give exactly that stretch, an end past the list stops at its end, and an end at or before the start gives nothing |
| Grid.JsSliceNegativeStart | src/components/product/ProductGrid.tsx:49 | a negative start counts back from the end of the list, and one beyond its length starts at the beginning |
| Grid.JsSliceNegativeEnd | src/components/product/ProductGrid.tsx:49 | a negative end counts back from the end of the list, and one beyond its length gives nothing |
| Grid.PageItems | src/components/product/ProductGrid.tsx:47-49 | a page holds at most nine products, namely the list from (page-1)·9 up to page·9 clipped to the end |
| Grid.PagesPrefix | src/components/product/ProductGrid.tsx:46-49 | the first k pages, concatenated, are the list up to k·9 clipped to its length |
| Grid.PagesCoverList | src/components/product/ProductGrid.tsx:46-49 | pages 1 to the page count hold every product exactly once, in order |
| Grid.PagesBeforeLastAreFull | src/components/product/ProductGrid.tsx:46-49 | every page before the last holds exactly nine products |
| Grid.Previous | src/components/product/ProductGrid.tsx:51-53 | Previous steps back one from any page after the first and stays at page 1 otherwise |
| Grid.Next | src/components/product/ProductGrid.tsx:55-57 | Next steps forward one from any page before the last and goes to the last page otherwise |
| Grid.PageColorCycles | src/components/product/ProductGrid.tsx:26-30 | page colours cycle with period 4 through the four colours, blue at page 1 |
| Grid.PageRowShape | src/components/product/ProductGrid.tsx:99-134 | the current page always has a button; a page more than two away, other than the first and last, shows nothing |
| Grid.GapsHaveEllipsis | src/components/product/ProductGrid.tsx:99-134 | between two neighbouring buttons with hidden pages in between there is always an ellipsis |
| Grid.StepKeepsValid | src/components/product/ProductGrid.tsx:42-61 | every click and render keeps the current page at least 1 and within the page count, or at 1 for an empty list |
| Grid.Step | src/components/product/ProductGrid.tsx:42-61 | an event keeps a valid page valid; Previous never moves forward and Next never back; a page click moves only to the clicked page; only a render changes the count and sort option |
| Grid.RenderResets | src/components/product/ProductGrid.tsx:42-44 | a new length or sort option resets to page 1; otherwise nothing changes |
| ProductView.MapTypeCases | src/components/product/ProductCard.tsx:25-32 | the card's (and detail view's) type mapping recognises exactly app/apps, service/services and hardware, case aside |
| ProductView.DisplayedTypeIsCountedType | src/components/product/ProductCard.tsx:41 | the tag shows the type the facet counts the product under, and Services when the facet counts it under none |
| ProductView.DisplayedType | src/components/product/ProductCard.tsx:41 | an enumerated type is shown as it is; otherwise the tag shows the type the facet counts the product under, or Services when it counts it under none |
| ProductView.KeptProductShowsSelectedType | src/components/product/ProductDetail.tsx:26 | a product without its own enumerated type that the type filter keeps is shown with a selected type |
| ProductView.ShownAsServicesButFilteredOut | src/components/product/ProductCard.tsx:41 | a product with an unknown raw type is shown as Services but removed by selecting Services |
| ProductView.BadgeOf | src/components/product/ProductCard.tsx:57-58 | every product's badge comes from the colour table |
| ProductView.LifespanTableComplete | src/components/product/ProductCard.tsx:9-15 | the colour table has an entry for every lifespan category and only for them |
| ProductView.BadgeByLifespan | src/components/product/ProductCard.tsx:9-15 | red exactly for under a year, dark text exactly for 1-2 years, green exactly for five years and more |
| ProductView.Links | src/components/product/ProductDetail.tsx:29 | the links are the product's own list when it has one, otherwise none |
| ProductView.LinksHeading | src/components/product/ProductDetail.tsx:126-130 | no heading without links, "Related Link" exactly for one link, "Related Links" otherwise |
| ProductView.LinksSectionShown | src/components/product/ProductDetail.tsx:126-130 | the links section appears exactly when the product has at least one link |

Definitions that only compute carry no row of their own; the rows of the lemmas about them state what they mean:
- `Filters.MapType`: `Filters.MapTypeLabels`, `Filters.MapTypeEmpty`, `ProductView.MapTypeCases`.
- `Filters.Passes` and `Filters.PassesText`: `Filters.ApplyFilters`, `App.TextTestNeverApplied`.
- `TfIdf.Tf`: `TfIdf.TfBounds`, `TfIdf.TfMonotone`. `TfIdf.Idf`: `TfIdf.IdfBounds`, `TfIdf.IdfDecreasing`.
- `TfIdf.SumTfIdf` and `TfIdf.Score`: `TfIdf.SumNonNegative`, `TfIdf.SumAllTerms`, `TfIdf.SumNoTerms`, `TfIdf.ScoreNonNegative`, `TfIdf.ScoreAllTerms`.
- `TfIdf.NameBoost`: `TfIdf.NameMatchFound`, `TfIdf.UnrelatedNotFound`, `TfIdf.TrailingSpaceBoostsAll`.
- `TfIdf.FinalScore`, `TfIdf.Candidates` and `TfIdf.Rank`: `TfIdf.SearchIsRank`, `TfIdf.RankMembership`, `TfIdf.RankTiesInCatalogueOrder`.
- `Grid.PageColor`: `Grid.PageColorCycles`. `Grid.ShowButton` and `Grid.ShowEllipsis`: `Grid.PageRowShape`, `Grid.GapsHaveEllipsis`.
- `App.HandleSearchResults`: `App.HandleSearchResultsState`.
- `UseFilters.ActiveFilterCount`: `UseFilters.CountZeroIffInitial`, `UseFilters.ToggleMovesCountByOne`.

## Left out

- Debouncing in the search box (`setTimeout`/`clearTimeout`) is not modelled. `App.PerformSearch` is the search as it runs once the quiet period has passed.
- The search box ignores queries while its index is still being built (src/components/SearchBox.tsx:29); `App.PerformSearch` takes a built index.
- The search box's dropdown state and its top-five slice of results are not modelled; they are presentation only.
- `Math.log` is a parameter with the properties the proofs need, so no numeric value of a score is computed.
- Floating-point rounding is not modelled: scores are exact reals.
- Date parsing (`new Date(..).getTime()`) is an integer-valued parameter, so an unparsable date (`NaN`) is not modelled.
- `localeCompare` is a real-valued rank parameter, so only its order matters.
- `toLocaleDateString` formatting on the card and detail view is not modelled.
- `toLowerCase` and `\w` are modelled on ASCII only, so Unicode case mapping is not.
- Dataset loading is not modelled; the catalogue is a parameter.
- React mechanics (`useState`, `useMemo`, `useEffect`, `useCallback`) become pure state transitions.
- JSX, styling and icons are not modelled.
- The facet colour constants and the pluralised captions ("product"/"products", "filter"/"filters", "criterion"/"criteria") are presentation only and not modelled.
- The mobile menu state and Header.tsx are not modelled.
- FacetGroup.tsx, the non-hierarchical group component, is not modelled: it only renders checkboxes.
- The whole-group collapse flag of the hierarchical group is not modelled: it only hides content.
- Filters.TypeCountIsWhatIf: stated only for catalogues whose enumerated and raw types agree, because the count and the filter resolve a product's type differently; `Filters.TypeCountDisagreesWithFilter` exhibits the difference.
- FacetPanel.TypeOptionCounts: holds under the same agreement hypothesis, for the same reason.
- Grid.StepKeepsValid: clicks are modelled only on buttons that are rendered (more than one page, a visible page button), as in the source.
- Grid.PageColorCycles: stated for pages from 1 upward, the only pages the row renders.
- The array-valued branch of `countByFacet` (src/utils/filterHelpers.ts:97-101) is not modelled: the panel only counts by the four scalar keys `lifespanCategory`, `productType`, `productCategory` and `shutdownReason`, which `Filters.Facet` enumerates, and none of them holds an array.
- `lifespanMonths` is a JavaScript `number` but is modelled as an integer, so fractional month counts (and `NaN`) are not modelled; the lifespan sort only compares it.

## Findings

| source | as written | input that shows it | evidently intended | confidence | as-written member | corrected member |
|---|---|---|---|---|---|---|
| src/App.tsx:75-86 | The facet panel counts with the hook's filters. During a search their query is the search query, so the counts apply the substring text test, which the listed products never had to pass (the list forces the query to `''`). | Catalogue [Google Notebook, description "Web clipper", lifespan 5-10 years]; query "notebook google". Both terms are in the product's document, so search returns it, but neither its name nor its description contains the text "notebook google". The product is listed, but the panel counts 0 under "5-10 years". | The counts are what-if lengths of the list on screen, computed with the same text-free filters as the list | not executed | App.PanelAsWrittenMissesListedProduct | App.PanelLifespanMatchesList |

=== FILE: app.dfy ===
/** The glue of src/App.tsx: what a finished search stores
    (`handleSearchResults`), which list the grid shows (`filteredProducts`),
    and which products and filters the facet panel counts. The catalogue
    (`productsData`) is a parameter, and so are the close-date parser and the
    collation order that the sort needs. */
module App {
  import opened Text
  import opened Seqs
  import opened Catalog
  import opened Normalizer
  import opened Filters
  import opened UseFilters
  import opened Sorting
  import opened TfIdf
  import opened HierarchicalFacets
  import opened FacetPanel

  /** The part of the component's state the list depends on; `filters` is
      the state of the filter hook. */
  datatype AppState = AppState(
    searchResults: Option<seq<Product>>,
    searchQuery: string,
    filters: FilterState,
    sortOption: SortOption)

  /** The state on start: no search, no filters, most recently closed
      first. */
  const Initial: AppState := AppState(None, "", NoFilters, DateCloseDesc)

  /** `handleSearchResults(results, query)`: results are kept only for a
      non-empty query, and the query goes both to the component and to the
      filter hook. */
  function HandleSearchResults(s: AppState, results: seq<Product>, query: string): AppState {
    s.(searchResults := if query != "" then Some(results) else None,
       searchQuery := query,
       filters := SetSearchQuery(s.filters, query))
  }

  /** `searchResults.map(r => r.product)`. */
  function ProductsOf(rs: seq<SearchResult>): (ps: seq<Product>)
    ensures |ps| == |rs|
    ensures forall i :: 0 <= i < |rs| ==> ps[i] == rs[i].product
  {
    seq(|rs|, i requires 0 <= i < |rs| => rs[i].product)
  }

  /** `performSearch(query)` of the search box once its debounce has fired:
      a blank query reports the whole catalogue with an empty query, any
      other reports its ranked products with the query as typed. */
  function PerformSearch(s: AppState, ln: real -> real, idx: Index, query: string): (r: AppState)
    ensures Trim(query) == "" ==> r.searchResults.None? && r.searchQuery == ""
    ensures Trim(query) != "" ==> r.searchResults.Some? && r.searchQuery == query
    ensures r.searchResults.Some? ==> |r.searchResults.value| <= |idx.products|
    ensures Trim(query) != "" && ProcessText(query) == [] ==> r.searchResults == Some([])
    ensures r.filters.searchQuery == r.searchQuery
    ensures ListFilters(r) == ListFilters(s) && r.sortOption == s.sortOption
  {
    SearchAtMostProducts(ln, query, idx);
    if Trim(query) == "" then HandleSearchResults(s, idx.products, "")
    else HandleSearchResults(s, ProductsOf(Search(ln, query, idx)), query)
  }

  /** `baseProducts`: the search results when there are any, otherwise the
      catalogue. The panel receives the same list. */
  function BaseProducts(s: AppState, products: seq<Product>): seq<Product> {
    match s.searchResults
    case Some(results) => results
    case None => products
  }

  /** The filters the list applies: the hook's, with the text test switched
      off by an empty query. */
  function ListFilters(s: AppState): FilterState {
    s.filters.(searchQuery := "")
  }

  /** A search is showing: a non-empty query with results. */
  predicate Searching(s: AppState) {
    s.searchQuery != "" && s.searchResults.Some?
  }

  /** `filteredProducts`: the base narrowed by the facets, in rank order
      while a search is showing and sorted otherwise. */
  function FilteredProducts(s: AppState, products: seq<Product>, time: string -> int, rank: string -> real): (r: seq<Product>)
    ensures multiset(r) == multiset(ApplyFilters(BaseProducts(s, products), ListFilters(s)))
  {
    var filtered := ApplyFilters(BaseProducts(s, products), ListFilters(s));
    if Searching(s) then filtered
    else SortProducts(filtered, s.sortOption, time, rank)
  }

  /** The facet panel as written: it counts the base products under the
      hook's filters, whose query is the search query. */
  function PanelAsWritten(s: AppState, products: seq<Product>): Panel {
    RenderPanel(BaseProducts(s, products), s.filters)
  }

  /** The facet panel, counting under the filters the list applies. */
  function PanelOf(s: AppState, products: seq<Product>): Panel {
    RenderPanel(BaseProducts(s, products), ListFilters(s))
  }

  // ---------------------------------------------------------------------
  // Proofs: the search state

  /** After `handleSearchResults` there are results exactly when the query
      is non-empty, they are the results reported, and the hook's query
      mirrors the component's; only the query of the filters changes. */
  lemma {:induction false} HandleSearchResultsState(s: AppState, results: seq<Product>, query: string)
    ensures var t := HandleSearchResults(s, results, query);
      && (t.searchResults.Some? <==> query != "")
      && (t.searchResults.Some? ==> t.searchResults.value == results)
      && t.searchQuery == query && t.filters.searchQuery == query
      && ListFilters(t) == ListFilters(s)
      && t.sortOption == s.sortOption
  {
  }

  // ---------------------------------------------------------------------
  // Proofs: the list

  /** The text test never narrows the list: whatever query the filters
      hold, the list is the same. */
  lemma {:induction false} TextTestNeverApplied(s: AppState, products: seq<Product>, time: string -> int, rank: string -> real, q: string)
    ensures FilteredProducts(s.(filters := SetSearchQuery(s.filters, q)), products, time, rank)
         == FilteredProducts(s, products, time, rank)
  {
    assert ListFilters(s.(filters := SetSearchQuery(s.filters, q))) == ListFilters(s);
  }

  /** While a search is showing, the list is the ranked results that pass
      the facets, in rank order, and the sort option plays no part. */
  lemma {:induction false} SearchKeepsRankOrder(s: AppState, products: seq<Product>, time: string -> int, rank: string -> real, o: SortOption)
    requires Searching(s)
    ensures IsSubsequence(FilteredProducts(s, products, time, rank), s.searchResults.value)
    ensures forall p <- FilteredProducts(s, products, time, rank) :: Passes(p, ListFilters(s))
    ensures FilteredProducts(s.(sortOption := o), products, time, rank) == FilteredProducts(s, products, time, rank)
  {
  }

  /** Otherwise the list is the facet-filtered base, ordered by the sort
      option's comparator. */
  lemma {:induction false} NoSearchSorts(s: AppState, products: seq<Product>, time: string -> int, rank: string -> real)
    requires !Searching(s)
    ensures forall i, j :: 0 <= i < j < |FilteredProducts(s, products, time, rank)| ==>
      Compare(s.sortOption, time, rank, FilteredProducts(s, products, time, rank)[i], FilteredProducts(s, products, time, rank)[j]) <= 0.0
  {
  }

  /** Clearing the search box brings back the whole catalogue, narrowed by
      the facets and sorted. */
  lemma {:induction false} BlankQueryRestoresCatalogue(s: AppState, ln: real -> real, idx: Index, query: string, time: string -> int, rank: string -> real)
    requires Trim(query) == ""
    ensures var t := PerformSearch(s, ln, idx, query);
      && t.searchResults == None && t.searchQuery == ""
      && multiset(FilteredProducts(t, idx.products, time, rank)) == multiset(ApplyFilters(idx.products, ListFilters(s)))
  {
  }

  /** A search lists its ranked products that pass the facets, in rank
      order, so every listed product scored at least 1. */
  lemma {:induction false} SearchListsRankedProducts(s: AppState, ln: real -> real, idx: Index, query: string, time: string -> int, rank: string -> real)
    requires Trim(query) != ""
    ensures var t := PerformSearch(s, ln, idx, query);
      FilteredProducts(t, idx.products, time, rank) == ApplyFilters(ProductsOf(Search(ln, query, idx)), ListFilters(s))
  {
    assert query != "";
  }

  /** A query that is not blank but normalises to no terms (only stop words
      and one-letter words, such as "the") empties the list, rather than
      restoring the catalogue. */
  lemma {:induction false} StopWordQueryListsNothing(s: AppState, ln: real -> real, idx: Index, query: string, time: string -> int, rank: string -> real)
    requires Trim(query) != "" && ProcessText(query) == []
    ensures FilteredProducts(PerformSearch(s, ln, idx, query), idx.products, time, rank) == []
  {
    SearchListsRankedProducts(s, ln, idx, query, time, rank);
  }

  /** "Clear all" empties the hook's filters, query included, yet the
      search results stay on screen, all of them, in rank order. */
  lemma {:induction false} ClearAllKeepsSearch(s: AppState, products: seq<Product>, time: string -> int, rank: string -> real)
    requires Searching(s)
    ensures var t := s.(filters := ClearAllFilters(s.filters));
      && ActiveFilterCount(t.filters) == 0
      && FilteredProducts(t, products, time, rank) == s.searchResults.value
  {
    var t := s.(filters := ClearAllFilters(s.filters));
    assert ListFilters(t) == NoFilters;
    NoFiltersKeepAll(s.searchResults.value);
  }

  // ---------------------------------------------------------------------
  // Proofs: the panel against the list

  /** The example of the panel as written: searching a one-product catalogue
      for "notebook google" ranks the product, whose name and description do
      not contain that text. The list shows the product, yet the panel as
      written counts 0 under its lifespan, since its filters still apply the
      text test; the corrected panel counts 1. */
  lemma {:induction false} PanelAsWrittenMissesListedProduct(ln: real -> real, time: string -> int, rank: string -> real, s: AppState)
    requires IsLog(ln)
    requires s == PerformSearch(Initial, ln, BuildIndex([Notebook]), NotebookQuery)
    ensures FilteredProducts(s, [Notebook], time, rank) == [Notebook]
    ensures AllLifespans[3] == Notebook.lifespanCategory
    ensures PanelAsWritten(s, [Notebook]).lifespan[3].count == Some(0)
    ensures PanelOf(s, [Notebook]).lifespan[3].count == Some(1)
  {
    NotebookSearched(ln);
    LifespanClosed();
    NotebookListed(s, time, rank);
    NotebookCountedAsWritten(s);
    NotebookCountedInList(s);
  }

  /** A search hit whose text does not contain the query. */
  const Notebook: Product :=
    Product("Google Notebook", "google-notebook", "Web clipper", None,
            "2006-05-01", "2012-07-01", 74, FiveToTenYears, Some("service"), Some(Services),
            Productivity, StrategicMisalignment, None, None)

  const NotebookQuery: string := "notebook google"

  /** The search box reports exactly the notebook for the query. */
  lemma {:induction false} NotebookSearched(ln: real -> real)
    requires IsLog(ln)
    ensures PerformSearch(Initial, ln, BuildIndex([Notebook]), NotebookQuery)
         == HandleSearchResults(Initial, [Notebook], NotebookQuery)
  {
    assert !Blank(NotebookQuery) by { assert !IsSpace(NotebookQuery[0]); }
    TrimEmptyIffBlank(NotebookQuery);
    QueryTerms();
    NotebookDocument();
    SoleProductFound(ln, NotebookQuery, Notebook);
  }

  /** In a one-product catalogue, a query that gets past both early exits
      and whose every term is in the product's document returns exactly that
      product. */
  lemma {:induction false} SoleProductFound(ln: real -> real, query: string, p: Product)
    requires IsLog(ln)
    requires Trim(query) != "" && ProcessText(query) != []
    requires forall k :: 0 <= k < |ProcessText(query)| ==> ProcessText(query)[k] in Terms(p)
    ensures ProductsOf(Search(ln, query, BuildIndex([p]))) == [p]
  {
    var idx := BuildIndex([p]);
    SoleDocument(p);
    AllTermsSearched(ln, query, idx, p);
    SearchAtMostProducts(ln, query, idx);
    OnlyMember(Search(ln, query, idx), SearchResult(p, FinalScore(ln, query, ProcessText(query), idx, p)));
  }

  /** The index of a one-product catalogue stores the product's terms as its
      document. */
  lemma {:induction false} SoleDocument(p: Product)
    ensures p in BuildIndex([p]).products
    ensures DocumentOf(BuildIndex([p]), p) == Terms(p)
  {
    DocumentOfOwnTerms([p], 0);
  }

  /** A result list of at most one entry that holds `x` is `[x]`. */
  lemma {:induction false} OnlyMember(r: seq<SearchResult>, x: SearchResult)
    requires x in r && |r| <= 1
    ensures r == [x]
  {
  }

  /** The query splits into its two words. */
  lemma {:induction false} QueryWords()
    ensures Words(Clean(NotebookQuery)) == ["notebook", "google"]
  {
    assert NotebookQuery == "notebook" + " " + "google";
    TwoWords("notebook", "google");
    assert Lower("notebook") == "notebook" && Lower("google") == "google";
  }

  /** The query keeps a term, and each of its terms is one of its two
      words. */
  lemma {:induction false} QueryTerms()
    ensures ProcessText(NotebookQuery) != []
    ensures forall k :: 0 <= k < |ProcessText(NotebookQuery)| ==>
      ProcessText(NotebookQuery)[k] in ["notebook", "google"]
  {
    QueryWords();
    KeptWords();
    TwoWordTerms(NotebookQuery, "notebook", "google");
  }

  /** A text of two words, each kept and left unstemmed, has terms, and
      they are those words. */
  lemma {:induction false} TwoWordTerms(text: string, a: string, b: string)
    requires Words(Clean(text)) == [a, b]
    requires |a| >= 2 && a !in StopWords && Stem(a) == a && Stem(b) == b
    ensures ProcessText(text) != []
    ensures forall k :: 0 <= k < |ProcessText(text)| ==> ProcessText(text)[k] in [a, b]
  {
    WordIsTerm(text, 0);
    forall k | 0 <= k < |ProcessText(text)| ensures ProcessText(text)[k] in [a, b] {
      TermOfTwoWords(text, a, b, k);
    }
  }

  /** Each term of such a text is one of the two words. */
  lemma {:induction false} TermOfTwoWords(text: string, a: string, b: string, k: nat)
    requires Words(Clean(text)) == [a, b]
    requires Stem(a) == a && Stem(b) == b
    requires k < |ProcessText(text)|
    ensures ProcessText(text)[k] in [a, b]
  {
    TermIsWord(text, k);
  }

  /** The two words are kept as they are. */
  lemma {:induction false} KeptWords()
    ensures "notebook" !in StopWords && Stem("notebook") == "notebook"
    ensures "google" !in StopWords && Stem("google") == "google"
  {
    if "notebook" in StopWords { StopWordLength("notebook"); }
    if "google" in StopWords { StopWordLength("google"); }
    StemNotebook();
    StemGoogle();
  }

  lemma {:induction false} StemNotebook()
    ensures Stem("notebook") == "notebook"
  {
    var w := "notebook";
    assert w[5..] == "ook" && w[6..] == "ok" && w[7..] == "k" && w[4..] == "book";
  }

  lemma {:induction false} StemGoogle()
    ensures Stem("google") == "google"
  {
    var g := "google";
    assert g[3..] == "gle" && g[4..] == "le" && g[5..] == "e" && g[2..] == "ogle";
  }

  /** The product's document holds both words of its name. */
  lemma {:induction false} NotebookDocument()
    ensures "google" in Terms(Notebook) && "notebook" in Terms(Notebook)
  {
    NotebookWords();
    KeptWords();
    WordIsTerm(ProductText(Notebook), 0);
    WordIsTerm(ProductText(Notebook), 1);
  }

  /** The product's text starts with the two words of its name. */
  lemma {:induction false} NotebookWords()
    ensures |Words(Clean(ProductText(Notebook)))| >= 2
    ensures Words(Clean(ProductText(Notebook)))[0] == "google"
    ensures Words(Clean(ProductText(Notebook)))[1] == "notebook"
  {
    var rest := NotebookText();
    NameWords(ProductText(Notebook), rest);
  }

  lemma {:induction false} NameWords(text: string, rest: string)
    requires text == "Google" + " " + "Notebook" + " " + rest
    ensures |Words(Clean(text))| >= 2
    ensures Words(Clean(text))[0] == "google" && Words(Clean(text))[1] == "notebook"
  {
    LeadingWords("Google", "Notebook", rest);
    assert Lower("Google") == "google" && Lower("Notebook") == "notebook";
  }

  /** The product's text is its name, a space, and the other fields. */
  lemma {:induction false} NotebookText() returns (rest: string)
    ensures ProductText(Notebook) == "Google" + " " + "Notebook" + " " + rest
  {
    rest := NameFirst(Notebook);
    assert Notebook.name == "Google" + " " + "Notebook";
  }

  /** A product's text starts with its name and a space. */
  lemma {:induction false} NameFirst(p: Product) returns (rest: string)
    ensures ProductText(p) == p.name + " " + rest
  {
    rest := Join(TextParts(p)[1..], ' ');
  }

  /** Neither the name nor the description contains the query. */
  lemma {:induction false} NotebookMissesQuery()
    ensures !PassesText(Notebook, NotebookQuery)
  {
    assert Lower(NotebookQuery) == NotebookQuery;
    assert Lower(Notebook.name)[0] != NotebookQuery[0];
    assert |Lower(NotebookQuery)| == |Lower(Notebook.name)| > |Lower(Notebook.description)|;
  }

  lemma {:induction false} NotebookListed(s: AppState, time: string -> int, rank: string -> real)
    requires s == HandleSearchResults(Initial, [Notebook], NotebookQuery)
    ensures FilteredProducts(s, [Notebook], time, rank) == [Notebook]
  {
    assert ListFilters(s) == NoFilters;
    NoFiltersKeepAll([Notebook]);
  }

  lemma {:induction false} NotebookCountedAsWritten(s: AppState)
    requires s == HandleSearchResults(Initial, [Notebook], NotebookQuery)
    ensures PanelAsWritten(s, [Notebook]).lifespan[3].count == Some(0)
  {
    LifespanClosed();
    LifespanOptionCounts([Notebook], s.filters);
    NotebookMissesQuery();
    assert !Matcher(s.filters.(lifespanCategories := [AllLifespans[3]]))(Notebook);
    assert ApplyFilters([Notebook], s.filters.(lifespanCategories := [AllLifespans[3]])) == [];
  }

  lemma {:induction false} NotebookCountedInList(s: AppState)
    requires s == HandleSearchResults(Initial, [Notebook], NotebookQuery)
    ensures PanelOf(s, [Notebook]).lifespan[3].count == Some(1)
  {
    LifespanClosed();
    assert ListFilters(s) == NoFilters;
    LifespanOptionCounts([Notebook], NoFilters);
    NotebookKeptByLifespan();
  }

  /** Selecting the notebook's lifespan alone keeps it. */
  lemma {:induction false} NotebookKeptByLifespan()
    ensures ApplyFilters([Notebook], NoFilters.(lifespanCategories := [AllLifespans[3]])) == [Notebook]
  {
    assert Matcher(NoFilters.(lifespanCategories := [AllLifespans[3]]))(Notebook);
  }

  /** The list's length does not depend on the order it is shown in. */
  lemma {:induction false} ListedCount(s: AppState, products: seq<Product>, time: string -> int, rank: string -> real)
    ensures |FilteredProducts(s, products, time, rank)| == |ApplyFilters(BaseProducts(s, products), ListFilters(s))|
  {
    var r := FilteredProducts(s, products, time, rank);
    var a := ApplyFilters(BaseProducts(s, products), ListFilters(s));
    assert |r| == |multiset(r)| == |multiset(a)| == |a|;
  }

  /** The corrected panel shows, beside each lifespan, the length of the
      list that selecting that lifespan alone would show. */
  lemma {:induction false} PanelLifespanMatchesList(s: AppState, products: seq<Product>, time: string -> int, rank: string -> real)
    ensures forall i :: 0 <= i < |AllLifespans| ==>
      PanelOf(s, products).lifespan[i].count
        == Some(|FilteredProducts(s.(filters := s.filters.(lifespanCategories := [AllLifespans[i]])), products, time, rank)|)
  {
    LifespanOptionCounts(BaseProducts(s, products), ListFilters(s));
    forall i | 0 <= i < |AllLifespans|
      ensures PanelOf(s, products).lifespan[i].count
        == Some(|FilteredProducts(s.(filters := s.filters.(lifespanCategories := [AllLifespans[i]])), products, time, rank)|)
    {
      var t := s.(filters := s.filters.(lifespanCategories := [AllLifespans[i]]));
      assert ListFilters(t) == ListFilters(s).(lifespanCategories := [AllLifespans[i]]);
      ListedCount(t, products, time, rank);
    }
  }

  /** The same for every category option of every group. */
  lemma {:induction false} PanelCategoryMatchesList(s: AppState, products: seq<Product>, time: string -> int, rank: string -> real, g: nat, o: FacetOption)
    requires g < |PanelOf(s, products).categories| && o in PanelOf(s, products).categories[g].options
    ensures ParseCategory(o.value).Some?
    ensures o.count == Some(|FilteredProducts(s.(filters := s.filters.(productCategories := [ParseCategory(o.value).value])), products, time, rank)|)
  {
    CategoryOptionCounts(BaseProducts(s, products), ListFilters(s));
    assert ShowsCategoryWhatIf(BaseProducts(s, products), ListFilters(s), o);
    var t := s.(filters := s.filters.(productCategories := [ParseCategory(o.value).value]));
    assert ListFilters(t) == ListFilters(s).(productCategories := [ParseCategory(o.value).value]);
    ListedCount(t, products, time, rank);
  }

  /** The same for every shutdown-reason option of every group. */
  lemma {:induction false} PanelReasonMatchesList(s: AppState, products: seq<Product>, time: string -> int, rank: string -> real, g: nat, o: FacetOption)
    requires g < |PanelOf(s, products).reasons| && o in PanelOf(s, products).reasons[g].options
    ensures ParseReason(o.value).Some?
    ensures o.count == Some(|FilteredProducts(s.(filters := s.filters.(shutdownReasons := [ParseReason(o.value).value])), products, time, rank)|)
  {
    ReasonOptionCounts(BaseProducts(s, products), ListFilters(s));
    assert ShowsReasonWhatIf(BaseProducts(s, products), ListFilters(s), o);
    var t := s.(filters := s.filters.(shutdownReasons := [ParseReason(o.value).value]));
    assert ListFilters(t) == ListFilters(s).(shutdownReasons := [ParseReason(o.value).value]);
    ListedCount(t, products, time, rank);
  }

  /** Without a search the two panels agree: the hook's query is empty
      whenever the last search was cleared through `handleSearchResults`. */
  lemma {:induction false} PanelsAgreeWithoutQuery(s: AppState, products: seq<Product>)
    requires s.filters.searchQuery == ""
    ensures PanelAsWritten(s, products) == PanelOf(s, products)
  {
    assert ListFilters(s) == s.filters;
  }
}

=== FILE: catalog.dfy ===
/** The catalogue's data model (src/types/Product.ts): the closed string
    enumerations as datatypes, each with its label (the TypeScript string
    literal) and the parser back from labels, the `Product` record and the
    `FilterState` record. */
module Catalog {

  datatype Option<T> = None | Some(value: T)

  datatype LifespanCategory = LessThanOneYear | OneToTwoYears | TwoToFiveYears | FiveToTenYears | TenPlusYears

  datatype ProductType = Apps | Services | Hardware

  datatype ProductCategory =
    | SocialMedia | Communication | Productivity | DeveloperTools
    | CloudServices | PhysicalDevices | MediaEntertainment | SearchDiscovery
    | MobileApps | Infrastructure | Education | Gaming

  datatype ShutdownReason =
    | Competition | BadMarketFit | BadTiming | StrategicMisalignment
    | BadBusinessModel | AcquisitionFlu | LegalChallenges

  datatype SortOption = DateCloseDesc | DateCloseAsc | LifespanDesc | LifespanAsc | NameAsc | NameDesc

  /** A catalogued product. Optional TypeScript fields are `Option`s; `rawType`
      is the free-form `type` string of the data set, distinct from the
      enumerated `productType`. The close date stays a string: turning it into
      a time stamp is the sort's business. */
  datatype Product = Product(
    name: string,
    identifier: string,
    description: string,
    link: Option<seq<string>>,
    dateOpen: string,
    dateClose: string,
    lifespanMonths: int,
    lifespanCategory: LifespanCategory,
    rawType: Option<string>,
    productType: Option<ProductType>,
    productCategory: ProductCategory,
    shutdownReason: ShutdownReason,
    shutdownReasonDetail: Option<string>,
    notableFeatures: Option<seq<string>>)

  /** Four independent selection lists and the free-text query; an empty list
      puts no constraint on its dimension. */
  datatype FilterState = FilterState(
    lifespanCategories: seq<LifespanCategory>,
    productTypes: seq<ProductType>,
    productCategories: seq<ProductCategory>,
    shutdownReasons: seq<ShutdownReason>,
    searchQuery: string)

  // ---------------------------------------------------------------------
  // Labels: the string literal each enumeration value stands for

  function LifespanLabel(c: LifespanCategory): string {
    match c
    case LessThanOneYear => "Less than 1 year"
    case OneToTwoYears => "1-2 years"
    case TwoToFiveYears => "2-5 years"
    case FiveToTenYears => "5-10 years"
    case TenPlusYears => "10+ years"
  }

  function TypeLabel(t: ProductType): string {
    match t
    case Apps => "Apps"
    case Services => "Services"
    case Hardware => "Hardware"
  }

  function CategoryLabel(c: ProductCategory): string {
    match c
    case SocialMedia => "Social Media"
    case Communication => "Communication"
    case Productivity => "Productivity"
    case DeveloperTools => "Developer Tools"
    case CloudServices => "Cloud Services"
    case PhysicalDevices => "Physical Devices"
    case MediaEntertainment => "Media & Entertainment"
    case SearchDiscovery => "Search & Discovery"
    case MobileApps => "Mobile Apps"
    case Infrastructure => "Infrastructure"
    case Education => "Education"
    case Gaming => "Gaming"
  }

  function ReasonLabel(r: ShutdownReason): string {
    match r
    case Competition => "Competition"
    case BadMarketFit => "Bad Market Fit"
    case BadTiming => "Bad Timing"
    case StrategicMisalignment => "Strategic Misalignment"
    case BadBusinessModel => "Bad Business Model"
    case AcquisitionFlu => "Acquisition Flu"
    case LegalChallenges => "Legal Challenges"
  }

  function SortLabel(o: SortOption): string {
    match o
    case DateCloseDesc => "dateClose-desc"
    case DateCloseAsc => "dateClose-asc"
    case LifespanDesc => "lifespan-desc"
    case LifespanAsc => "lifespan-asc"
    case NameAsc => "name-asc"
    case NameDesc => "name-desc"
  }

  // ---------------------------------------------------------------------
  // Every value of each enumeration, in declaration order

  const AllLifespans: seq<LifespanCategory> :=
    [LessThanOneYear, OneToTwoYears, TwoToFiveYears, FiveToTenYears, TenPlusYears]

  const AllTypes: seq<ProductType> := [Apps, Services, Hardware]

  const AllCategories: seq<ProductCategory> :=
    [SocialMedia, Communication, Productivity, DeveloperTools, CloudServices, PhysicalDevices,
     MediaEntertainment, SearchDiscovery, MobileApps, Infrastructure, Education, Gaming]

  const AllReasons: seq<ShutdownReason> :=
    [Competition, BadMarketFit, BadTiming, StrategicMisalignment, BadBusinessModel,
     AcquisitionFlu, LegalChallenges]

  const AllSortOptions: seq<SortOption> :=
    [DateCloseDesc, DateCloseAsc, LifespanDesc, LifespanAsc, NameAsc, NameDesc]

  // ---------------------------------------------------------------------
  // Parsers: the value a label denotes, if any

  function ParseLifespan(s: string): (r: Option<LifespanCategory>)
    ensures r.Some? ==> LifespanLabel(r.value) == s
  {
    if s == "Less than 1 year" then Some(LessThanOneYear)
    else if s == "1-2 years" then Some(OneToTwoYears)
    else if s == "2-5 years" then Some(TwoToFiveYears)
    else if s == "5-10 years" then Some(FiveToTenYears)
    else if s == "10+ years" then Some(TenPlusYears)
    else None
  }

  function ParseType(s: string): (r: Option<ProductType>)
    ensures r.Some? ==> TypeLabel(r.value) == s
  {
    if s == "Apps" then Some(Apps)
    else if s == "Services" then Some(Services)
    else if s == "Hardware" then Some(Hardware)
    else None
  }

  function ParseCategory(s: string): (r: Option<ProductCategory>)
    ensures r.Some? ==> CategoryLabel(r.value) == s
  {
    if s == "Social Media" then Some(SocialMedia)
    else if s == "Communication" then Some(Communication)
    else if s == "Productivity" then Some(Productivity)
    else if s == "Developer Tools" then Some(DeveloperTools)
    else if s == "Cloud Services" then Some(CloudServices)
    else if s == "Physical Devices" then Some(PhysicalDevices)
    else if s == "Media & Entertainment" then Some(MediaEntertainment)
    else if s == "Search & Discovery" then Some(SearchDiscovery)
    else if s == "Mobile Apps" then Some(MobileApps)
    else if s == "Infrastructure" then Some(Infrastructure)
    else if s == "Education" then Some(Education)
    else if s == "Gaming" then Some(Gaming)
    else None
  }

  function ParseReason(s: string): (r: Option<ShutdownReason>)
    ensures r.Some? ==> ReasonLabel(r.value) == s
  {
    if s == "Competition" then Some(Competition)
    else if s == "Bad Market Fit" then Some(BadMarketFit)
    else if s == "Bad Timing" then Some(BadTiming)
    else if s == "Strategic Misalignment" then Some(StrategicMisalignment)
    else if s == "Bad Business Model" then Some(BadBusinessModel)
    else if s == "Acquisition Flu" then Some(AcquisitionFlu)
    else if s == "Legal Challenges" then Some(LegalChallenges)
    else None
  }

  function ParseSortOption(s: string): (r: Option<SortOption>)
    ensures r.Some? ==> SortLabel(r.value) == s
  {
    if s == "dateClose-desc" then Some(DateCloseDesc)
    else if s == "dateClose-asc" then Some(DateCloseAsc)
    else if s == "lifespan-desc" then Some(LifespanDesc)
    else if s == "lifespan-asc" then Some(LifespanAsc)
    else if s == "name-asc" then Some(NameAsc)
    else if s == "name-desc" then Some(NameDesc)
    else None
  }

  // ---------------------------------------------------------------------
  // The enumerations are closed and their labels are unambiguous

  /** `LifespanCategory` has exactly five values, and labels round-trip. */
  lemma {:induction false} LifespanClosed()
    ensures |AllLifespans| == 5
    ensures forall i, j :: 0 <= i < j < |AllLifespans| ==> AllLifespans[i] != AllLifespans[j]
    ensures forall c: LifespanCategory :: c in AllLifespans && ParseLifespan(LifespanLabel(c)) == Some(c)
  {
    forall c: LifespanCategory ensures c in AllLifespans && ParseLifespan(LifespanLabel(c)) == Some(c) {
      match c
      case LessThanOneYear => assert AllLifespans[0] == LessThanOneYear;
      case OneToTwoYears => assert AllLifespans[1] == OneToTwoYears;
      case TwoToFiveYears => assert AllLifespans[2] == TwoToFiveYears;
      case FiveToTenYears => assert AllLifespans[3] == FiveToTenYears;
      case TenPlusYears => assert AllLifespans[4] == TenPlusYears;
    }
  }

  /** `ProductType` has exactly three values, and labels round-trip. */
  lemma {:induction false} TypeClosed()
    ensures |AllTypes| == 3
    ensures forall i, j :: 0 <= i < j < |AllTypes| ==> AllTypes[i] != AllTypes[j]
    ensures forall t: ProductType :: t in AllTypes && ParseType(TypeLabel(t)) == Some(t)
  {
    forall t: ProductType ensures t in AllTypes && ParseType(TypeLabel(t)) == Some(t) {
      match t
      case Apps => assert AllTypes[0] == Apps;
      case Services => assert AllTypes[1] == Services;
      case Hardware => assert AllTypes[2] == Hardware;
    }
  }

  /** `ProductCategory` has exactly twelve values, and labels round-trip. */
  lemma {:induction false} CategoryClosed()
    ensures |AllCategories| == 12
    ensures forall i, j :: 0 <= i < j < |AllCategories| ==> AllCategories[i] != AllCategories[j]
    ensures forall c: ProductCategory :: c in AllCategories && ParseCategory(CategoryLabel(c)) == Some(c)
  {
    forall c: ProductCategory ensures c in AllCategories && ParseCategory(CategoryLabel(c)) == Some(c) {
      CategoryRoundTrip(c);
    }
  }

  lemma {:induction false} CategoryRoundTrip(c: ProductCategory)
    ensures c in AllCategories
    ensures ParseCategory(CategoryLabel(c)) == Some(c)
  {
    match c
    case SocialMedia => assert AllCategories[0] == c;
    case Communication => assert AllCategories[1] == c;
    case Productivity => assert AllCategories[2] == c;
    case DeveloperTools => assert AllCategories[3] == c;
    case CloudServices => assert AllCategories[4] == c;
    case PhysicalDevices => assert AllCategories[5] == c;
    case MediaEntertainment => assert AllCategories[6] == c;
    case SearchDiscovery => assert AllCategories[7] == c;
    case MobileApps => assert AllCategories[8] == c;
    case Infrastructure => assert AllCategories[9] == c;
    case Education => assert AllCategories[10] == c;
    case Gaming => assert AllCategories[11] == c;
  }

  /** `ShutdownReason` has exactly seven values, and labels round-trip. */
  lemma {:induction false} ReasonClosed()
    ensures |AllReasons| == 7
    ensures forall i, j :: 0 <= i < j < |AllReasons| ==> AllReasons[i] != AllReasons[j]
    ensures forall r: ShutdownReason :: r in AllReasons && ParseReason(ReasonLabel(r)) == Some(r)
  {
    forall r: ShutdownReason ensures r in AllReasons && ParseReason(ReasonLabel(r)) == Some(r) {
      match r
      case Competition => assert AllReasons[0] == Competition;
      case BadMarketFit => assert AllReasons[1] == BadMarketFit;
      case BadTiming => assert AllReasons[2] == BadTiming;
      case StrategicMisalignment => assert AllReasons[3] == StrategicMisalignment;
      case BadBusinessModel => assert AllReasons[4] == BadBusinessModel;
      case AcquisitionFlu => assert AllReasons[5] == AcquisitionFlu;
      case LegalChallenges => assert AllReasons[6] == LegalChallenges;
    }
  }

  /** `SortOption` has exactly six values, and labels round-trip. */
  lemma {:induction false} SortOptionClosed()
    ensures |AllSortOptions| == 6
    ensures forall i, j :: 0 <= i < j < |AllSortOptions| ==> AllSortOptions[i] != AllSortOptions[j]
    ensures forall o: SortOption :: o in AllSortOptions && ParseSortOption(SortLabel(o)) == Some(o)
  {
    forall o: SortOption ensures o in AllSortOptions && ParseSortOption(SortLabel(o)) == Some(o) {
      match o
      case DateCloseDesc => assert AllSortOptions[0] == DateCloseDesc;
      case DateCloseAsc => assert AllSortOptions[1] == DateCloseAsc;
      case LifespanDesc => assert AllSortOptions[2] == LifespanDesc;
      case LifespanAsc => assert AllSortOptions[3] == LifespanAsc;
      case NameAsc => assert AllSortOptions[4] == NameAsc;
      case NameDesc => assert AllSortOptions[5] == NameDesc;
    }
  }

  /** A lifespan label identifies its category. */
  lemma {:induction false} LifespanLabelInjective(a: LifespanCategory, b: LifespanCategory)
    ensures LifespanLabel(a) == LifespanLabel(b) <==> a == b
  {
    LifespanClosed();
    assert ParseLifespan(LifespanLabel(a)) == Some(a);
  }

  /** A type label identifies its type. */
  lemma {:induction false} TypeLabelInjective(a: ProductType, b: ProductType)
    ensures TypeLabel(a) == TypeLabel(b) <==> a == b
  {
    TypeClosed();
    assert ParseType(TypeLabel(a)) == Some(a);
  }

  /** A category label identifies its category. */
  lemma {:induction false} CategoryLabelInjective(a: ProductCategory, b: ProductCategory)
    ensures CategoryLabel(a) == CategoryLabel(b) <==> a == b
  {
    CategoryRoundTrip(a);
    CategoryRoundTrip(b);
  }

  /** A shutdown-reason label identifies its reason. */
  lemma {:induction false} ReasonLabelInjective(a: ShutdownReason, b: ShutdownReason)
    ensures ReasonLabel(a) == ReasonLabel(b) <==> a == b
  {
    ReasonClosed();
    assert ParseReason(ReasonLabel(a)) == Some(a);
  }
}

=== FILE: facet_panel.dfy ===
/** The option lists of src/components/facets/FacetPanel.tsx and the counts
    the panel shows beside them: four `countByFacet` calls over one product
    list and one filter state, each option showing its own value's entry. */
module FacetPanel {
  import opened Seqs
  import opened Catalog
  import opened Filters
  import opened HierarchicalFacets

  /** `lifespanCategories`. */
  const LifespanOptions: seq<string> :=
    ["Less than 1 year", "1-2 years", "2-5 years", "5-10 years", "10+ years"]

  /** `productTypes`. */
  const TypeOptions: seq<string> := ["Apps", "Services", "Hardware"]

  /** A named group of option values: an entry of `productCategoryGroups` or
      of `shutdownReasonCategories`. */
  datatype Group = Group(name: string, values: seq<string>)

  /** `productCategoryGroups`, grouped by use case. */
  const CategoryGroups: seq<Group> := [
    Group("Social & Communication", ["Social Media", "Communication"]),
    Group("Productivity & Work", ["Productivity", "Education"]),
    Group("Entertainment & Media", ["Media & Entertainment", "Gaming"]),
    Group("Mobile & Apps", ["Mobile Apps"]),
    Group("Developer & Technical", ["Developer Tools", "Infrastructure", "Cloud Services"]),
    Group("Platform & Discovery", ["Search & Discovery"]),
    Group("Physical Devices", ["Physical Devices"])
  ]

  /** `shutdownReasonCategories`, grouped by root cause. */
  const ReasonGroups: seq<Group> := [
    Group("Market & Competition", ["Competition", "Bad Market Fit", "Bad Timing"]),
    Group("Strategy & Business", ["Strategic Misalignment", "Bad Business Model", "Acquisition Flu"]),
    Group("Legal & Regulatory", ["Legal Challenges"])
  ]

  /** `groups.flatMap(g => g.values)`. */
  function Flatten(gs: seq<Group>): (r: seq<string>)
    ensures forall i, k :: 0 <= i < |gs| && 0 <= k < |gs[i].values| ==> gs[i].values[k] in r
    ensures forall v <- r :: exists i :: 0 <= i < |gs| && v in gs[i].values
    decreases |gs|
  {
    if |gs| == 0 then []
    else
      var rest := Flatten(gs[1..]);
      assert forall i :: 1 <= i < |gs| ==> gs[i] == gs[1..][i - 1];
      gs[0].values + rest
  }

  /** The flat list of one group is its values. */
  lemma {:induction false} FlattenSingle(g: Group)
    ensures Flatten([g]) == g.values
  {
    assert [g][1..] == [];
  }

  /** Flattening two runs of groups concatenates their flat lists: the
      values keep the order of the groups and, within a group, their own
      order. */
  lemma {:induction false} FlattenAppend(a: seq<Group>, b: seq<Group>)
    ensures Flatten(a + b) == Flatten(a) + Flatten(b)
    decreases |a|
  {
    if |a| > 0 {
      assert (a + b)[1..] == a[1..] + b;
      FlattenAppend(a[1..], b);
    } else {
      assert a + b == b;
    }
  }

  /** `productCategories`: the flat list the category counts are keyed by. */
  const CategoryOptions: seq<string> := Flatten(CategoryGroups)

  /** `shutdownReasons`: the flat list the reason counts are keyed by. */
  const ReasonOptions: seq<string> := Flatten(ReasonGroups)

  // ---------------------------------------------------------------------
  // What the panel renders

  /** `{ value, label, count: counts[value] }`: the count is missing when the
      counter has no entry for the value. */
  function OptionOf(v: string, counts: map<string, nat>): FacetOption {
    FacetOption(v, v, if v in counts then Some(counts[v]) else None)
  }

  function OptionsOf(values: seq<string>, counts: map<string, nat>): (r: seq<FacetOption>)
    ensures |r| == |values|
    ensures forall i :: 0 <= i < |values| ==> r[i] == OptionOf(values[i], counts)
  {
    seq(|values|, i requires 0 <= i < |values| => OptionOf(values[i], counts))
  }

  /** The `categories` prop of a hierarchical group. */
  function GroupsOf(gs: seq<Group>, counts: map<string, nat>): (r: seq<FacetCategory>)
    ensures |r| == |gs|
    ensures forall i :: 0 <= i < |gs| ==> r[i] == FacetCategory(gs[i].name, OptionsOf(gs[i].values, counts))
  {
    seq(|gs|, i requires 0 <= i < |gs| => FacetCategory(gs[i].name, OptionsOf(gs[i].values, counts)))
  }

  /** A rendered parent shows the group's name and one option per value of
      the group, in order, each with a count. */
  predicate ShowsGroup(c: FacetCategory, g: Group) {
    && c.name == g.name
    && |c.options| == |g.values|
    && forall k :: 0 <= k < |g.values| ==> c.options[k].value == g.values[k] && c.options[k].count.Some?
  }

  /** The four option lists of the panel. */
  datatype Panel = Panel(
    lifespan: seq<FacetOption>,
    types: seq<FacetOption>,
    categories: seq<FacetCategory>,
    reasons: seq<FacetCategory>)

  /** The panel for `products` and `filters`: every count comes from the
      same products and the same filters. */
  function RenderPanel(ps: seq<Product>, f: FilterState): (r: Panel)
    ensures |r.lifespan| == |LifespanOptions|
    ensures forall i :: 0 <= i < |LifespanOptions| ==> r.lifespan[i].value == LifespanOptions[i] && r.lifespan[i].count.Some?
    ensures |r.types| == |TypeOptions|
    ensures forall i :: 0 <= i < |TypeOptions| ==> r.types[i].value == TypeOptions[i] && r.types[i].count.Some?
    ensures |r.categories| == |CategoryGroups|
    ensures forall g :: 0 <= g < |CategoryGroups| ==> ShowsGroup(r.categories[g], CategoryGroups[g])
    ensures |r.reasons| == |ReasonGroups|
    ensures forall g :: 0 <= g < |ReasonGroups| ==> ShowsGroup(r.reasons[g], ReasonGroups[g])
  {
    var lifespanCounts := FacetCounts(ps, LifespanFacet, f, LifespanOptions);
    var typeCounts := FacetCounts(ps, TypeFacet, f, TypeOptions);
    var categoryCounts := FacetCounts(ps, CategoryFacet, f, CategoryOptions);
    var reasonCounts := FacetCounts(ps, ReasonFacet, f, ReasonOptions);
    OptionsShown(LifespanOptions, lifespanCounts);
    OptionsShown(TypeOptions, typeCounts);
    GroupsShown(CategoryGroups, categoryCounts);
    GroupsShown(ReasonGroups, reasonCounts);
    Panel(
      OptionsOf(LifespanOptions, lifespanCounts),
      OptionsOf(TypeOptions, typeCounts),
      GroupsOf(CategoryGroups, categoryCounts),
      GroupsOf(ReasonGroups, reasonCounts))
  }

  /** Options built from counts keyed by every listed value show each value,
      in order, with a count. */
  lemma {:induction false} OptionsShown(values: seq<string>, counts: map<string, nat>)
    requires counts.Keys == set v | v in values
    ensures forall i :: 0 <= i < |values| ==>
      OptionsOf(values, counts)[i].value == values[i] && OptionsOf(values, counts)[i].count.Some?
  {
    forall i | 0 <= i < |values| ensures values[i] in counts {
      assert values[i] in values;
    }
  }

  /** Groups built from counts keyed by every value of their flat list show
      each group in full. */
  lemma {:induction false} GroupsShown(gs: seq<Group>, counts: map<string, nat>)
    requires counts.Keys == set v | v in Flatten(gs)
    ensures forall g :: 0 <= g < |gs| ==> ShowsGroup(GroupsOf(gs, counts)[g], gs[g])
  {
    forall g | 0 <= g < |gs| ensures ShowsGroup(GroupsOf(gs, counts)[g], gs[g]) {
      forall k | 0 <= k < |gs[g].values| ensures gs[g].values[k] in counts {
        assert gs[g].values[k] in Flatten(gs);
      }
    }
  }

  // ---------------------------------------------------------------------
  // The option lists are the enumerations

  /** The lifespan options are the five labels, in declaration order. */
  lemma {:induction false} LifespanOptionsExact()
    ensures |LifespanOptions| == |AllLifespans| && Distinct(LifespanOptions)
    ensures forall i :: 0 <= i < |AllLifespans| ==> LifespanOptions[i] == LifespanLabel(AllLifespans[i])
    ensures forall c: LifespanCategory :: LifespanLabel(c) in LifespanOptions
  {
    forall c: LifespanCategory ensures LifespanLabel(c) in LifespanOptions {
      match c
      case LessThanOneYear => assert LifespanOptions[0] == LifespanLabel(c);
      case OneToTwoYears => assert LifespanOptions[1] == LifespanLabel(c);
      case TwoToFiveYears => assert LifespanOptions[2] == LifespanLabel(c);
      case FiveToTenYears => assert LifespanOptions[3] == LifespanLabel(c);
      case TenPlusYears => assert LifespanOptions[4] == LifespanLabel(c);
    }
  }

  /** The type options are the three labels, in declaration order. */
  lemma {:induction false} TypeOptionsExact()
    ensures |TypeOptions| == |AllTypes| && Distinct(TypeOptions)
    ensures forall i :: 0 <= i < |AllTypes| ==> TypeOptions[i] == TypeLabel(AllTypes[i])
    ensures forall t: ProductType :: TypeLabel(t) in TypeOptions
  {
    forall t: ProductType ensures TypeLabel(t) in TypeOptions {
      match t
      case Apps => assert TypeOptions[0] == TypeLabel(t);
      case Services => assert TypeOptions[1] == TypeLabel(t);
      case Hardware => assert TypeOptions[2] == TypeLabel(t);
    }
  }

  lemma {:induction false} CategoryOptionsValue()
    ensures CategoryOptions == ["Social Media", "Communication", "Productivity", "Education",
      "Media & Entertainment", "Gaming", "Mobile Apps", "Developer Tools", "Infrastructure",
      "Cloud Services", "Search & Discovery", "Physical Devices"]
  {
    var gs := CategoryGroups;
    assert Flatten(gs[7..]) == [];
    assert Flatten(gs[6..]) == gs[6].values + Flatten(gs[7..]);
    assert Flatten(gs[5..]) == gs[5].values + Flatten(gs[6..]);
    assert Flatten(gs[4..]) == gs[4].values + Flatten(gs[5..]);
    assert Flatten(gs[3..]) == gs[3].values + Flatten(gs[4..]);
    assert Flatten(gs[2..]) == gs[2].values + Flatten(gs[3..]);
    assert Flatten(gs[1..]) == gs[1].values + Flatten(gs[2..]);
    assert Flatten(gs) == gs[0].values + Flatten(gs[1..]);
  }

  lemma {:induction false} ReasonOptionsValue()
    ensures ReasonOptions == ["Competition", "Bad Market Fit", "Bad Timing", "Strategic Misalignment",
      "Bad Business Model", "Acquisition Flu", "Legal Challenges"]
  {
    var gs := ReasonGroups;
    assert Flatten(gs[3..]) == [];
    assert Flatten(gs[2..]) == gs[2].values + Flatten(gs[3..]);
    assert Flatten(gs[1..]) == gs[1].values + Flatten(gs[2..]);
    assert Flatten(gs) == gs[0].values + Flatten(gs[1..]);
  }

  /** The flattened category groups hold each of the twelve categories
      exactly once, and nothing else. */
  lemma {:induction false} CategoryOptionsExact()
    ensures |CategoryOptions| == |AllCategories| && Distinct(CategoryOptions)
    ensures forall c: ProductCategory :: CategoryLabel(c) in CategoryOptions
    ensures forall v <- CategoryOptions :: ParseCategory(v).Some?
  {
    CategoryOptionsValue();
    var opts := CategoryOptions;
    forall i | 0 <= i < |opts| ensures ParseCategory(opts[i]).Some? && CategoryPosition(ParseCategory(opts[i]).value) == i {
      CategoryIndex(opts, i);
    }
    forall c: ProductCategory ensures CategoryLabel(c) in opts {
      CategoryAt(opts, c);
    }
  }

  /** The position of each category in the flattened list. */
  function CategoryPosition(c: ProductCategory): nat {
    match c
    case SocialMedia => 0
    case Communication => 1
    case Productivity => 2
    case Education => 3
    case MediaEntertainment => 4
    case Gaming => 5
    case MobileApps => 6
    case DeveloperTools => 7
    case Infrastructure => 8
    case CloudServices => 9
    case SearchDiscovery => 10
    case PhysicalDevices => 11
  }

  lemma {:induction false} CategoryIndex(opts: seq<string>, i: int)
    requires opts == ["Social Media", "Communication", "Productivity", "Education",
      "Media & Entertainment", "Gaming", "Mobile Apps", "Developer Tools", "Infrastructure",
      "Cloud Services", "Search & Discovery", "Physical Devices"]
    requires 0 <= i < |opts|
    ensures ParseCategory(opts[i]).Some? && CategoryPosition(ParseCategory(opts[i]).value) == i
  {
    if i < 6 {
      if i < 3 {
        if i == 0 {} else if i == 1 {} else {}
      } else {
        if i == 3 {} else if i == 4 {} else {}
      }
    } else {
      if i < 9 {
        if i == 6 {} else if i == 7 {} else {}
      } else {
        if i == 9 {} else if i == 10 {} else {}
      }
    }
  }

  lemma {:induction false} CategoryAt(opts: seq<string>, c: ProductCategory)
    requires opts == ["Social Media", "Communication", "Productivity", "Education",
      "Media & Entertainment", "Gaming", "Mobile Apps", "Developer Tools", "Infrastructure",
      "Cloud Services", "Search & Discovery", "Physical Devices"]
    ensures CategoryPosition(c) < |opts| && opts[CategoryPosition(c)] == CategoryLabel(c)
  {
  }

  /** The flattened reason groups hold each of the seven reasons exactly
      once, and nothing else. */
  lemma {:induction false} ReasonOptionsExact()
    ensures |ReasonOptions| == |AllReasons| && Distinct(ReasonOptions)
    ensures forall r: ShutdownReason :: ReasonLabel(r) in ReasonOptions
    ensures forall v <- ReasonOptions :: ParseReason(v).Some?
  {
    ReasonOptionsValue();
    var opts := ReasonOptions;
    forall i | 0 <= i < |opts| ensures ParseReason(opts[i]).Some? && ReasonPosition(ParseReason(opts[i]).value) == i {
      ReasonIndex(opts, i);
    }
    forall r: ShutdownReason ensures ReasonLabel(r) in opts {
      ReasonAt(opts, r);
    }
  }

  /** The position of each reason in the flattened list. */
  function ReasonPosition(r: ShutdownReason): nat {
    match r
    case Competition => 0
    case BadMarketFit => 1
    case BadTiming => 2
    case StrategicMisalignment => 3
    case BadBusinessModel => 4
    case AcquisitionFlu => 5
    case LegalChallenges => 6
  }

  lemma {:induction false} ReasonIndex(opts: seq<string>, i: int)
    requires opts == ["Competition", "Bad Market Fit", "Bad Timing", "Strategic Misalignment",
      "Bad Business Model", "Acquisition Flu", "Legal Challenges"]
    requires 0 <= i < |opts|
    ensures ParseReason(opts[i]).Some? && ReasonPosition(ParseReason(opts[i]).value) == i
  {
    if i < 3 {
      if i == 0 {} else if i == 1 {} else {}
    } else {
      if i == 3 {} else if i == 4 {} else if i == 5 {} else {}
    }
  }

  lemma {:induction false} ReasonAt(opts: seq<string>, r: ShutdownReason)
    requires opts == ["Competition", "Bad Market Fit", "Bad Timing", "Strategic Misalignment",
      "Bad Business Model", "Acquisition Flu", "Legal Challenges"]
    ensures ReasonPosition(r) < |opts| && opts[ReasonPosition(r)] == ReasonLabel(r)
  {
  }

  // ---------------------------------------------------------------------
  // Each option shows its own what-if count

  /** An option of the category groups shows the length of the list that
      the filters would give with its category alone selected. */
  predicate ShowsCategoryWhatIf(ps: seq<Product>, f: FilterState, o: FacetOption) {
    ParseCategory(o.value).Some?
    && o.count == Some(|ApplyFilters(ps, f.(productCategories := [ParseCategory(o.value).value]))|)
  }

  predicate ShowsReasonWhatIf(ps: seq<Product>, f: FilterState, o: FacetOption) {
    ParseReason(o.value).Some?
    && o.count == Some(|ApplyFilters(ps, f.(shutdownReasons := [ParseReason(o.value).value]))|)
  }

  /** The i-th lifespan option is the i-th lifespan, and its count is the
      length of the list with that lifespan alone selected. */
  lemma {:induction false} LifespanOptionCounts(ps: seq<Product>, f: FilterState)
    ensures |RenderPanel(ps, f).lifespan| == |AllLifespans|
    ensures forall i :: 0 <= i < |AllLifespans| ==>
      && RenderPanel(ps, f).lifespan[i].value == LifespanLabel(AllLifespans[i])
      && RenderPanel(ps, f).lifespan[i].count == Some(|ApplyFilters(ps, f.(lifespanCategories := [AllLifespans[i]]))|)
  {
    LifespanOptionsExact();
    forall i | 0 <= i < |AllLifespans|
      ensures RenderPanel(ps, f).lifespan[i].count == Some(|ApplyFilters(ps, f.(lifespanCategories := [AllLifespans[i]]))|)
    {
      LifespanCountIsWhatIf(ps, f, LifespanOptions, AllLifespans[i]);
    }
  }

  /** The same for types, for products whose enumerated type, when present,
      agrees with their raw type (see `Filters.TypeCountDisagreesWithFilter`
      for one that does not). */
  lemma {:induction false} TypeOptionCounts(ps: seq<Product>, f: FilterState)
    requires forall i :: 0 <= i < |ps| && ps[i].productType.Some? ==> MapType(ps[i].rawType) == ps[i].productType
    ensures |RenderPanel(ps, f).types| == |AllTypes|
    ensures forall i :: 0 <= i < |AllTypes| ==>
      && RenderPanel(ps, f).types[i].value == TypeLabel(AllTypes[i])
      && RenderPanel(ps, f).types[i].count == Some(|ApplyFilters(ps, f.(productTypes := [AllTypes[i]]))|)
  {
    TypeOptionsExact();
    forall i | 0 <= i < |AllTypes|
      ensures RenderPanel(ps, f).types[i].count == Some(|ApplyFilters(ps, f.(productTypes := [AllTypes[i]]))|)
    {
      TypeCountIsWhatIf(ps, f, TypeOptions, AllTypes[i]);
    }
  }

  /** Every option under every category group names a category and shows
      its what-if count. */
  lemma {:induction false} CategoryOptionCounts(ps: seq<Product>, f: FilterState)
    ensures forall g, o :: 0 <= g < |RenderPanel(ps, f).categories| && o in RenderPanel(ps, f).categories[g].options ==>
      ShowsCategoryWhatIf(ps, f, o)
  {
    CategoryOptionsExact();
    var counts := FacetCounts(ps, CategoryFacet, f, CategoryOptions);
    var groups := RenderPanel(ps, f).categories;
    forall g, o | 0 <= g < |groups| && o in groups[g].options
      ensures ShowsCategoryWhatIf(ps, f, o)
    {
      var vals := CategoryGroups[g].values;
      var k :| 0 <= k < |vals| && groups[g].options[k] == o;
      assert o == OptionOf(vals[k], counts);
      assert vals[k] in CategoryOptions;
      var c := ParseCategory(vals[k]).value;
      CategoryCountIsWhatIf(ps, f, CategoryOptions, c);
    }
  }

  lemma {:induction false} ReasonOptionCounts(ps: seq<Product>, f: FilterState)
    ensures forall g, o :: 0 <= g < |RenderPanel(ps, f).reasons| && o in RenderPanel(ps, f).reasons[g].options ==>
      ShowsReasonWhatIf(ps, f, o)
  {
    ReasonOptionsExact();
    var counts := FacetCounts(ps, ReasonFacet, f, ReasonOptions);
    var groups := RenderPanel(ps, f).reasons;
    forall g, o | 0 <= g < |groups| && o in groups[g].options
      ensures ShowsReasonWhatIf(ps, f, o)
    {
      var vals := ReasonGroups[g].values;
      var k :| 0 <= k < |vals| && groups[g].options[k] == o;
      assert o == OptionOf(vals[k], counts);
      assert vals[k] in ReasonOptions;
      var r := ParseReason(vals[k]).value;
      ReasonCountIsWhatIf(ps, f, ReasonOptions, r);
    }
  }
}

=== FILE: filters.dfy ===
/** The facet filter and the facet counts of src/utils/filterHelpers.ts. */
module Filters {
  import opened Text
  import opened Seqs
  import opened Catalog

  /** `mapTypeToProductType`: the free-form `type` field, read without regard
      to ASCII case, with "" (no type) as `None`. */
  function MapType(raw: Option<string>): Option<ProductType> {
    match raw
    case None => None
    case Some(s) =>
      var l := Lower(s);
      if l == "app" || l == "apps" then Some(Apps)
      else if l == "service" || l == "services" then Some(Services)
      else if l == "hardware" then Some(Hardware)
      else None
  }

  // ---------------------------------------------------------------------
  // applyFilters

  /** The free-text test: with a non-empty query, the lower-cased query must
      occur in the lower-cased name, description or one of the features. */
  predicate PassesText(p: Product, query: string) {
    query == "" ||
    var q := Lower(query);
    Contains(Lower(p.name), q) || Contains(Lower(p.description), q) ||
    (p.notableFeatures.Some? && exists x <- p.notableFeatures.value :: Contains(Lower(x), q))
  }

  predicate PassesLifespan(p: Product, sel: seq<LifespanCategory>) {
    |sel| == 0 || p.lifespanCategory in sel
  }

  /** The type test reads only the raw `type` field: a product whose raw type
      maps to nothing fails any non-empty selection. */
  predicate PassesType(p: Product, sel: seq<ProductType>) {
    |sel| == 0 || (MapType(p.rawType).Some? && MapType(p.rawType).value in sel)
  }

  predicate PassesCategory(p: Product, sel: seq<ProductCategory>) {
    |sel| == 0 || p.productCategory in sel
  }

  predicate PassesReason(p: Product, sel: seq<ShutdownReason>) {
    |sel| == 0 || p.shutdownReason in sel
  }

  /** The callback of `applyFilters`: every dimension must let the product
      through. */
  predicate Passes(p: Product, f: FilterState) {
    && PassesText(p, f.searchQuery)
    && PassesLifespan(p, f.lifespanCategories)
    && PassesType(p, f.productTypes)
    && PassesCategory(p, f.productCategories)
    && PassesReason(p, f.shutdownReasons)
  }

  function Matcher(f: FilterState): Product -> bool {
    p => Passes(p, f)
  }

  /** `applyFilters(products, filters)`. */
  function ApplyFilters(ps: seq<Product>, f: FilterState): (r: seq<Product>)
    ensures IsSubsequence(r, ps)
    ensures forall p <- r :: p in ps && Passes(p, f)
    ensures forall i :: 0 <= i < |ps| && Passes(ps[i], f) ==> ps[i] in r
    ensures forall p :: multiset(r)[p] == if Passes(p, f) then multiset(ps)[p] else 0
  {
    var r := Filter(ps, Matcher(f));
    forall p ensures multiset(r)[p] == if Passes(p, f) then multiset(ps)[p] else 0 {
      FilterMultiplicity(ps, Matcher(f), p);
    }
    r
  }

  /** The state with no selection and no query. */
  const NoFilters := FilterState([], [], [], [], "")

  // ---------------------------------------------------------------------
  // countByFacet

  /** The four product fields the panel counts by. */
  datatype Facet = LifespanFacet | TypeFacet | CategoryFacet | ReasonFacet

  /** `filtersForCounting`: the facet's own selection is dropped. */
  function ClearFacet(f: FilterState, facet: Facet): FilterState {
    match facet
    case LifespanFacet => f.(lifespanCategories := [])
    case TypeFacet => f.(productTypes := [])
    case CategoryFacet => f.(productCategories := [])
    case ReasonFacet => f.(shutdownReasons := [])
  }

  /** The type a product is counted under: its enumerated `productType`, and
      only when that is absent the mapped raw type. */
  function CountedType(p: Product): Option<ProductType> {
    if p.productType.Some? then p.productType else MapType(p.rawType)
  }

  /** `product[facetKey]`, with the type fallback, as the string the counts
      are keyed by; "" when there is none. */
  function FacetValue(p: Product, facet: Facet): string {
    match facet
    case LifespanFacet => LifespanLabel(p.lifespanCategory)
    case TypeFacet => (match CountedType(p) case Some(t) => TypeLabel(t) case None => "")
    case CategoryFacet => CategoryLabel(p.productCategory)
    case ReasonFacet => ReasonLabel(p.shutdownReason)
  }

  /** `product[facetKey]` as a function of the product. */
  function FacetOf(facet: Facet): Product -> string {
    p => FacetValue(p, facet)
  }

  /** Holds of the elements whose value is `v`. */
  function ValueIs<T>(value: T -> string, v: string): T -> bool {
    x => value(x) == v
  }

  function HasValue(facet: Facet, v: string): Product -> bool {
    ValueIs(FacetOf(facet), v)
  }

  /** For each listed value, how many of `xs` carry it; "" is never
      counted. */
  function Tally(xs: seq<Product>, facet: Facet, values: seq<string>): (m: map<string, nat>)
    ensures m.Keys == set v | v in values
  {
    map v | v in values :: if v == "" then 0 else CountWhere(xs, HasValue(facet, v))
  }

  /** What the counts mean: for each listed value, the number of products
      that pass every other dimension and carry that value. */
  function FacetCounts(ps: seq<Product>, facet: Facet, f: FilterState, values: seq<string>): map<string, nat> {
    Tally(ApplyFilters(ps, ClearFacet(f, facet)), facet, values)
  }

  /** The counts after walking `xs` from the left, as the loop of
      `countByFacet` leaves them: every listed value starts at 0, and each
      element adds one to its value when that value is non-empty and
      listed. */
  function Walk<T>(xs: seq<T>, value: T -> string, values: seq<string>): map<string, nat>
    decreases |xs|
  {
    if |xs| == 0 then Zeros(values)
    else Bump(Walk(xs[..|xs| - 1], value, values), value(xs[|xs| - 1]), values)
  }

  /** Every listed value at 0. */
  function Zeros(values: seq<string>): map<string, nat> {
    map v | v in values :: 0
  }

  /** One element with value `v` counted: when `v` is non-empty and listed,
      `counts[v] = (counts[v] || 0) + 1`. */
  function Bump(counts: map<string, nat>, v: string, values: seq<string>): map<string, nat> {
    if v != "" && v in values then counts[v := OrZero(counts, v) + 1] else counts
  }

  /** `counts[v] || 0`. */
  function OrZero(counts: map<string, nat>, v: string): nat {
    if v in counts then counts[v] else 0
  }

  /** `countByFacet(products, facetKey, filters, currentFacetValues)`: start
      every listed value at 0, then walk the filtered products and count each
      one under its value when that value is non-empty and listed. */
  method CountByFacet(ps: seq<Product>, facet: Facet, f: FilterState, values: seq<string>)
    returns (counts: map<string, nat>)
    ensures counts == FacetCounts(ps, facet, f, values)
  {
    var kept := ApplyFilters(ps, ClearFacet(f, facet));
    counts := CountEach(kept, facet, values);
  }

  /** The counting loop of `countByFacet` over the filtered products: it
      leaves, for every listed value, the number of products carrying it. */
  method CountEach(kept: seq<Product>, facet: Facet, values: seq<string>)
    returns (counts: map<string, nat>)
    ensures counts == Tally(kept, facet, values)
  {
    counts := Zeros(values);
    var i := 0;
    while i < |kept|
      invariant 0 <= i <= |kept|
      invariant counts == Walk(kept[..i], FacetOf(facet), values)
    {
      var value := FacetValue(kept[i], facet);
      assert kept[..i + 1][..i] == kept[..i];
      if value != "" && value in values {
        counts := counts[value := OrZero(counts, value) + 1];
      }
      i := i + 1;
    }
    assert kept[..|kept|] == kept;
    WalkIsTally(kept, facet, values);
  }

  /** The walk has an entry for exactly the listed values. */
  lemma {:induction false} WalkKeys<T>(xs: seq<T>, value: T -> string, values: seq<string>, v: string)
    ensures v in Walk(xs, value, values) <==> v in values
    decreases |xs|
  {
    if |xs| > 0 {
      WalkKeys(xs[..|xs| - 1], value, values, v);
    }
  }

  /** The walk counts, for each listed non-empty value, the elements that
      carry it. */
  lemma {:induction false} WalkCounts<T>(xs: seq<T>, value: T -> string, values: seq<string>, v: string)
    requires v in values
    ensures v in Walk(xs, value, values)
    ensures Walk(xs, value, values)[v] == if v == "" then 0 else CountWhere(xs, ValueIs(value, v))
    decreases |xs|
  {
    WalkKeys(xs, value, values, v);
    if |xs| > 0 {
      var init, x := xs[..|xs| - 1], xs[|xs| - 1];
      WalkKeys(init, value, values, v);
      WalkCounts(init, value, values, v);
      assert xs == init + [x];
      FilterSnoc(init, x, ValueIs(value, v));
    }
  }

  /** The loop computes the counts' meaning. */
  lemma {:induction false} WalkIsTally(xs: seq<Product>, facet: Facet, values: seq<string>)
    ensures Walk(xs, FacetOf(facet), values) == Tally(xs, facet, values)
  {
    var w := Walk(xs, FacetOf(facet), values);
    var t := Tally(xs, facet, values);
    forall v ensures v in w <==> v in t {
      WalkKeys(xs, FacetOf(facet), values, v);
    }
    forall v | v in w ensures w[v] == t[v] {
      WalkCounts(xs, FacetOf(facet), values, v);
    }
  }

  // ---------------------------------------------------------------------
  // Proofs

  /** Each type label maps back to its type, and the mapping ignores ASCII
      case. */
  lemma {:induction false} MapTypeLabels(t: ProductType, s: string)
    ensures MapType(Some(TypeLabel(t))) == Some(t)
    ensures MapType(Some(Lower(s))) == MapType(Some(s))
  {
    LowerIdempotent(s);
    match t
    case Apps => assert Lower("Apps") == "apps";
    case Services => assert Lower("Services") == "services";
    case Hardware => assert Lower("Hardware") == "hardware";
  }

  /** An absent or empty raw type maps to no type. */
  lemma {:induction false} MapTypeEmpty()
    ensures MapType(None) == None && MapType(Some("")) == None
  {
  }

  /** With nothing selected and no query every product passes, in order. */
  lemma {:induction false} NoFiltersKeepAll(ps: seq<Product>)
    ensures ApplyFilters(ps, NoFilters) == ps
  {
    FilterAll(ps, Matcher(NoFilters));
  }

  /** Filtering twice with the same state is filtering once. */
  lemma {:induction false} ApplyFiltersIdempotent(ps: seq<Product>, f: FilterState)
    ensures ApplyFilters(ApplyFilters(ps, f), f) == ApplyFilters(ps, f)
  {
    FilterFilter(ps, Matcher(f), Matcher(f), Matcher(f));
  }

  /** Only which values are selected matters, not their order or
      repetition. */
  lemma {:induction false} SelectionOrderIrrelevant(ps: seq<Product>, f: FilterState, g: FilterState)
    requires f.searchQuery == g.searchQuery
    requires (set x | x in f.lifespanCategories) == (set x | x in g.lifespanCategories)
    requires (set x | x in f.productTypes) == (set x | x in g.productTypes)
    requires (set x | x in f.productCategories) == (set x | x in g.productCategories)
    requires (set x | x in f.shutdownReasons) == (set x | x in g.shutdownReasons)
    ensures ApplyFilters(ps, f) == ApplyFilters(ps, g)
  {
    SameElements(f.lifespanCategories, g.lifespanCategories);
    SameElements(f.productTypes, g.productTypes);
    SameElements(f.productCategories, g.productCategories);
    SameElements(f.shutdownReasons, g.shutdownReasons);
    FilterCongruent(ps, Matcher(f), Matcher(g));
  }

  /** Selecting any type excludes every product whose raw type maps to
      nothing, whatever its `productType`. */
  lemma {:induction false} TypeSelectionNeedsRawType(ps: seq<Product>, f: FilterState)
    requires f.productTypes != []
    ensures forall p <- ApplyFilters(ps, f) :: MapType(p.rawType).Some?
  {
  }

  /** A listed, non-empty value's count is the number of kept products
      that carry it. */
  lemma {:induction false} FacetCountAt(ps: seq<Product>, facet: Facet, f: FilterState, values: seq<string>, v: string)
    requires v in values && v != ""
    ensures FacetCounts(ps, facet, f, values)[v]
         == |Filter(ApplyFilters(ps, ClearFacet(f, facet)), HasValue(facet, v))|
  {
  }

  /** The count of a lifespan is the number of products the list would show
      if that lifespan alone were selected in its dimension. */
  lemma {:induction false} LifespanCountIsWhatIf(ps: seq<Product>, f: FilterState, values: seq<string>, c: LifespanCategory)
    requires LifespanLabel(c) in values
    ensures FacetCounts(ps, LifespanFacet, f, values)[LifespanLabel(c)]
         == |ApplyFilters(ps, f.(lifespanCategories := [c]))|
  {
    var clear := ClearFacet(f, LifespanFacet);
    var g := f.(lifespanCategories := [c]);
    var hv := HasValue(LifespanFacet, LifespanLabel(c));
    forall p: Product ensures Matcher(g)(p) == (Matcher(clear)(p) && hv(p)) {
      LifespanLabelInjective(p.lifespanCategory, c);
      assert p.lifespanCategory in [c] <==> p.lifespanCategory == c;
    }
    FacetCountAt(ps, LifespanFacet, f, values, LifespanLabel(c));
    FilterFilter(ps, Matcher(clear), hv, Matcher(g));
  }

  lemma {:induction false} CategoryCountIsWhatIf(ps: seq<Product>, f: FilterState, values: seq<string>, c: ProductCategory)
    requires CategoryLabel(c) in values
    ensures FacetCounts(ps, CategoryFacet, f, values)[CategoryLabel(c)]
         == |ApplyFilters(ps, f.(productCategories := [c]))|
  {
    var clear := ClearFacet(f, CategoryFacet);
    var g := f.(productCategories := [c]);
    var hv := HasValue(CategoryFacet, CategoryLabel(c));
    forall p: Product ensures Matcher(g)(p) == (Matcher(clear)(p) && hv(p)) {
      CategoryLabelInjective(p.productCategory, c);
      assert p.productCategory in [c] <==> p.productCategory == c;
    }
    FacetCountAt(ps, CategoryFacet, f, values, CategoryLabel(c));
    FilterFilter(ps, Matcher(clear), hv, Matcher(g));
  }

  lemma {:induction false} ReasonCountIsWhatIf(ps: seq<Product>, f: FilterState, values: seq<string>, r: ShutdownReason)
    requires ReasonLabel(r) in values
    ensures FacetCounts(ps, ReasonFacet, f, values)[ReasonLabel(r)]
         == |ApplyFilters(ps, f.(shutdownReasons := [r]))|
  {
    var clear := ClearFacet(f, ReasonFacet);
    var g := f.(shutdownReasons := [r]);
    var hv := HasValue(ReasonFacet, ReasonLabel(r));
    forall p: Product ensures Matcher(g)(p) == (Matcher(clear)(p) && hv(p)) {
      ReasonLabelInjective(p.shutdownReason, r);
      assert p.shutdownReason in [r] <==> p.shutdownReason == r;
    }
    FacetCountAt(ps, ReasonFacet, f, values, ReasonLabel(r));
    FilterFilter(ps, Matcher(clear), hv, Matcher(g));
  }

  /** The count of a type equals the what-if list length only for products
      whose `productType`, when present, agrees with their raw type: the
      count reads `productType` first, the filter reads the raw type only. */
  lemma {:induction false} TypeCountIsWhatIf(ps: seq<Product>, f: FilterState, values: seq<string>, t: ProductType)
    requires TypeLabel(t) in values
    requires forall i :: 0 <= i < |ps| && ps[i].productType.Some? ==> MapType(ps[i].rawType) == ps[i].productType
    ensures FacetCounts(ps, TypeFacet, f, values)[TypeLabel(t)]
         == |ApplyFilters(ps, f.(productTypes := [t]))|
  {
    var kept := ApplyFilters(ps, ClearFacet(f, TypeFacet));
    FacetCountAt(ps, TypeFacet, f, values, TypeLabel(t));
    TypeSelectionSplits(ps, f, t);
    forall i | 0 <= i < |kept| && kept[i].productType.Some?
      ensures MapType(kept[i].rawType) == kept[i].productType
    {
      assert kept[i] in ps;
    }
    CountedAsRawType(kept, t);
  }

  /** Holds of the products whose raw type maps to `t`. */
  function RawTypeIs(t: ProductType): Product -> bool {
    (p: Product) => MapType(p.rawType) == Some(t)
  }

  /** Selecting `t` alone keeps the products the other dimensions keep whose
      raw type maps to `t`. */
  lemma {:induction false} TypeSelectionSplits(ps: seq<Product>, f: FilterState, t: ProductType)
    ensures Filter(ApplyFilters(ps, ClearFacet(f, TypeFacet)), RawTypeIs(t))
         == ApplyFilters(ps, f.(productTypes := [t]))
  {
    var g := f.(productTypes := [t]);
    forall p: Product ensures Matcher(g)(p) == (Matcher(ClearFacet(f, TypeFacet))(p) && RawTypeIs(t)(p)) {
      if MapType(p.rawType).Some? {
        assert MapType(p.rawType).value in [t] <==> MapType(p.rawType).value == t;
      }
    }
    FilterFilter(ps, Matcher(ClearFacet(f, TypeFacet)), RawTypeIs(t), Matcher(g));
  }

  /** Where `productType`, when present, agrees with the raw type, a
      product is counted under `t` exactly when its raw type maps to `t`. */
  lemma {:induction false} CountedAsRawType(xs: seq<Product>, t: ProductType)
    requires forall i :: 0 <= i < |xs| && xs[i].productType.Some? ==> MapType(xs[i].rawType) == xs[i].productType
    ensures Filter(xs, HasValue(TypeFacet, TypeLabel(t))) == Filter(xs, RawTypeIs(t))
  {
    forall i | 0 <= i < |xs|
      ensures HasValue(TypeFacet, TypeLabel(t))(xs[i]) == RawTypeIs(t)(xs[i])
    {
      if CountedType(xs[i]).Some? {
        TypeLabelInjective(CountedType(xs[i]).value, t);
      }
    }
    FilterCongruent(xs, HasValue(TypeFacet, TypeLabel(t)), RawTypeIs(t));
  }


  /** A product with an enumerated type but no raw type is counted under its
      type, yet selecting that type hides it. */
  lemma {:induction false} TypeCountDisagreesWithFilter()
    ensures var p := Product("Keep", "keep", "Notes", None, "2013-03-20", "2014-03-20", 12,
                             OneToTwoYears, None, Some(Apps), Productivity, Competition, None, None);
            FacetCounts([p], TypeFacet, NoFilters, ["Apps", "Services", "Hardware"])["Apps"] == 1
            && ApplyFilters([p], NoFilters.(productTypes := [Apps])) == []
  {
    var p := Product("Keep", "keep", "Notes", None, "2013-03-20", "2014-03-20", 12,
                     OneToTwoYears, None, Some(Apps), Productivity, Competition, None, None);
    NoFiltersKeepAll([p]);
    assert ClearFacet(NoFilters, TypeFacet) == NoFilters;
    assert HasValue(TypeFacet, "Apps")(p);
    assert Filter([p], HasValue(TypeFacet, "Apps")) == [p];
    assert !Matcher(NoFilters.(productTypes := [Apps]))(p);
  }

  // ---------------------------------------------------------------------
  // Completeness of the counts

  /** How many of `xs` carry `v` in the dimension. */
  function CountOf(xs: seq<Product>, facet: Facet): string -> nat {
    v => CountWhere(xs, HasValue(facet, v))
  }

  function InValues(facet: Facet, values: seq<string>): Product -> bool {
    p => FacetValue(p, facet) in values
  }

  /** Over distinct values, the per-value counts add up to the number of
      products carrying any of them: nothing is counted twice or missed. */
  lemma {:induction false} CountsAddUp(xs: seq<Product>, facet: Facet, values: seq<string>)
    requires Distinct(values)
    ensures SumOf(values, CountOf(xs, facet)) == CountWhere(xs, InValues(facet, values))
    decreases |values|
  {
    if |values| == 0 {
      CountWhereNone(xs, InValues(facet, values));
    } else {
      var v := values[0];
      var rest := values[1..];
      assert Distinct(rest) by {
        forall i, j | 0 <= i < j < |rest| ensures rest[i] != rest[j] {
          assert rest[i] == values[i + 1] && rest[j] == values[j + 1];
        }
      }
      assert v !in rest by {
        forall k | 0 <= k < |rest| ensures rest[k] != v {
          assert rest[k] == values[k + 1];
        }
      }
      CountsAddUp(xs, facet, rest);
      CountSplit(xs, HasValue(facet, v), InValues(facet, rest), InValues(facet, values));
    }
  }

  /** The facet counts are complete: with distinct, non-empty listed
      values, each count is the number of products passing the other
      dimensions that carry the value, and the counts sum to the number of
      those products that carry any listed value. */
  lemma {:induction false} FacetCountsComplete(ps: seq<Product>, facet: Facet, f: FilterState, values: seq<string>)
    requires Distinct(values) && "" !in values
    ensures var kept := ApplyFilters(ps, ClearFacet(f, facet));
      && (forall v <- values :: FacetCounts(ps, facet, f, values)[v] == CountOf(kept, facet)(v))
      && SumOf(values, CountOf(kept, facet)) == CountWhere(kept, InValues(facet, values))
  {
    CountsAddUp(ApplyFilters(ps, ClearFacet(f, facet)), facet, values);
  }
}

=== FILE: grid.dfy ===
/** The pagination of src/components/product/ProductGrid.tsx: nine products
    a page, Previous and Next buttons, a row of page buttons with ellipses,
    a colour per page, and a return to page 1 when the list changes length
    or the sort option changes. */
module Grid {
  import opened Catalog

  /** `PRODUCTS_PER_PAGE`. */
  const ProductsPerPage: nat := 9

  /** `GOOGLE_COLORS`. */
  const GoogleColors: seq<string> := ["#4285F4", "#EA4335", "#FBBC04", "#34A853"]

  /** JavaScript's `%` on integers: it truncates toward zero, so the
      remainder takes the sign of the dividend. */
  function JsRem(a: int, b: int): (r: int)
    requires b > 0
    ensures a >= 0 ==> 0 <= r < b
    ensures a < 0 ==> -b < r <= 0
    ensures a >= 0 ==> r == a % b
    ensures (a - r) % b == 0
  {
    if a >= 0 then
      assert a - a % b == (a / b) * b;
      MultipleRem(a / b, b);
      a % b
    else
      var m := -a;
      var q := m / b;
      assert m == b * q + m % b;
      assert a - -(m % b) == (-q) * b;
      MultipleRem(-q, b);
      -(m % b)
  }

  /** A multiple of `b` leaves no remainder. */
  lemma {:induction false} MultipleRem(q: int, b: int)
    requires b > 0
    ensures (q * b) % b == 0
  {
    var m := q * b;
    var k := q - m / b;
    assert m % b == b * k;
    ScaledBounds(b, k);
  }

  /** A non-zero multiple of a positive `b` is at least `b` away from 0. */
  lemma {:induction false} ScaledBounds(b: int, k: int)
    requires b > 0
    ensures k >= 1 ==> b * k >= b
    ensures k <= -1 ==> b * k <= -b
  {
    if k >= 1 {
      assert b * k == b + b * (k - 1);
    } else if k <= -1 {
      assert b * k == -b + b * (k + 1);
    }
  }

  /** `getPageColor(page)`: indexing below 0 yields `undefined`, here
      `None`. */
  function PageColor(page: int): Option<string> {
    var k := JsRem(page - 1, |GoogleColors|);
    if k >= 0 then Some(GoogleColors[k]) else None
  }

  /** `Math.ceil(n / PRODUCTS_PER_PAGE)`. */
  function TotalPages(n: nat): (r: nat)
    ensures n <= r * ProductsPerPage
    ensures r > 0 ==> (r - 1) * ProductsPerPage < n
  {
    (n + ProductsPerPage - 1) / ProductsPerPage
  }

  /** `Array.prototype.slice(start, end)`: a negative bound counts from the
      end, bounds are clipped to the sequence, and a reversed range is
      empty. */
  function JsSlice<T>(xs: seq<T>, start: int, end: int): (r: seq<T>)
    ensures |r| <= |xs|
    ensures 0 <= start <= end <= |xs| ==> r == xs[start..end]
    ensures 0 <= start <= |xs| <= end ==> r == xs[start..]
    ensures 0 <= end <= start ==> r == []
  {
    var n := |xs|;
    var s := if start < 0 then (if n + start < 0 then 0 else n + start) else (if start > n then n else start);
    var e := if end < 0 then (if n + end < 0 then 0 else n + end) else (if end > n then n else end);
    if e <= s then [] else xs[s..e]
  }

  /** A negative start counts back from the end of the sequence, and one
      further back than its length starts at the beginning. */
  lemma {:induction false} JsSliceNegativeStart<T>(xs: seq<T>, start: int, end: int)
    requires start < 0
    ensures -|xs| <= start ==> JsSlice(xs, start, end) == JsSlice(xs, |xs| + start, end)
    ensures start < -|xs| ==> JsSlice(xs, start, end) == JsSlice(xs, 0, end)
  {
  }

  /** A negative end counts back from the end of the sequence, and one
      further back than its length gives the empty slice. */
  lemma {:induction false} JsSliceNegativeEnd<T>(xs: seq<T>, start: int, end: int)
    requires end < 0
    ensures -|xs| <= end ==> JsSlice(xs, start, end) == JsSlice(xs, start, |xs| + end)
    ensures end < -|xs| ==> JsSlice(xs, start, end) == []
  {
  }

  /** `paginatedProducts` for `currentPage`. */
  function PageItems<T>(xs: seq<T>, page: int): (r: seq<T>)
    ensures |r| <= ProductsPerPage
    ensures 1 <= page && (page - 1) * ProductsPerPage <= |xs| ==>
      r == xs[(page - 1) * ProductsPerPage .. if page * ProductsPerPage <= |xs| then page * ProductsPerPage else |xs|]
  {
    var start := (page - 1) * ProductsPerPage;
    JsSlice(xs, start, start + ProductsPerPage)
  }

  /** `handlePrevious`. */
  function Previous(page: int): (r: int)
    ensures r >= 1
    ensures page > 1 ==> r == page - 1
    ensures page <= 1 ==> r == 1
  {
    if page - 1 > 1 then page - 1 else 1
  }

  /** `handleNext`. */
  function Next(page: int, totalPages: int): (r: int)
    ensures r <= totalPages
    ensures page < totalPages ==> r == page + 1
    ensures page >= totalPages ==> r == totalPages
  {
    if totalPages < page + 1 then totalPages else page + 1
  }

  /** The condition under which page `page` gets a button: the first, the
      last, and the current page with its two neighbours. */
  predicate ShowButton(page: int, current: int, totalPages: int) {
    page == 1 || page == totalPages || (page >= current - 1 && page <= current + 1)
  }

  /** Otherwise an ellipsis stands two pages before or after the current
      page. */
  predicate ShowEllipsis(page: int, current: int, totalPages: int) {
    !ShowButton(page, current, totalPages) && (page == current - 2 || page == current + 2)
  }

  // ---------------------------------------------------------------------
  // The grid's state

  /** `currentPage`, and the product count and sort option it was last
      reset for. */
  datatype GridState = GridState(currentPage: int, count: nat, sortOption: SortOption)

  datatype GridEvent =
    | PreviousClicked
    | NextClicked
    | PageClicked(page: int)
    | Rendered(count: nat, sortOption: SortOption)

  /** One event. The Previous, Next and page buttons exist only when there
      is more than one page, and a page button only for a page whose button
      is shown; a render with a new count or sort option resets to page 1. */
  function Step(g: GridState, e: GridEvent): (r: GridState)
    ensures Valid(g) ==> Valid(r)
    ensures e.Rendered? ==> r.count == e.count && r.sortOption == e.sortOption
    ensures !e.Rendered? ==> r.count == g.count && r.sortOption == g.sortOption
    ensures Valid(g) && e.PreviousClicked? ==> r.currentPage <= g.currentPage
    ensures Valid(g) && e.NextClicked? ==> g.currentPage <= r.currentPage
    ensures e.PageClicked? && r.currentPage != g.currentPage ==> r.currentPage == e.page
  {
    var total := TotalPages(g.count);
    match e
    case PreviousClicked => if total > 1 then g.(currentPage := Previous(g.currentPage)) else g
    case NextClicked => if total > 1 then g.(currentPage := Next(g.currentPage, total)) else g
    case PageClicked(p) =>
      if total > 1 && 1 <= p <= total && ShowButton(p, g.currentPage, total) then g.(currentPage := p) else g
    case Rendered(n, o) =>
      if n != g.count || o != g.sortOption then GridState(1, n, o) else g
  }

  /** The current page is a page of the list, or page 1 of an empty list. */
  predicate Valid(g: GridState) {
    1 <= g.currentPage && (g.currentPage <= TotalPages(g.count) || g.currentPage == 1)
  }

  // ---------------------------------------------------------------------
  // Proofs

  /** Colours cycle through the four with period 4, starting with blue at
      page 1. */
  lemma {:induction false} PageColorCycles(page: int)
    requires page >= 1
    ensures PageColor(page).Some? && PageColor(page).value == GoogleColors[(page - 1) % 4]
    ensures PageColor(page + 4) == PageColor(page)
    ensures PageColor(1) == Some("#4285F4")
  {
  }

  /** The pages, in order, make up the whole list. */
  function Pages<T>(xs: seq<T>, k: nat): seq<T>
    decreases k
  {
    if k == 0 then [] else Pages(xs, k - 1) + PageItems(xs, k)
  }

  /** Where the first `k` pages end. */
  function PagesEnd(n: nat, k: nat): (r: nat)
    ensures r <= n
  {
    if k * ProductsPerPage <= n then k * ProductsPerPage else n
  }

  lemma {:induction false} PagesPrefix<T>(xs: seq<T>, k: nat)
    ensures Pages(xs, k) == xs[..PagesEnd(|xs|, k)]
    decreases k
  {
    if k > 0 {
      PagesPrefix(xs, k - 1);
      var a := PagesEnd(|xs|, k - 1);
      var b := PagesEnd(|xs|, k);
      assert (k - 1) * ProductsPerPage + ProductsPerPage == k * ProductsPerPage;
      assert a <= b;
      assert PageItems(xs, k) == xs[a..b];
      assert xs[..a] + xs[a..b] == xs[..b];
    }
  }

  /** Pages 1 to `totalPages` hold every product exactly once, in order. */
  lemma {:induction false} PagesCoverList<T>(xs: seq<T>)
    ensures Pages(xs, TotalPages(|xs|)) == xs
  {
    PagesPrefix(xs, TotalPages(|xs|));
    assert PagesEnd(|xs|, TotalPages(|xs|)) == |xs|;
  }

  /** Every page of a non-empty list before the last is full. */
  lemma {:induction false} PagesBeforeLastAreFull<T>(xs: seq<T>, page: int)
    requires 1 <= page < TotalPages(|xs|)
    ensures |PageItems(xs, page)| == ProductsPerPage
  {
  }

  /** The current page always has its button, and a page more than two
      away from it, other than the first and the last, shows nothing. */
  lemma {:induction false} PageRowShape(page: int, current: int, totalPages: int)
    ensures ShowButton(current, current, totalPages)
    ensures page != 1 && page != totalPages && (page < current - 2 || page > current + 2) ==>
      !ShowButton(page, current, totalPages) && !ShowEllipsis(page, current, totalPages)
  {
  }

  /** Every gap between two neighbouring page buttons holds an ellipsis. */
  lemma {:induction false} GapsHaveEllipsis(p: int, q: int, current: int, totalPages: int)
    requires 1 <= current <= totalPages
    requires 1 <= p && p + 1 < q <= totalPages
    requires ShowButton(p, current, totalPages) && ShowButton(q, current, totalPages)
    requires forall k :: p < k < q ==> !ShowButton(k, current, totalPages)
    ensures exists k :: p < k < q && ShowEllipsis(k, current, totalPages)
  {
    var w := if q <= current - 1 then current - 2 else current + 2;
    assert !ShowButton(p + 1, current, totalPages);
    assert !ShowButton(q - 1, current, totalPages);
    assert p < w < q && ShowEllipsis(w, current, totalPages);
  }

  /** Every event keeps the current page on a page of the list. */
  lemma {:induction false} StepKeepsValid(g: GridState, e: GridEvent)
    requires Valid(g)
    ensures Valid(Step(g, e))
  {
  }

  /** A new length or a new sort option brings back page 1. */
  lemma {:induction false} RenderResets(g: GridState, n: nat, o: SortOption)
    ensures (n != g.count || o != g.sortOption) ==> Step(g, Rendered(n, o)).currentPage == 1
    ensures (n == g.count && o == g.sortOption) ==> Step(g, Rendered(n, o)) == g
  {
  }
}

=== FILE: hierarchical.dfy ===
/** The parent-checkbox rules of src/components/facets/HierarchicalFacetGroup.tsx:
    options are grouped under named parents; a parent can be expanded or
    collapsed, its checkbox shows whether none, some or all of its options
    are selected, clicking it selects or deselects the whole group, and it
    shows the sum of its options' counts. */
module HierarchicalFacets {
  import opened Seqs
  import opened Catalog
  import opened UseFilters

  /** `FacetOption`; `text` is its `label` (a reserved word here). The count
      is optional. */
  datatype FacetOption = FacetOption(value: string, text: string, count: Option<nat>)

  /** `FacetCategory`: a named parent and its options. */
  datatype FacetCategory = FacetCategory(name: string, options: seq<FacetOption>)

  function Values(options: seq<FacetOption>): (vs: seq<string>)
    ensures |vs| == |options|
    ensures forall i :: 0 <= i < |options| ==> vs[i] == options[i].value
  {
    seq(|options|, i requires 0 <= i < |options| => options[i].value)
  }

  // ---------------------------------------------------------------------
  // Expanded parents

  /** The initial `expandedCategories`: every parent is expanded. */
  function InitiallyExpanded(categories: seq<FacetCategory>): (r: set<string>)
    ensures forall i :: 0 <= i < |categories| ==> categories[i].name in r
    ensures forall n <- r :: exists i :: 0 <= i < |categories| && categories[i].name == n
  {
    set i | 0 <= i < |categories| :: categories[i].name
  }

  /** `toggleCategory(name)` on the set of expanded parents. */
  function ToggleExpanded(expanded: set<string>, name: string): (r: set<string>)
    ensures name in r <==> name !in expanded
    ensures forall n <- expanded :: n != name ==> n in r
    ensures forall n <- r :: n != name ==> n in expanded
  {
    if name in expanded then expanded - {name} else expanded + {name}
  }

  // ---------------------------------------------------------------------
  // The parent checkbox

  datatype SelectionState = NoneSelected | SomeSelected | AllSelected

  function IsSelected(selected: seq<string>): FacetOption -> bool {
    (o: FacetOption) => o.value in selected
  }

  function IsUnselected(selected: seq<string>): FacetOption -> bool {
    (o: FacetOption) => o.value !in selected
  }

  /** `getCategorySelectionState`: by the number of selected options. An
      empty parent has none selected. */
  function SelectionStateOf(c: FacetCategory, selected: seq<string>): (r: SelectionState)
    ensures r == NoneSelected <==> forall i :: 0 <= i < |c.options| ==> c.options[i].value !in selected
    ensures r == AllSelected <==>
      (|c.options| > 0 && forall i :: 0 <= i < |c.options| ==> c.options[i].value in selected)
  {
    var n := CountWhere(c.options, IsSelected(selected));
    CountWhereNone(c.options, IsSelected(selected));
    CountWhereEvery(c.options, IsSelected(selected));
    if n == 0 then NoneSelected
    else if n == |c.options| then AllSelected
    else SomeSelected
  }

  /** Applying `onToggle` to each value in turn; each call sees the result
      of the one before. */
  function ApplyToggles(selected: seq<string>, vs: seq<string>): seq<string>
    decreases |vs|
  {
    if |vs| == 0 then selected
    else Toggle(ApplyToggles(selected, vs[..|vs| - 1]), vs[|vs| - 1])
  }

  /** The values `handleCategoryToggle` passes to `onToggle`, chosen against
      the selection at the time of the click: from 'all' the selected
      options, otherwise the unselected ones. */
  function ParentToggleValues(c: FacetCategory, selected: seq<string>): seq<string> {
    if SelectionStateOf(c, selected) == AllSelected
    then Values(Filter(c.options, IsSelected(selected)))
    else Values(Filter(c.options, IsUnselected(selected)))
  }

  /** The selection after `handleCategoryToggle(c)`: only values of the
      group's options change state. */
  function HandleCategoryToggle(c: FacetCategory, selected: seq<string>): (r: seq<string>)
    ensures forall v :: v !in Values(c.options) ==> (v in r <==> v in selected)
  {
    var vs := ParentToggleValues(c, selected);
    assert forall v :: v !in Values(c.options) ==> (v in ApplyToggles(selected, vs) <==> v in selected) by {
      var p := if SelectionStateOf(c, selected) == AllSelected then IsSelected(selected) else IsUnselected(selected);
      forall v | v !in Values(c.options) ensures v in ApplyToggles(selected, vs) <==> v in selected {
        FilteredValues(c.options, p, v);
        ApplyTogglesOutside(selected, vs, v);
      }
    }
    ApplyToggles(selected, vs)
  }

  /** A value the run of toggles does not name keeps its state. */
  lemma {:induction false} ApplyTogglesOutside(selected: seq<string>, vs: seq<string>, v: string)
    requires v !in vs
    ensures v in ApplyToggles(selected, vs) <==> v in selected
    decreases |vs|
  {
    if |vs| > 0 {
      assert vs[|vs| - 1] in vs;
      assert forall k :: 0 <= k < |vs| - 1 ==> vs[..|vs| - 1][k] == vs[k];
      ApplyTogglesOutside(selected, vs[..|vs| - 1], v);
    }
  }

  // ---------------------------------------------------------------------
  // The parent count

  /** `opt.count || 0`. */
  function OptionCount(o: FacetOption): nat {
    match o.count
    case Some(n) => n
    case None => 0
  }

  /** `getCategoryCount`: the options' counts summed, a missing count as 0. */
  function CategoryCount(options: seq<FacetOption>): (r: nat)
    ensures forall i :: 0 <= i < |options| ==> OptionCount(options[i]) <= r
    ensures r == 0 <==> forall i :: 0 <= i < |options| ==> OptionCount(options[i]) == 0
    decreases |options|
  {
    if |options| == 0 then 0
    else
      var rest := CategoryCount(options[1..]);
      assert forall i :: 1 <= i < |options| ==> options[i] == options[1..][i - 1];
      OptionCount(options[0]) + rest
  }

  // ---------------------------------------------------------------------
  // Proofs

  /** The parent count of one option is that option's count. */
  lemma {:induction false} CategoryCountSingle(o: FacetOption)
    ensures CategoryCount([o]) == OptionCount(o)
  {
    assert [o][1..] == [];
  }

  /** The parent count is additive: the count of two runs of options is the
      sum of their counts, so the parent shows the total of its options. */
  lemma {:induction false} CategoryCountAppend(a: seq<FacetOption>, b: seq<FacetOption>)
    ensures CategoryCount(a + b) == CategoryCount(a) + CategoryCount(b)
    decreases |a|
  {
    if |a| > 0 {
      assert (a + b)[1..] == a[1..] + b;
      CategoryCountAppend(a[1..], b);
    } else {
      assert a + b == b;
    }
  }

  /** Toggling a parent's expansion twice restores it. */
  lemma {:induction false} ToggleExpandedTwice(expanded: set<string>, name: string)
    ensures ToggleExpanded(ToggleExpanded(expanded, name), name) == expanded
  {
  }

  /** With distinct values, a run of toggles flips exactly the values in
      the run. */
  lemma {:induction false} ApplyTogglesFlips(selected: seq<string>, vs: seq<string>)
    requires Distinct(vs)
    ensures forall v :: v in ApplyToggles(selected, vs) <==> (v in selected) != (v in vs)
    decreases |vs|
  {
    if |vs| > 0 {
      var init := vs[..|vs| - 1];
      var x := vs[|vs| - 1];
      assert Distinct(init);
      ApplyTogglesFlips(selected, init);
      assert vs == init + [x];
      assert x !in init by {
        forall k | 0 <= k < |init| ensures init[k] != x {
          assert init[k] == vs[k];
        }
      }
    }
  }

  /** Filtering options keeps their values distinct. */
  lemma {:induction false} ValuesDistinctOfFilter(options: seq<FacetOption>, p: FacetOption -> bool)
    requires Distinct(Values(options))
    ensures Distinct(Values(Filter(options, p)))
    decreases |options|
  {
    if |options| > 0 {
      var tail := options[1..];
      assert Distinct(Values(tail)) by {
        forall i, j | 0 <= i < j < |tail| ensures Values(tail)[i] != Values(tail)[j] {
          assert Values(options)[i + 1] == Values(tail)[i];
          assert Values(options)[j + 1] == Values(tail)[j];
        }
      }
      ValuesDistinctOfFilter(tail, p);
      if p(options[0]) {
        var r := Filter(options, p);
        var rt := Filter(tail, p);
        assert r == [options[0]] + rt;
        forall o | o in rt ensures o.value != options[0].value {
          var k :| 0 <= k < |tail| && tail[k] == o;
          assert Values(options)[k + 1] == o.value;
          assert Values(options)[0] == options[0].value;
        }
        forall i, j | 0 <= i < j < |r| ensures Values(r)[i] != Values(r)[j] {
          assert r[j] == rt[j - 1];
          if i == 0 {
            assert rt[j - 1] in rt;
          } else {
            assert r[i] == rt[i - 1];
            assert Values(rt)[i - 1] != Values(rt)[j - 1];
          }
        }
      }
    }
  }

  /** A value is in `Values(Filter(options, p))` when it is the value of an
      option that `p` keeps, and only then. */
  lemma {:induction false} FilteredValues(options: seq<FacetOption>, p: FacetOption -> bool, v: string)
    ensures v in Values(Filter(options, p)) <==> exists i :: 0 <= i < |options| && options[i].value == v && p(options[i])
  {
    var r := Filter(options, p);
    if v in Values(r) {
      var k :| 0 <= k < |r| && Values(r)[k] == v;
      assert r[k] in r;
      var i :| 0 <= i < |options| && options[i] == r[k];
    }
    if exists i :: 0 <= i < |options| && options[i].value == v && p(options[i]) {
      var i :| 0 <= i < |options| && options[i].value == v && p(options[i]);
      assert options[i] in r;
      var k :| 0 <= k < |r| && r[k] == options[i];
      assert Values(r)[k] == v;
    }
  }

  /** From 'all', clicking the parent deselects every option of the group;
      otherwise it selects every option. Values outside the group keep
      their state. Option values must be distinct. */
  lemma {:induction false} ParentToggleSelectsOrClears(c: FacetCategory, selected: seq<string>)
    requires Distinct(Values(c.options))
    ensures var after := HandleCategoryToggle(c, selected);
      && (SelectionStateOf(c, selected) == AllSelected ==> SelectionStateOf(c, after) == NoneSelected)
      && (SelectionStateOf(c, selected) != AllSelected && |c.options| > 0 ==> SelectionStateOf(c, after) == AllSelected)
      && (forall v :: v !in Values(c.options) ==> (v in after <==> v in selected))
  {
    var all := SelectionStateOf(c, selected) == AllSelected;
    var p := if all then IsSelected(selected) else IsUnselected(selected);
    var vs := Values(Filter(c.options, p));
    assert ParentToggleValues(c, selected) == vs;
    ValuesDistinctOfFilter(c.options, p);
    ApplyTogglesFlips(selected, vs);
    var after := HandleCategoryToggle(c, selected);
    forall i | 0 <= i < |c.options|
      ensures c.options[i].value in after <==> !all
    {
      GroupValueFlipped(c.options, selected, all, p, i);
    }
    forall v | v !in Values(c.options) ensures v in after <==> v in selected {
      FilteredValues(c.options, p, v);
    }
  }

  /** Every option of the group ends up selected exactly when the click did
      not start from 'all'. */
  lemma {:induction false} GroupValueFlipped(options: seq<FacetOption>, selected: seq<string>, all: bool, p: FacetOption -> bool, i: nat)
    requires Distinct(Values(options))
    requires all ==> forall k :: 0 <= k < |options| ==> options[k].value in selected
    requires p == if all then IsSelected(selected) else IsUnselected(selected)
    requires i < |options|
    ensures (options[i].value in selected) != (options[i].value in Values(Filter(options, p))) <==> !all
  {
    var v := options[i].value;
    FilteredValues(options, p, v);
    if v in Values(Filter(options, p)) {
      var k :| 0 <= k < |options| && options[k].value == v && p(options[k]);
      assert Values(options)[k] == Values(options)[i];
    }
  }
}

=== FILE: normalizer.dfy ===
/** The text normaliser of src/utils/tfidfSearch.ts: tokenising, stop-word
    removal and the first-match-wins suffix stemmer, composed by
    `processText`. */
module Normalizer {
  import opened Text
  import opened Seqs

  /** A character a token can hold: `\w` after lower-casing. */
  predicate IsTokenChar(c: char) {
    IsWordChar(c) && !IsUpper(c)
  }

  predicate AllTokenChars(w: string) {
    forall i :: 0 <= i < |w| ==> IsTokenChar(w[i])
  }

  /** Lower-case, then replace every character outside `[\w\s]` by a space. */
  function CleanChar(c: char): char {
    var d := LowerChar(c);
    if IsWordChar(d) || IsSpace(d) then d else ' '
  }

  /** `\w` characters survive lower-cased; every other character becomes
      white space. */
  function Clean(text: string): (r: string)
    ensures |r| == |text|
    ensures forall i :: 0 <= i < |r| ==> IsSpace(r[i]) || IsTokenChar(r[i])
    ensures forall i :: 0 <= i < |text| && IsWordChar(LowerChar(text[i])) ==> r[i] == LowerChar(text[i])
    ensures forall i :: 0 <= i < |text| && !IsWordChar(LowerChar(text[i])) ==> IsSpace(r[i])
  {
    seq(|text|, i requires 0 <= i < |text| => CleanChar(text[i]))
  }

  /** Cleaning works character by character. */
  lemma {:induction false} CleanAppend(a: string, b: string)
    ensures Clean(a + b) == Clean(a) + Clean(b)
  {
  }

  /** A word of `\w` characters is only lower-cased by cleaning. */
  lemma {:induction false} CleanWord(w: string)
    requires forall i :: 0 <= i < |w| ==> IsWordChar(w[i])
    ensures Clean(w) == Lower(w)
  {
    forall i | 0 <= i < |w| ensures Clean(w)[i] == Lower(w)[i] {
      assert IsWordChar(LowerChar(w[i]));
    }
  }

  /** A non-empty word of `\w` characters, lower-cased, holds no white
      space. */
  lemma {:induction false} LowerWordNoSpace(w: string)
    requires |w| > 0 && forall i :: 0 <= i < |w| ==> IsWordChar(w[i])
    ensures |Lower(w)| > 0 && NoSpaceIn(Lower(w))
  {
    forall i | 0 <= i < |w| ensures !IsSpace(Lower(w)[i]) {
      assert IsWordChar(Lower(w)[i]);
    }
  }

  /** Cleaning commutes with slicing. */
  lemma {:induction false} CleanSlice(text: string, i: nat, j: nat)
    requires i <= j <= |text|
    ensures Clean(text)[i..j] == Clean(text[i..j])
  {
  }

  /** A word of `\w` characters followed by a space cleans to its lower-case
      form in front of the words of the rest. */
  lemma {:induction false} LeadingWord(a: string, rest: string)
    requires |a| > 0 && forall i :: 0 <= i < |a| ==> IsWordChar(a[i])
    ensures Words(Clean(a + " " + rest)) == [Lower(a)] + Words(Clean(rest))
  {
    var t := a + " " + rest;
    var c := Clean(t);
    var n := |a|;
    assert t[..n] == a && t[n] == ' ' && t[n + 1..] == rest;
    CleanSlice(t, 0, n);
    CleanSlice(t, n + 1, |t|);
    CleanWord(a);
    assert c[..n] == Lower(a);
    assert c[n + 1..] == Clean(rest);
    LowerWordNoSpace(a);
    WordsAt(c, n);
  }

  /** Two words of `\w` characters separated by a space, followed by a space
      and anything, clean to their lower-case forms in front of the words of
      the rest. */
  lemma {:induction false} LeadingWords(a: string, b: string, rest: string)
    requires |a| > 0 && forall i :: 0 <= i < |a| ==> IsWordChar(a[i])
    requires |b| > 0 && forall i :: 0 <= i < |b| ==> IsWordChar(b[i])
    ensures Words(Clean(a + " " + b + " " + rest)) == [Lower(a), Lower(b)] + Words(Clean(rest))
  {
    assert a + " " + b + " " + rest == a + " " + (b + " " + rest);
    LeadingWord(a, b + " " + rest);
    LeadingWord(b, rest);
  }

  /** Two words of `\w` characters separated by a space clean to their
      lower-case forms. */
  lemma {:induction false} TwoWords(a: string, b: string)
    requires |a| > 0 && forall i :: 0 <= i < |a| ==> IsWordChar(a[i])
    requires |b| > 0 && forall i :: 0 <= i < |b| ==> IsWordChar(b[i])
    ensures Words(Clean(a + " " + b)) == [Lower(a), Lower(b)]
  {
    LeadingWord(a, b);
    CleanWord(b);
    LowerWordNoSpace(b);
    WordsSingle(Lower(b));
  }

  /** The predicate `tokenize` keeps words by: longer than one character. */
  function LongWord(): string -> bool {
    w => |w| > 1
  }

  /** `tokenize(text)`: the words of the cleaned text that are longer than
      one character, in order. */
  function Tokenize(text: string): (tokens: seq<string>)
    ensures IsSubsequence(tokens, Words(Clean(text)))
    ensures forall k :: 0 <= k < |tokens| ==> |tokens[k]| >= 2 && AllTokenChars(tokens[k])
    ensures forall i :: 0 <= i < |Words(Clean(text))| && |Words(Clean(text))[i]| >= 2 ==>
      Words(Clean(text))[i] in tokens
    ensures forall w {:trigger Occurrences(tokens, w)} :: Occurrences(tokens, w) == if |w| >= 2 then Occurrences(Words(Clean(text)), w) else 0
  {
    var words := Words(Clean(text));
    WordsOfCleanText(Clean(text));
    var r := Filter(words, LongWord());
    assert forall k :: 0 <= k < |r| ==> r[k] in r;
    forall w ensures Occurrences(r, w) == if |w| >= 2 then Occurrences(words, w) else 0 {
      FilterMultiplicity(words, LongWord(), w);
    }
    r
  }

  /** `STOP_WORDS`: the 86 words, kept as one set per word length so that
      the verifier can rule a word out by its length first. */
  const StopWords: set<string> :=
    StopWords1 + StopWords2 + StopWords3 + StopWords4 + StopWords5 + StopWords6

  const StopWords1: set<string> := {"a", "i"}

  const StopWords2: set<string> :=
    {"an", "or", "in", "on", "at", "to", "of", "by", "as", "is", "be", "do", "it",
     "he", "we", "no", "so"}

  const StopWords3: set<string> :=
    {"the", "and", "but", "for", "was", "are", "has", "had", "did", "may", "can",
     "its", "you", "she", "who", "why", "how", "all", "few", "nor", "not", "own",
     "too", "now"}

  const StopWords4: set<string> :=
    {"with", "from", "were", "been", "have", "does", "will", "must", "need",
     "dare", "used", "this", "that", "they", "what", "whom", "when", "each",
     "both", "more", "most", "some", "such", "only", "same", "than", "very",
     "just", "also", "here"}

  const StopWords5: set<string> :=
    {"would", "could", "might", "shall", "ought", "these", "those", "which",
     "where", "every", "other", "there"}

  const StopWords6: set<string> := {"should"}

  /** No stop word is longer than six characters, and "should" is the only
      one of six. */
  lemma {:induction false} StopWordLength(w: string)
    requires w in StopWords
    ensures |w| <= 6 && (|w| == 6 ==> w == "should")
  {
    if w in StopWords1 { StopWords1Length(w); }
    else if w in StopWords2 { StopWords2Length(w); }
    else if w in StopWords3 { StopWords3Length(w); }
    else if w in StopWords4 { StopWords4Length(w); }
    else if w in StopWords5 { StopWords5Length(w); }
  }

  lemma {:induction false} StopWords1Length(w: string)
    requires w in StopWords1
    ensures |w| == 1
  {
  }

  lemma {:induction false} StopWords2Length(w: string)
    requires w in StopWords2
    ensures |w| == 2
  {
  }

  lemma {:induction false} StopWords3Length(w: string)
    requires w in StopWords3
    ensures |w| == 3
  {
  }

  lemma {:induction false} StopWords4Length(w: string)
    requires w in StopWords4
    ensures |w| == 4
  {
  }

  lemma {:induction false} StopWords5Length(w: string)
    requires w in StopWords5
    ensures |w| == 5
  {
  }

  function NotStopWord(): string -> bool {
    t => t !in StopWords
  }

  /** `removeStopWords(tokens)`. */
  function RemoveStopWords(tokens: seq<string>): (r: seq<string>)
    ensures IsSubsequence(r, tokens)
    ensures forall t <- r :: t !in StopWords
    ensures forall i :: 0 <= i < |tokens| && tokens[i] !in StopWords ==> tokens[i] in r
    ensures forall w {:trigger Occurrences(r, w)} :: Occurrences(r, w) == if w in StopWords then 0 else Occurrences(tokens, w)
  {
    var r := Filter(tokens, NotStopWord());
    forall w ensures Occurrences(r, w) == if w in StopWords then 0 else Occurrences(tokens, w) {
      FilterMultiplicity(tokens, NotStopWord(), w);
    }
    r
  }

  /** `stem(word)`: the first suffix rule that matches is applied, once. */
  function Stem(w: string): (r: string)
    ensures |w| - 4 <= |r| <= |w|
  {
    if EndsWith(w, "ing") then Drop(w, 3)
    else if EndsWith(w, "ed") then Drop(w, 2)
    else if EndsWith(w, "ies") then Drop(w, 3) + "y"
    else if EndsWith(w, "es") then Drop(w, 2)
    else if EndsWith(w, "s") && !EndsWith(w, "ss") then Drop(w, 1)
    else if EndsWith(w, "ly") then Drop(w, 2)
    else if EndsWith(w, "ment") then Drop(w, 4)
    else if EndsWith(w, "tion") then Drop(w, 4)
    else if EndsWith(w, "ness") then Drop(w, 4)
    else w
  }

  /** The stem is a prefix of the word, except under the `ies` rule, which
      replaces that suffix by `y`. */
  lemma {:induction false} StemShape(w: string)
    ensures Stem(w) == w[..|Stem(w)|] || (EndsWith(w, "ies") && Stem(w) == w[..|w| - 3] + "y")
  {
    if !EndsWith(w, "ing") && !EndsWith(w, "ed") && EndsWith(w, "ies") {
      assert Stem(w) == Drop(w, 3) + "y";
    } else {
      var r := Stem(w);
      assert r == w[..|r|];
    }
  }

  /** `w` without its last `k` characters. */
  function Drop(w: string, k: nat): (r: string)
    requires k <= |w|
    ensures |r| == |w| - k && r == w[..|r|]
  {
    w[..|w| - k]
  }

  /** `processText(text)`: tokenise, drop stop words, stem. There is one
      term per kept token, in order, so a word that occurs twice gives its
      stem twice. Each term is the stem of a token that is not a stop word,
      and is made of lower-case `\w` characters only (so `_` and digits
      survive, capitals do not); the stem of every such token is a term. */
  function ProcessText(text: string): (terms: seq<string>)
    ensures |terms| <= |Tokenize(text)|
    ensures |terms| == |RemoveStopWords(Tokenize(text))|
    ensures forall k :: 0 <= k < |terms| ==> terms[k] == Stem(RemoveStopWords(Tokenize(text))[k])
    ensures forall k :: 0 <= k < |terms| ==> AllTokenChars(terms[k])
    ensures forall k :: 0 <= k < |terms| ==>
      exists tok :: tok in Tokenize(text) && tok !in StopWords && terms[k] == Stem(tok)
    ensures forall tok <- Tokenize(text) :: tok !in StopWords ==> Stem(tok) in terms
  {
    var tokens := Tokenize(text);
    var kept := RemoveStopWords(tokens);
    var terms := StemAll(kept);
    StemsOfKept(tokens, kept, terms);
    terms
  }

  /** `tokens.map(stem)`. */
  function StemAll(ws: seq<string>): (r: seq<string>)
    ensures |r| == |ws| && forall k :: 0 <= k < |ws| ==> r[k] == Stem(ws[k])
  {
    seq(|ws|, k requires 0 <= k < |ws| => Stem(ws[k]))
  }

  /** A word of the cleaned text of two or more characters that is not a
      stop word contributes its stem to the terms. */
  lemma {:induction false} WordIsTerm(text: string, i: nat)
    requires i < |Words(Clean(text))|
    requires |Words(Clean(text))[i]| >= 2 && Words(Clean(text))[i] !in StopWords
    ensures Stem(Words(Clean(text))[i]) in ProcessText(text)
  {
    assert Words(Clean(text))[i] in Tokenize(text);
  }

  /** Every term is the stem of a word of the cleaned text that is not a
      stop word. */
  lemma {:induction false} TermIsWord(text: string, k: nat)
    requires k < |ProcessText(text)|
    ensures exists w :: w in Words(Clean(text)) && w !in StopWords && ProcessText(text)[k] == Stem(w)
  {
    var tok :| tok in Tokenize(text) && tok !in StopWords && ProcessText(text)[k] == Stem(tok);
    SubsequenceMembers(Tokenize(text), Words(Clean(text)), tok);
  }

  /** The facts `ProcessText` states, for its own body. */
  lemma {:induction false} StemsOfKept(tokens: seq<string>, kept: seq<string>, terms: seq<string>)
    requires forall k :: 0 <= k < |tokens| ==> AllTokenChars(tokens[k])
    requires kept == RemoveStopWords(tokens)
    requires |terms| == |kept| && forall k :: 0 <= k < |kept| ==> terms[k] == Stem(kept[k])
    ensures forall k :: 0 <= k < |terms| ==> AllTokenChars(terms[k])
    ensures forall k :: 0 <= k < |terms| ==>
      exists tok :: tok in tokens && tok !in StopWords && terms[k] == Stem(tok)
    ensures forall tok <- tokens :: tok !in StopWords ==> Stem(tok) in terms
  {
    forall k | 0 <= k < |terms|
      ensures AllTokenChars(terms[k])
      ensures exists tok :: tok in tokens && tok !in StopWords && terms[k] == Stem(tok)
    {
      assert kept[k] in kept;
      var i :| 0 <= i < |tokens| && tokens[i] == kept[k];
      StemKeepsTokenChars(kept[k]);
    }
    forall tok <- tokens | tok !in StopWords ensures Stem(tok) in terms {
      var i :| 0 <= i < |tokens| && tokens[i] == tok;
      var k :| 0 <= k < |kept| && kept[k] == tok;
      assert terms[k] == Stem(tok);
    }
  }

  // ---------------------------------------------------------------------
  // Proofs

  /** Every word of a cleaned text is made of token characters. */
  lemma {:induction false} WordsOfCleanText(s: string)
    requires forall i :: 0 <= i < |s| ==> IsSpace(s[i]) || IsTokenChar(s[i])
    ensures forall w <- Words(s) :: AllTokenChars(w)
    decreases |s|
  {
    if |s| > 0 {
      if IsSpace(s[0]) {
        WordsOfCleanText(s[1..]);
      } else {
        var w := TakeWord(s);
        WordsOfCleanText(s[|w|..]);
        forall i | 0 <= i < |w| ensures IsTokenChar(w[i]) {
          assert w[i] == s[i];
        }
      }
    }
  }

  /** Stemming a token keeps it made of token characters (`y` is one). */
  lemma {:induction false} StemKeepsTokenChars(w: string)
    requires AllTokenChars(w)
    ensures AllTokenChars(Stem(w))
  {
    var r := Stem(w);
    StemShape(w);
    forall i | 0 <= i < |r| ensures IsTokenChar(r[i]) {
      if r == w[..|r|] {
        assert r[i] == w[i];
      } else if i < |w| - 3 {
        assert r[i] == w[i];
      }
    }
  }

  /** A text made only of stop words and one-letter words normalises to
      nothing. */
  lemma {:induction false} StopWordsOnly(text: string)
    requires forall k :: 0 <= k < |Tokenize(text)| ==> Tokenize(text)[k] in StopWords
    ensures ProcessText(text) == []
  {
    var tokens := Tokenize(text);
    CountWhereNone(tokens, NotStopWord());
    assert |RemoveStopWords(tokens)| == 0;
  }

  /** A text of one space cleans to itself. */
  lemma {:induction false} CleanSpace()
    ensures Clean(" ") == [' ']
  {
    assert CleanChar(' ') == ' ';
  }

  /** Tokenising two texts joined by a space gives the tokens of the first
      followed by the tokens of the second. */
  lemma {:induction false} TokenizeAppend(a: string, b: string)
    ensures Tokenize(a + " " + b) == Tokenize(a) + Tokenize(b)
  {
    CleanAppend(a + " ", b);
    CleanAppend(a, " ");
    CleanSpace();
    assert Clean(a + " " + b) == Clean(a) + [' '] + Clean(b);
    WordsAppend(Clean(a), ' ', Clean(b));
    FilterAppend(Words(Clean(a)), Words(Clean(b)), LongWord());
  }

  /** Stemming works token by token. */
  lemma {:induction false} StemAllAppend(xs: seq<string>, ys: seq<string>)
    ensures StemAll(xs + ys) == StemAll(xs) + StemAll(ys)
  {
  }

  /** Processing two texts joined by a space gives the terms of the first
      followed by the terms of the second: `processText` is a homomorphism
      from space-joined texts to concatenated term lists. */
  lemma {:induction false} ProcessTextAppend(a: string, b: string)
    ensures ProcessText(a + " " + b) == ProcessText(a) + ProcessText(b)
  {
    TokenizeAppend(a, b);
    FilterAppend(Tokenize(a), Tokenize(b), NotStopWord());
    StemAllAppend(RemoveStopWords(Tokenize(a)), RemoveStopWords(Tokenize(b)));
  }

  /** The empty text has no terms. */
  lemma {:induction false} ProcessTextEmpty()
    ensures ProcessText("") == []
  {
    assert Clean("") == "";
  }

  /** The stemmer's rule precedence on the documented examples: each word
      gets exactly one rule, the first that matches. */
  lemma {:induction false} StemRunning()
    ensures Stem("running") == "runn"
  {
    assert "running"[4..] == "ing";
  }

  lemma {:induction false} StemStudies()
    ensures Stem("studies") == "study"
  {
    assert "studies"[4..] == "ies" && "studies"[5..] != "ed";
  }

  lemma {:induction false} StemBoxes()
    ensures Stem("boxes") == "box"
  {
    assert "boxes"[3..] == "es" && "boxes"[2..] != "ies" && "boxes"[2..] != "ing";
  }

  lemma {:induction false} StemGlass()
    ensures Stem("glass") == "glass"
  {
    var w := "glass";
    assert w[2..] == "ass" && !EndsWith(w, "ing") && !EndsWith(w, "ies");
    assert w[3..] == "ss" && !EndsWith(w, "ed") && !EndsWith(w, "es") && !EndsWith(w, "ly");
    assert w[1..] == "lass" && !EndsWith(w, "ment") && !EndsWith(w, "tion") && !EndsWith(w, "ness");
  }

  /** One rule, once: "sings" loses its "s" and keeps its "ing". */
  lemma {:induction false} StemSings()
    ensures Stem("sings") == "sing"
  {
    assert "sings"[2..] != "ing" && "sings"[3..] != "es" && "sings"[4..] == "s";
  }

  /** Stop words are removed before stemming, so a stem can be empty or can
      be a stop word itself. */
  lemma {:induction false} StemToEmpty()
    ensures Stem("ing") == ""
  {
    assert "ing"[0..] == "ing";
  }

  lemma {:induction false} StemToStopWord()
    ensures "willing" !in StopWords && Stem("willing") == "will" && "will" in StopWords
  {
    WillingIsNoStopWord();
    StemWilling();
    assert "will" in StopWords4;
  }

  lemma {:induction false} WillingIsNoStopWord()
    ensures "willing" !in StopWords
  {
    WillingIsNoShortWord();
    WillingIsNoLongWord();
  }

  lemma {:induction false} WillingIsNoShortWord()
    ensures "willing" !in StopWords1 + StopWords2 + StopWords3
  {
  }

  lemma {:induction false} WillingIsNoLongWord()
    ensures "willing" !in StopWords4 + StopWords5 + StopWords6
  {
  }

  lemma {:induction false} StemWilling()
    ensures Stem("willing") == "will"
  {
    var w := "willing";
    assert w[4..] == "ing";
    assert w[..4] == "will";
  }
}

=== FILE: product_view.dfy ===
/** What a product's card (src/components/product/ProductCard.tsx) and its
    detail view (src/components/product/ProductDetail.tsx) derive from it:
    the type shown on the tag, the colours of the lifespan badge, and the
    list of related links with its heading. Both views map the raw type
    with the same rules as the filter, so `Filters.MapType` serves all
    three. */
module ProductView {
  import opened Text
  import opened Seqs
  import opened Catalog
  import opened Filters

  // ---------------------------------------------------------------------
  // The displayed type

  /** `product.productType || mapTypeToProductType(type) || 'Services'`. */
  function DisplayedType(p: Product): (r: ProductType)
    ensures p.productType.Some? ==> r == p.productType.value
    ensures CountedType(p).Some? ==> r == CountedType(p).value
    ensures CountedType(p).None? ==> r == Services
  {
    if p.productType.Some? then p.productType.value
    else match MapType(p.rawType)
      case Some(t) => t
      case None => Services
  }

  /** The raw-type mapping in full: the five spellings it recognises, case
      aside, and nothing else. */
  lemma {:induction false} MapTypeCases(s: string)
    ensures MapType(Some(s)) == Some(Apps) <==> (Lower(s) == "app" || Lower(s) == "apps")
    ensures MapType(Some(s)) == Some(Services) <==> (Lower(s) == "service" || Lower(s) == "services")
    ensures MapType(Some(s)) == Some(Hardware) <==> Lower(s) == "hardware"
    ensures MapType(Some(s)) == None <==>
      Lower(s) !in ["app", "apps", "service", "services", "hardware"]
  {
  }

  /** The tag shows the type the type facet counts the product under; a
      product the facet does not count under any type is shown as
      Services. */
  lemma {:induction false} DisplayedTypeIsCountedType(p: Product)
    ensures CountedType(p).Some? ==> DisplayedType(p) == CountedType(p).value
    ensures CountedType(p).Some? ==> FacetValue(p, TypeFacet) == TypeLabel(DisplayedType(p))
    ensures CountedType(p).None? <==> (DisplayedType(p) == Services && FacetValue(p, TypeFacet) == "")
  {
  }

  /** A product the type filter keeps for a selection is shown with a
      selected type, provided it carries no enumerated type of its own. */
  lemma {:induction false} KeptProductShowsSelectedType(p: Product, sel: seq<ProductType>)
    requires |sel| > 0 && PassesType(p, sel) && p.productType.None?
    ensures DisplayedType(p) in sel
  {
  }

  /** A product whose raw type is unknown is shown as Services, yet the
      Services selection removes it from the list. */
  lemma {:induction false} ShownAsServicesButFilteredOut()
    ensures var p := Product("Google Wave", "google-wave", "Real-time collaboration", None,
                             "2009-05-27", "2012-04-30", 35, TwoToFiveYears, Some("website"), None,
                             Communication, BadMarketFit, None, None);
      DisplayedType(p) == Services && !PassesType(p, [Services])
  {
    var s := "website";
    assert Lower(s) == s;
    assert MapType(Some(s)) == None;
  }

  // ---------------------------------------------------------------------
  // The lifespan badge

  /** A background and a text colour. */
  datatype BadgeColors = BadgeColors(bg: string, text: string)

  /** `lifespanColors`, keyed by the lifespan's label. */
  const LifespanColors: map<string, BadgeColors> := map[
    "Less than 1 year" := BadgeColors("#EA4335", "#FFFFFF"),
    "1-2 years" := BadgeColors("#FBBC04", "#202124"),
    "2-5 years" := BadgeColors("#4285F4", "#FFFFFF"),
    "5-10 years" := BadgeColors("#34A853", "#FFFFFF"),
    "10+ years" := BadgeColors("#34A853", "#FFFFFF")
  ]

  /** The badge of a product: its lifespan category looked up in the
      table. */
  function BadgeOf(p: Product): (r: BadgeColors)
    ensures r in LifespanColors.Values
  {
    LifespanTableComplete();
    LifespanColors[LifespanLabel(p.lifespanCategory)]
  }

  /** The table has an entry for every lifespan category and no other, so
      the card's lookup never misses. */
  lemma {:induction false} LifespanTableComplete()
    ensures forall c: LifespanCategory :: LifespanLabel(c) in LifespanColors
    ensures forall k <- LifespanColors :: ParseLifespan(k).Some?
  {
    LifespanClosed();
    forall c: LifespanCategory ensures LifespanLabel(c) in LifespanColors {
      match c
      case LessThanOneYear =>
      case OneToTwoYears =>
      case TwoToFiveYears =>
      case FiveToTenYears =>
      case TenPlusYears =>
    }
  }

  /** Red for the shortest lives, then yellow and blue, and green from five
      years on: the two longest categories share one badge. */
  lemma {:induction false} BadgeByLifespan(p: Product)
    ensures BadgeOf(p).bg == "#EA4335" <==> p.lifespanCategory == LessThanOneYear
    ensures BadgeOf(p).bg == "#34A853" <==> p.lifespanCategory in [FiveToTenYears, TenPlusYears]
    ensures BadgeOf(p).text == "#202124" <==> p.lifespanCategory == OneToTwoYears
  {
    match p.lifespanCategory
    case LessThanOneYear =>
    case OneToTwoYears =>
    case TwoToFiveYears =>
    case FiveToTenYears =>
    case TenPlusYears =>
  }

  // ---------------------------------------------------------------------
  // Related links

  /** `product.link && product.link.length > 0 ? product.link : []`. */
  function Links(p: Product): (r: seq<string>)
    ensures p.link.Some? ==> r == p.link.value
    ensures p.link.None? ==> r == []
  {
    match p.link
    case Some(ls) => if |ls| > 0 then ls else []
    case None => []
  }

  /** The heading of the links section; `None` when the section is not
      shown. */
  function LinksHeading(links: seq<string>): (r: Option<string>)
    ensures r.None? <==> |links| == 0
    ensures r == Some("Related Link") <==> |links| == 1
    ensures r.Some? ==> r.value in ["Related Link", "Related Links"]
  {
    if |links| == 0 then None
    else if |links| == 1 then Some("Related Link")
    else Some("Related Links")
  }

  /** The detail view shows the links section exactly when the product has
      at least one link. */
  lemma {:induction false} LinksSectionShown(p: Product)
    ensures LinksHeading(Links(p)).Some? <==> (p.link.Some? && |p.link.value| > 0)
  {
  }
}

=== FILE: seqs.dfy ===
/** Sequence combinators the catalogue code takes from JavaScript's Array
    prototype (`filter`, `includes`, `reduce`), with the facts about them
    that the filter, facet and search modules rely on. */
module Seqs {

  /** `xs.filter(p)`: the elements of `xs` that satisfy `p`, in input order. */
  function Filter<T(==)>(xs: seq<T>, p: T -> bool): (r: seq<T>)
    ensures |r| <= |xs|
    ensures forall x <- r :: x in xs && p(x)
    ensures forall i :: 0 <= i < |xs| && p(xs[i]) ==> xs[i] in r
    ensures IsSubsequence(r, xs)
    decreases |xs|
  {
    if |xs| == 0 then []
    else if p(xs[0]) then [xs[0]] + Filter(xs[1..], p)
    else Filter(xs[1..], p)
  }

  /** How many times `x` occurs in `xs`. */
  function Occurrences<T(==)>(xs: seq<T>, x: T): nat {
    multiset(xs)[x]
  }

  /** Filtering keeps every copy of a value that satisfies `p` and drops
      every copy of one that does not. */
  lemma {:induction false} FilterMultiplicity<T>(xs: seq<T>, p: T -> bool, x: T)
    ensures multiset(Filter(xs, p))[x] == if p(x) then multiset(xs)[x] else 0
    decreases |xs|
  {
    if |xs| > 0 {
      FilterMultiplicity(xs[1..], p, x);
      assert xs == [xs[0]] + xs[1..];
      assert multiset(xs) == multiset([xs[0]]) + multiset(xs[1..]);
      if p(xs[0]) {
        assert multiset(Filter(xs, p)) == multiset([xs[0]]) + multiset(Filter(xs[1..], p));
      }
    }
  }

  /** `a` can be obtained from `b` by deleting elements: order is kept. */
  predicate IsSubsequence<T(==)>(a: seq<T>, b: seq<T>)
    decreases |b|
  {
    if |a| == 0 then true
    else if |b| == 0 then false
    else if a[0] == b[0] then IsSubsequence(a[1..], b[1..])
    else IsSubsequence(a, b[1..])
  }

  /** Every element of a subsequence is an element of the sequence. */
  lemma {:induction false} SubsequenceMembers<T>(a: seq<T>, b: seq<T>, x: T)
    requires IsSubsequence(a, b)
    requires x in a
    ensures x in b
    decreases |b|
  {
    if a[0] == b[0] {
      if x != a[0] {
        assert x in a[1..];
        SubsequenceMembers(a[1..], b[1..], x);
      }
    } else {
      SubsequenceMembers(a, b[1..], x);
    }
  }

  /** No value occurs twice. */
  predicate Distinct<T(==)>(xs: seq<T>) {
    forall i, j :: 0 <= i < j < |xs| ==> xs[i] != xs[j]
  }

  /** Number of elements satisfying `p`. */
  function CountWhere<T(==)>(xs: seq<T>, p: T -> bool): nat {
    |Filter(xs, p)|
  }

  /** Filtering distributes over a trailing element, which is how a
      left-to-right `forEach` sees it. */
  lemma {:induction false} FilterSnoc<T>(xs: seq<T>, x: T, p: T -> bool)
    ensures Filter(xs + [x], p) == Filter(xs, p) + (if p(x) then [x] else [])
    decreases |xs|
  {
    if |xs| == 0 {
      assert xs + [x] == [x];
    } else {
      assert (xs + [x])[1..] == xs[1..] + [x];
      FilterSnoc(xs[1..], x, p);
    }
  }

  /** Filtering a sequence with a known first element. */
  lemma {:induction false} FilterCons<T>(x: T, xs: seq<T>, p: T -> bool)
    ensures Filter([x] + xs, p) == (if p(x) then [x] else []) + Filter(xs, p)
  {
    assert ([x] + xs)[1..] == xs;
  }

  /** Filtering distributes over concatenation. */
  lemma {:induction false} FilterAppend<T>(xs: seq<T>, ys: seq<T>, p: T -> bool)
    ensures Filter(xs + ys, p) == Filter(xs, p) + Filter(ys, p)
    decreases |xs|
  {
    if |xs| == 0 {
      assert xs + ys == ys;
    } else {
      assert (xs + ys)[1..] == xs[1..] + ys;
      FilterAppend(xs[1..], ys, p);
    }
  }

  /** Filtering twice is filtering once by the conjunction. */
  lemma {:induction false} FilterFilter<T>(xs: seq<T>, p: T -> bool, q: T -> bool, r: T -> bool)
    requires forall x :: r(x) == (p(x) && q(x))
    ensures Filter(Filter(xs, p), q) == Filter(xs, r)
    decreases |xs|
  {
    if |xs| > 0 {
      FilterFilter(xs[1..], p, q, r);
      if p(xs[0]) {
        assert Filter(xs, p)[1..] == Filter(xs[1..], p);
      }
    }
  }

  /** Two predicates that agree on every element select the same elements. */
  lemma {:induction false} FilterCongruent<T>(xs: seq<T>, p: T -> bool, q: T -> bool)
    requires forall i :: 0 <= i < |xs| ==> p(xs[i]) == q(xs[i])
    ensures Filter(xs, p) == Filter(xs, q)
    decreases |xs|
  {
    if |xs| > 0 {
      FilterCongruent(xs[1..], p, q);
    }
  }

  /** A predicate every element satisfies keeps the sequence as it is. */
  lemma {:induction false} FilterAll<T>(xs: seq<T>, p: T -> bool)
    requires forall i :: 0 <= i < |xs| ==> p(xs[i])
    ensures Filter(xs, p) == xs
    decreases |xs|
  {
    if |xs| > 0 {
      FilterAll(xs[1..], p);
      assert [xs[0]] + xs[1..] == xs;
    }
  }

  /** When `r` is the disjoint union of `p` and `q`, its count is the sum of
      theirs. */
  lemma {:induction false} CountSplit<T>(xs: seq<T>, p: T -> bool, q: T -> bool, r: T -> bool)
    requires forall x :: r(x) == (p(x) || q(x))
    requires forall x :: !(p(x) && q(x))
    ensures CountWhere(xs, r) == CountWhere(xs, p) + CountWhere(xs, q)
    decreases |xs|
  {
    if |xs| > 0 {
      CountSplit(xs[1..], p, q, r);
    }
  }

  /** Two sequences with the same set of elements agree on membership and
      on emptiness. */
  lemma {:induction false} SameElements<T>(a: seq<T>, b: seq<T>)
    requires (set x | x in a) == (set x | x in b)
    ensures forall x :: x in a <==> x in b
    ensures |a| == 0 <==> |b| == 0
  {
    var sa := set x | x in a;
    var sb := set x | x in b;
    forall x | x in a ensures x in b {
      assert x in sa;
      assert x in sb;
    }
    forall x | x in b ensures x in a {
      assert x in sb;
      assert x in sa;
    }
    if |a| > 0 {
      assert a[0] in a;
    }
    if |b| > 0 {
      assert b[0] in b;
    }
  }

  /** Filtering keeps distinct elements distinct. */
  lemma {:induction false} FilterDistinct<T>(xs: seq<T>, p: T -> bool)
    requires Distinct(xs)
    ensures Distinct(Filter(xs, p))
    decreases |xs|
  {
    if |xs| > 0 {
      var tail := xs[1..];
      assert Distinct(tail) by {
        forall i, j | 0 <= i < j < |tail| ensures tail[i] != tail[j] {
          assert tail[i] == xs[i + 1] && tail[j] == xs[j + 1];
        }
      }
      FilterDistinct(tail, p);
      if p(xs[0]) {
        var r := Filter(xs, p);
        var rt := Filter(tail, p);
        assert xs[0] !in tail by {
          forall k | 0 <= k < |tail| ensures tail[k] != xs[0] {
            assert tail[k] == xs[k + 1];
          }
        }
        assert xs[0] !in rt;
        forall i, j | 0 <= i < j < |r| ensures r[i] != r[j] {
          assert r[j] == rt[j - 1];
          if i > 0 {
            assert r[i] == rt[i - 1];
          } else {
            assert rt[j - 1] in rt;
          }
        }
      }
    }
  }

  /** Removing a value that occurs once shortens the sequence by one. */
  lemma {:induction false} FilterOutOne<T>(xs: seq<T>, x: T, p: T -> bool)
    requires Distinct(xs) && x in xs
    requires forall y :: p(y) <==> y != x
    ensures |Filter(xs, p)| == |xs| - 1
    decreases |xs|
  {
    var tail := xs[1..];
    assert Distinct(tail) by {
      forall i, j | 0 <= i < j < |tail| ensures tail[i] != tail[j] {
        assert tail[i] == xs[i + 1] && tail[j] == xs[j + 1];
      }
    }
    if xs[0] == x {
      assert x !in tail by {
        forall k | 0 <= k < |tail| ensures tail[k] != x {
          assert tail[k] == xs[k + 1];
        }
      }
      FilterAll(tail, p);
    } else {
      assert x in tail by {
        var k :| 0 <= k < |xs| && xs[k] == x;
        assert tail[k - 1] == x;
      }
      FilterOutOne(tail, x, p);
    }
  }

  /** Nothing is counted exactly when no element satisfies `p`. */
  lemma {:induction false} CountWhereNone<T>(xs: seq<T>, p: T -> bool)
    ensures CountWhere(xs, p) == 0 <==> forall i :: 0 <= i < |xs| ==> !p(xs[i])
  {
    var r := Filter(xs, p);
    if |r| > 0 {
      assert r[0] in r;
    }
  }

  /** Everything is counted exactly when every element satisfies `p`. */
  lemma {:induction false} CountWhereEvery<T>(xs: seq<T>, p: T -> bool)
    ensures CountWhere(xs, p) == |xs| <==> forall i :: 0 <= i < |xs| ==> p(xs[i])
    decreases |xs|
  {
    if |xs| > 0 {
      CountWhereEvery(xs[1..], p);
      if !p(xs[0]) {
        assert CountWhere(xs, p) <= |xs| - 1;
      } else {
        assert forall i :: 1 <= i < |xs| ==> xs[i] == xs[1..][i - 1];
      }
    }
  }

  /** `xs.reduce((sum, x) => sum + f(x), 0)`. */
  function SumOf<T>(xs: seq<T>, f: T -> nat): nat
    decreases |xs|
  {
    if |xs| == 0 then 0 else f(xs[0]) + SumOf(xs[1..], f)
  }

  /** The sequence read backwards. */
  function Reversed<T>(xs: seq<T>): (r: seq<T>)
    ensures |r| == |xs|
    ensures forall k :: 0 <= k < |xs| ==> r[k] == xs[|xs| - 1 - k]
  {
    seq(|xs|, k requires 0 <= k < |xs| => xs[|xs| - 1 - k])
  }

  /** Filtering out a present element shortens the sequence. */
  lemma {:induction false} FilterDrops<T>(xs: seq<T>, p: T -> bool, x: T)
    requires x in xs && !p(x)
    ensures |Filter(xs, p)| < |xs|
    decreases |xs|
  {
    if xs[0] != x {
      FilterDrops(xs[1..], p, x);
    }
  }
}

=== FILE: sort_products.dfy ===
/** `sortProducts` of src/utils/sortHelpers.ts: a copy of the list, sorted
    stably by the comparator the option names.

    Turning a close date into a time stamp (`new Date(..).getTime()`) and
    `localeCompare` are outside the model: they are the parameters `time`
    (a date string's time stamp) and `rank` (a name's position in the
    collation order). */
module Sorting {
  import opened Catalog
  import opened StableSort
  import opened Seqs

  /** The comparator of each option, `(a, b) => ...`: negative when `a` goes
      first. `localeCompare(x, y)` is the sign of `rank(x) - rank(y)`. */
  function Compare(opt: SortOption, time: string -> int, rank: string -> real, a: Product, b: Product): real {
    match opt
    case DateCloseDesc => (time(b.dateClose) - time(a.dateClose)) as real
    case DateCloseAsc => (time(a.dateClose) - time(b.dateClose)) as real
    case LifespanDesc => (b.lifespanMonths - a.lifespanMonths) as real
    case LifespanAsc => (a.lifespanMonths - b.lifespanMonths) as real
    case NameAsc => rank(a.name) - rank(b.name)
    case NameDesc => rank(b.name) - rank(a.name)
  }

  /** Each comparator as an ascending sort key. */
  function Key(opt: SortOption, time: string -> int, rank: string -> real): Product -> real {
    match opt
    case DateCloseDesc => (p: Product) => -(time(p.dateClose) as real)
    case DateCloseAsc => (p: Product) => time(p.dateClose) as real
    case LifespanDesc => (p: Product) => -(p.lifespanMonths as real)
    case LifespanAsc => (p: Product) => p.lifespanMonths as real
    case NameAsc => (p: Product) => rank(p.name)
    case NameDesc => (p: Product) => -rank(p.name)
  }

  /** `sortProducts(products, sortOption)` for one of the six options. */
  function SortProducts(ps: seq<Product>, opt: SortOption, time: string -> int, rank: string -> real): (r: seq<Product>)
    ensures multiset(r) == multiset(ps)
    ensures forall i, j :: 0 <= i < j < |r| ==> Compare(opt, time, rank, r[i], r[j]) <= 0.0
  {
    var r := SortBy(ps, Key(opt, time, rank));
    KeyMatchesCompare(opt, time, rank);
    r
  }

  /** The `switch` on the option string: an unknown option falls through to
      `default` and returns the copy unsorted. */
  function SortProductsByName(ps: seq<Product>, option: string, time: string -> int, rank: string -> real): (r: seq<Product>)
    ensures multiset(r) == multiset(ps)
  {
    match ParseSortOption(option)
    case Some(opt) => SortProducts(ps, opt, time, rank)
    case None => ps
  }

  // ---------------------------------------------------------------------
  // Proofs

  /** The key order is the comparator's order. */
  lemma {:induction false} KeyMatchesCompare(opt: SortOption, time: string -> int, rank: string -> real)
    ensures forall a, b :: Compare(opt, time, rank, a, b) == Key(opt, time, rank)(a) - Key(opt, time, rank)(b)
  {
  }

  /** Products the comparator ties keep their input order. */
  lemma {:induction false} SortProductsStable(ps: seq<Product>, opt: SortOption, time: string -> int, rank: string -> real, k: real)
    ensures WithKey(SortProducts(ps, opt, time, rank), Key(opt, time, rank), k)
         == WithKey(ps, Key(opt, time, rank), k)
  {
    SortByStable(ps, Key(opt, time, rank), k);
  }

  /** Sorting is idempotent: sorting a sorted list changes nothing. */
  lemma {:induction false} SortProductsIdempotent(ps: seq<Product>, opt: SortOption, time: string -> int, rank: string -> real)
    ensures SortProducts(SortProducts(ps, opt, time, rank), opt, time, rank) == SortProducts(ps, opt, time, rank)
  {
    SortBySorted(SortProducts(ps, opt, time, rank), Key(opt, time, rank));
  }

  /** Every option string the sort control offers is recognised; any other
      leaves the list as it is. */
  lemma {:induction false} UnknownOptionKeepsOrder(ps: seq<Product>, option: string, time: string -> int, rank: string -> real)
    ensures ParseSortOption(option) == None ==> SortProductsByName(ps, option, time, rank) == ps
    ensures forall o <- AllSortOptions ::
      SortProductsByName(ps, SortLabel(o), time, rank) == SortProducts(ps, o, time, rank)
  {
    SortOptionClosed();
  }
  /** The option sorting the other way by the same field. */
  function Opposite(opt: SortOption): SortOption {
    match opt
    case DateCloseDesc => DateCloseAsc
    case DateCloseAsc => DateCloseDesc
    case LifespanDesc => LifespanAsc
    case LifespanAsc => LifespanDesc
    case NameAsc => NameDesc
    case NameDesc => NameAsc
  }

  /** Each option's comparator is its opposite's with the arguments
      swapped. */
  lemma {:induction false} OppositeSwaps(opt: SortOption, time: string -> int, rank: string -> real, a: Product, b: Product)
    ensures Opposite(Opposite(opt)) == opt
    ensures Compare(Opposite(opt), time, rank, a, b) == Compare(opt, time, rank, b, a)
  {
  }

  /** A list sorted by one option, read backwards, is in the order of the
      opposite option. */
  lemma {:induction false} OppositeReadsBackwards(ps: seq<Product>, opt: SortOption, time: string -> int, rank: string -> real)
    ensures var r := Reversed(SortProducts(ps, opt, time, rank));
      forall i, j :: 0 <= i < j < |r| ==> Compare(Opposite(opt), time, rank, r[i], r[j]) <= 0.0
  {
    var d := SortProducts(ps, opt, time, rank);
    var r := Reversed(d);
    forall i, j | 0 <= i < j < |r|
      ensures Compare(Opposite(opt), time, rank, r[i], r[j]) <= 0.0
    {
      OppositeSwaps(opt, time, rank, r[i], r[j]);
      assert r[i] == d[|d| - 1 - i] && r[j] == d[|d| - 1 - j];
    }
  }

  /** The lifespan options order by months: longest first for
      `lifespan-desc`, shortest first for `lifespan-asc`. */
  lemma {:induction false} LifespanOrder(ps: seq<Product>, time: string -> int, rank: string -> real)
    ensures var d := SortProducts(ps, LifespanDesc, time, rank);
      forall i, j :: 0 <= i < j < |d| ==> d[i].lifespanMonths >= d[j].lifespanMonths
    ensures var a := SortProducts(ps, LifespanAsc, time, rank);
      forall i, j :: 0 <= i < j < |a| ==> a[i].lifespanMonths <= a[j].lifespanMonths
  {
  }
}

=== FILE: stable_sort.dfy ===
/** `Array.prototype.sort` with a comparator of the form `key(a) - key(b)`,
    as both the search ranking and the catalogue sort use it. Since ES2019
    the sort is stable, so its result is fully determined: ascending by key,
    and elements with equal keys in their input order. A descending sort is
    the ascending sort by the negated key.

    Keys are reals: every comparator the catalogue passes subtracts numbers,
    and `localeCompare` is a total preorder on a countable set of strings,
    which a real-valued rank represents. */
module StableSort {
  import opened Seqs

  /** Ascending by `key`. */
  predicate SortedBy<T>(xs: seq<T>, key: T -> real) {
    forall i, j :: 0 <= i < j < |xs| ==> key(xs[i]) <= key(xs[j])
  }

  /** Holds of the elements whose key is `k`. */
  function KeyIs<T>(key: T -> real, k: real): T -> bool {
    x => key(x) == k
  }

  /** The elements whose key is `k`, in order: what stability preserves. */
  function WithKey<T(==)>(xs: seq<T>, key: T -> real, k: real): seq<T> {
    Filter(xs, KeyIs(key, k))
  }

  /** Place `x` in front of the first element whose key is not smaller, so
      that it precedes every element with the same key. */
  function Insert<T(==)>(xs: seq<T>, x: T, key: T -> real): (r: seq<T>)
    ensures |r| == |xs| + 1
    decreases |xs|
  {
    if |xs| == 0 || key(x) <= key(xs[0]) then [x] + xs
    else [xs[0]] + Insert(xs[1..], x, key)
  }

  /** The stable sort: sort the tail, then insert the head in front of its
      equals. */
  function SortBy<T(==)>(xs: seq<T>, key: T -> real): (r: seq<T>)
    ensures multiset(r) == multiset(xs)
    ensures |r| == |xs|
    ensures SortedBy(r, key)
    decreases |xs|
  {
    if |xs| == 0 then []
    else
      var rest := SortBy(xs[1..], key);
      InsertSorted(rest, xs[0], key);
      InsertPermutes(rest, xs[0], key);
      assert xs == [xs[0]] + xs[1..];
      Insert(rest, xs[0], key)
  }

  // ---------------------------------------------------------------------
  // Proofs

  /** Insertion adds exactly the one element. */
  lemma {:induction false} InsertPermutes<T>(xs: seq<T>, x: T, key: T -> real)
    ensures multiset(Insert(xs, x, key)) == multiset(xs) + multiset{x}
    decreases |xs|
  {
    if |xs| > 0 && key(x) > key(xs[0]) {
      InsertPermutes(xs[1..], x, key);
      assert xs == [xs[0]] + xs[1..];
    }
  }

  /** A lower bound on every key survives an insertion that respects it. */
  lemma {:induction false} InsertBounded<T>(xs: seq<T>, x: T, key: T -> real, b: real)
    requires forall i :: 0 <= i < |xs| ==> b <= key(xs[i])
    requires b <= key(x)
    ensures forall i :: 0 <= i < |Insert(xs, x, key)| ==> b <= key(Insert(xs, x, key)[i])
    decreases |xs|
  {
    if |xs| > 0 && key(x) > key(xs[0]) {
      var tail := xs[1..];
      assert forall i :: 0 <= i < |tail| ==> tail[i] == xs[i + 1];
      InsertBounded(tail, x, key, b);
      var ins := Insert(tail, x, key);
      var r := [xs[0]] + ins;
      assert Insert(xs, x, key) == r;
      forall i | 1 <= i < |r| ensures b <= key(r[i]) {
        assert r[i] == ins[i - 1];
      }
    } else {
      var r := [x] + xs;
      assert Insert(xs, x, key) == r;
      forall i | 1 <= i < |r| ensures b <= key(r[i]) {
        assert r[i] == xs[i - 1];
      }
    }
  }

  /** Inserting into a sorted sequence keeps it sorted. */
  lemma {:induction false} InsertSorted<T>(xs: seq<T>, x: T, key: T -> real)
    requires SortedBy(xs, key)
    ensures SortedBy(Insert(xs, x, key), key)
    decreases |xs|
  {
    if |xs| == 0 || key(x) <= key(xs[0]) {
      var r := [x] + xs;
      assert Insert(xs, x, key) == r;
      forall i, j | 0 <= i < j < |r| ensures key(r[i]) <= key(r[j]) {
        assert r[j] == xs[j - 1];
        if i > 0 {
          assert r[i] == xs[i - 1];
        }
      }
    } else {
      var tail := xs[1..];
      assert forall i :: 0 <= i < |tail| ==> tail[i] == xs[i + 1];
      InsertSorted(tail, x, key);
      InsertBounded(tail, x, key, key(xs[0]));
      var ins := Insert(tail, x, key);
      var r := [xs[0]] + ins;
      assert Insert(xs, x, key) == r;
      forall i, j | 0 <= i < j < |r| ensures key(r[i]) <= key(r[j]) {
        assert r[j] == ins[j - 1];
        if i > 0 {
          assert r[i] == ins[i - 1];
        }
      }
    }
  }

  /** Inserting `x` into a sorted sequence puts it before every element
      with the same key. */
  lemma {:induction false} InsertWithKey<T>(xs: seq<T>, x: T, key: T -> real, k: real)
    requires SortedBy(xs, key)
    ensures WithKey(Insert(xs, x, key), key, k)
         == (if key(x) == k then [x] else []) + WithKey(xs, key, k)
    decreases |xs|
  {
    var p := KeyIs(key, k);
    if |xs| == 0 || key(x) <= key(xs[0]) {
      assert Insert(xs, x, key) == [x] + xs;
      FilterCons(x, xs, p);
    } else {
      var tail := xs[1..];
      assert SortedBy(tail, key) by {
        assert forall i :: 0 <= i < |tail| ==> tail[i] == xs[i + 1];
      }
      var ins := Insert(tail, x, key);
      assert Insert(xs, x, key) == [xs[0]] + ins;
      InsertWithKey(tail, x, key, k);
      FilterCons(xs[0], ins, p);
      FilterCons(xs[0], tail, p);
      assert [xs[0]] + tail == xs;
      assert key(x) == k ==> !p(xs[0]);
    }
  }

  /** Stability: among elements with equal keys the input order survives. */
  lemma {:induction false} SortByStable<T>(xs: seq<T>, key: T -> real, k: real)
    ensures WithKey(SortBy(xs, key), key, k) == WithKey(xs, key, k)
    decreases |xs|
  {
    if |xs| > 0 {
      var rest := SortBy(xs[1..], key);
      assert SortBy(xs, key) == Insert(rest, xs[0], key);
      SortByStable(xs[1..], key, k);
      InsertWithKey(rest, xs[0], key, k);
      FilterCons(xs[0], xs[1..], KeyIs(key, k));
      assert [xs[0]] + xs[1..] == xs;
    }
  }

  /** A sequence that is already sorted comes back unchanged. */
  lemma {:induction false} SortBySorted<T>(xs: seq<T>, key: T -> real)
    requires SortedBy(xs, key)
    ensures SortBy(xs, key) == xs
    decreases |xs|
  {
    if |xs| > 0 {
      var tail := xs[1..];
      assert SortedBy(tail, key) by {
        assert forall i :: 0 <= i < |tail| ==> tail[i] == xs[i + 1];
      }
      SortBySorted(tail, key);
      assert SortBy(xs, key) == Insert(tail, xs[0], key);
      assert |tail| == 0 || key(xs[0]) <= key(tail[0]) by {
        if |tail| > 0 {
          assert tail[0] == xs[1];
        }
      }
      assert Insert(tail, xs[0], key) == [xs[0]] + tail;
      assert [xs[0]] + tail == xs;
    }
  }
}

=== FILE: text.dfy ===
/** The JavaScript string built-ins the catalogue code uses, restricted to
    what the search and filter logic needs: `toLowerCase` (ASCII letters
    only), the regular-expression classes `\w` and `\s`, `trim`, `includes`,
    `endsWith`, `split(' ')`, `split(/\s+/)` and `join`. */
module Text {

  /** `c.toLowerCase()` for ASCII letters; every other character is kept. */
  function LowerChar(c: char): char {
    if 'A' <= c <= 'Z' then (c as int + 32) as char else c
  }

  /** `s.toLowerCase()`, character by character. */
  function Lower(s: string): (r: string)
    ensures |r| == |s|
    ensures forall i :: 0 <= i < |s| ==> r[i] == LowerChar(s[i])
  {
    seq(|s|, i requires 0 <= i < |s| => LowerChar(s[i]))
  }

  predicate IsUpper(c: char) {
    'A' <= c <= 'Z'
  }

  /** The regular-expression class `\w`: ASCII letters, digits and `_`. */
  predicate IsWordChar(c: char) {
    ('a' <= c <= 'z') || ('A' <= c <= 'Z') || ('0' <= c <= '9') || c == '_'
  }

  /** The regular-expression class `\s` (which is also what `trim` strips):
      ECMAScript WhiteSpace and LineTerminator code points. */
  predicate IsSpace(c: char) {
    c == '\t' || c == '\n' || c == '\U{000B}' || c == '\U{000C}' || c == '\r' || c == ' '
    || c == '\U{00A0}' || c == '\U{1680}' || ('\U{2000}' <= c <= '\U{200A}')
    || c == '\U{2028}' || c == '\U{2029}' || c == '\U{202F}' || c == '\U{205F}'
    || c == '\U{3000}' || c == '\U{FEFF}'
  }

  /** `s.includes(t)`: `t` occurs in `s` at some position. */
  predicate Contains(s: string, t: string)
    decreases |s|
  {
    |t| == 0 || (|t| <= |s| && (s[..|t|] == t || Contains(s[1..], t)))
  }

  /** `s.endsWith(suffix)`. */
  predicate EndsWith(s: string, suffix: string) {
    |suffix| <= |s| && s[|s| - |suffix|..] == suffix
  }

  function TrimStart(s: string): (r: string)
    decreases |s|
  {
    if |s| > 0 && IsSpace(s[0]) then TrimStart(s[1..]) else s
  }

  function TrimEnd(s: string): (r: string)
    decreases |s|
  {
    if |s| > 0 && IsSpace(s[|s| - 1]) then TrimEnd(s[..|s| - 1]) else s
  }

  /** `s.trim()`. */
  function Trim(s: string): string {
    TrimEnd(TrimStart(s))
  }

  /** Every character is white space. */
  predicate Blank(s: string) {
    forall i :: 0 <= i < |s| ==> IsSpace(s[i])
  }

  /** The longest prefix of `s` without white space. */
  function TakeWord(s: string): (w: string)
    ensures |w| <= |s| && w == s[..|w|]
    ensures forall i :: 0 <= i < |w| ==> !IsSpace(w[i])
    ensures |w| < |s| ==> IsSpace(s[|w|])
    decreases |s|
  {
    if |s| == 0 || IsSpace(s[0]) then "" else [s[0]] + TakeWord(s[1..])
  }

  /** `s.split(/\s+/)` without its empty pieces: the maximal runs of
      characters that are not white space, in order. (The caller drops the
      empty pieces anyway, since it keeps only words longer than one
      character.) */
  function Words(s: string): (ws: seq<string>)
    ensures forall k :: 0 <= k < |ws| ==> |ws[k]| > 0 && NoSpaceIn(ws[k])
    decreases |s|
  {
    if |s| == 0 then []
    else if IsSpace(s[0]) then Words(s[1..])
    else
      var w := TakeWord(s);
      [w] + Words(s[|w|..])
  }

  /** `s.split(' ')`: the pieces between single spaces, empty ones included. */
  function SplitOnSpace(s: string): (ps: seq<string>)
    ensures |ps| >= 1
    decreases |s|
  {
    if |s| == 0 then [""]
    else
      var rest := SplitOnSpace(s[1..]);
      if s[0] == ' ' then [""] + rest else [[s[0]] + rest[0]] + rest[1..]
  }

  /** `parts.join(sep)`. */
  function Join(parts: seq<string>, sep: char): string
    decreases |parts|
  {
    if |parts| == 0 then ""
    else if |parts| == 1 then parts[0]
    else parts[0] + [sep] + Join(parts[1..], sep)
  }

  predicate NoSpaceIn(w: string) {
    forall i :: 0 <= i < |w| ==> !IsSpace(w[i])
  }

  // ---------------------------------------------------------------------
  // Facts about the built-ins

  /** Lower-casing leaves no ASCII capital behind and is idempotent. */
  lemma {:induction false} LowerIdempotent(s: string)
    ensures forall i :: 0 <= i < |Lower(s)| ==> !IsUpper(Lower(s)[i])
    ensures Lower(Lower(s)) == Lower(s)
  {
  }

  /** `t` occurs in `s` starting at position `i`. */
  predicate OccursAt(s: string, t: string, i: int) {
    0 <= i && i + |t| <= |s| && s[i..i + |t|] == t
  }

  /** `includes` agrees with the positional definition of a substring. */
  lemma {:induction false} ContainsIffOccurs(s: string, t: string)
    ensures Contains(s, t) <==> exists i :: OccursAt(s, t, i)
    decreases |s|
  {
    if |t| == 0 {
      assert OccursAt(s, t, 0);
    } else if |t| <= |s| {
      ContainsIffOccurs(s[1..], t);
      if s[..|t|] == t {
        assert OccursAt(s, t, 0);
      } else if Contains(s[1..], t) {
        var i :| OccursAt(s[1..], t, i);
        assert s[1..][i..i + |t|] == s[i + 1..i + 1 + |t|];
        assert OccursAt(s, t, i + 1);
      } else {
        forall i | OccursAt(s, t, i)
          ensures i > 0 && OccursAt(s[1..], t, i - 1)
        {
          if i > 0 {
            var u := s[1..];
            assert u[i - 1..i - 1 + |t|] == s[i..i + |t|];
          }
        }
      }
    }
  }

  /** `!s.trim()` holds exactly for strings made only of white space. */
  lemma {:induction false} TrimEmptyIffBlank(s: string)
    ensures Trim(s) == "" <==> Blank(s)
  {
    TrimStartBlank(s);
    TrimStartShape(s);
    var u := TrimStart(s);
    TrimEndEmpty(u);
    if Blank(s) {
      assert u == "";
    } else {
      assert u != "" && !IsSpace(u[0]);
    }
  }

  lemma {:induction false} TrimStartBlank(s: string)
    ensures TrimStart(s) == "" <==> Blank(s)
    decreases |s|
  {
    if |s| > 0 && IsSpace(s[0]) {
      TrimStartBlank(s[1..]);
      assert Blank(s) <==> Blank(s[1..]) by {
        if Blank(s[1..]) {
          forall i | 0 <= i < |s| ensures IsSpace(s[i]) {
            if i > 0 { assert s[i] == s[1..][i - 1]; }
          }
        }
      }
    }
  }

  lemma {:induction false} TrimStartShape(s: string)
    ensures TrimStart(s) != "" ==> !IsSpace(TrimStart(s)[0])
    decreases |s|
  {
    if |s| > 0 && IsSpace(s[0]) {
      TrimStartShape(s[1..]);
    }
  }

  lemma {:induction false} TrimEndEmpty(u: string)
    requires u != "" ==> !IsSpace(u[0])
    ensures TrimEnd(u) == "" <==> u == ""
    decreases |u|
  {
    if |u| > 1 && IsSpace(u[|u| - 1]) {
      TrimEndEmpty(u[..|u| - 1]);
    }
  }

  /** A text has no words exactly when it is all white space. */
  lemma {:induction false} WordsEmptyIffBlank(s: string)
    ensures Words(s) == [] <==> Blank(s)
    decreases |s|
  {
    if |s| > 0 && IsSpace(s[0]) {
      WordsEmptyIffBlank(s[1..]);
      assert Blank(s) <==> Blank(s[1..]) by {
        if Blank(s[1..]) {
          forall i | 0 <= i < |s| ensures IsSpace(s[i]) {
            if i > 0 { assert s[i] == s[1..][i - 1]; }
          }
        }
      }
    }
  }

  /** The first word runs up to the first white space. */
  lemma {:induction false} TakeWordUpTo(w: string, c: char, rest: string)
    requires NoSpaceIn(w) && IsSpace(c)
    ensures TakeWord(w + [c] + rest) == w
    decreases |w|
  {
    var s := w + [c] + rest;
    if |w| > 0 {
      assert s[1..] == w[1..] + [c] + rest;
      TakeWordUpTo(w[1..], c, rest);
      assert s[0] == w[0];
      assert w == [w[0]] + w[1..];
    } else {
      assert s[0] == c;
    }
  }

  /** A word, one white-space character, and the rest: the word comes first
      and the words of the rest follow. */
  lemma {:induction false} WordsCons(w: string, c: char, rest: string)
    requires |w| > 0 && NoSpaceIn(w) && IsSpace(c)
    ensures Words(w + [c] + rest) == [w] + Words(rest)
  {
    var s := w + [c] + rest;
    TakeWordUpTo(w, c, rest);
    assert s[0] == w[0];
    assert s[|w|..] == [c] + rest;
    assert ([c] + rest)[1..] == rest;
  }

  /** A word ending at a space is the first piece. */
  lemma {:induction false} WordsAt(s: string, n: nat)
    requires 0 < n < |s| && NoSpaceIn(s[..n]) && IsSpace(s[n])
    ensures Words(s) == [s[..n]] + Words(s[n + 1..])
  {
    assert s == s[..n] + [s[n]] + s[n + 1..];
    WordsCons(s[..n], s[n], s[n + 1..]);
  }

  /** A text that is one word is that word. */
  lemma {:induction false} WordsSingle(w: string)
    requires |w| > 0 && NoSpaceIn(w)
    ensures Words(w) == [w]
  {
    TakeWordAll(w);
    assert w[|w|..] == [];
  }

  lemma {:induction false} TakeWordAll(w: string)
    requires NoSpaceIn(w)
    ensures TakeWord(w) == w
    decreases |w|
  {
    if |w| > 0 {
      TakeWordAll(w[1..]);
      assert w == [w[0]] + w[1..];
    }
  }

  /** A white-space character ends the first word wherever it comes. */
  lemma {:induction false} TakeWordAppend(x: string, c: char, y: string)
    requires IsSpace(c)
    ensures TakeWord(x + [c] + y) == TakeWord(x)
    decreases |x|
  {
    var s := x + [c] + y;
    if |x| == 0 {
      assert s[0] == c;
    } else {
      assert s[0] == x[0];
      assert s[1..] == x[1..] + [c] + y;
      TakeWordAppend(x[1..], c, y);
    }
  }

  /** Splitting on white-space runs is a homomorphism: two texts glued by a
      white-space character split into the words of the first followed by
      the words of the second. */
  lemma {:induction false} WordsAppend(x: string, c: char, y: string)
    requires IsSpace(c)
    ensures Words(x + [c] + y) == Words(x) + Words(y)
    decreases |x|
  {
    var s := x + [c] + y;
    if |x| == 0 {
      assert s[0] == c && s[1..] == y;
    } else if IsSpace(x[0]) {
      assert s[0] == x[0] && s[1..] == x[1..] + [c] + y;
      WordsAppend(x[1..], c, y);
    } else {
      assert s[0] == x[0];
      var w := TakeWord(x);
      TakeWordAppend(x, c, y);
      assert s[|w|..] == x[|w|..] + [c] + y;
      WordsAppend(x[|w|..], c, y);
    }
  }

  /** Words joined with single spaces split back into the same words. */
  lemma {:induction false} WordsOfJoin(ws: seq<string>)
    requires forall k :: 0 <= k < |ws| ==> |ws[k]| > 0 && NoSpaceIn(ws[k])
    ensures Words(Join(ws, ' ')) == ws
    decreases |ws|
  {
    if |ws| == 1 {
      WordsSingle(ws[0]);
    } else if |ws| > 1 {
      WordsOfJoin(ws[1..]);
      WordsCons(ws[0], ' ', Join(ws[1..], ' '));
      assert ws == [ws[0]] + ws[1..];
    }
  }

  /** Splitting on single spaces and joining with single spaces are inverse:
      the pieces hold no space, and gluing them back gives the string. */
  lemma {:induction false} SplitOnSpaceRoundTrip(s: string)
    ensures forall k :: 0 <= k < |SplitOnSpace(s)| ==> ' ' !in SplitOnSpace(s)[k]
    ensures Join(SplitOnSpace(s), ' ') == s
  {
    SplitPiecesHaveNoSpace(s);
    JoinSplit(s);
  }

  lemma {:induction false} SplitPiecesHaveNoSpace(s: string)
    ensures forall k :: 0 <= k < |SplitOnSpace(s)| ==> ' ' !in SplitOnSpace(s)[k]
    decreases |s|
  {
    if |s| > 0 {
      SplitPiecesHaveNoSpace(s[1..]);
      var rest := SplitOnSpace(s[1..]);
      var ps := SplitOnSpace(s);
      if s[0] != ' ' {
        forall k | 0 <= k < |ps| ensures ' ' !in ps[k] {
          if k > 0 {
            assert ps[k] == rest[k];
          } else {
            assert ps[0] == [s[0]] + rest[0];
          }
        }
      } else {
        forall k | 1 <= k < |ps| ensures ' ' !in ps[k] {
          assert ps[k] == rest[k - 1];
        }
      }
    }
  }

  lemma {:induction false} JoinSplit(s: string)
    ensures Join(SplitOnSpace(s), ' ') == s
    decreases |s|
  {
    if |s| > 0 {
      JoinSplit(s[1..]);
      var rest := SplitOnSpace(s[1..]);
      if s[0] == ' ' {
        JoinCons("", rest, ' ');
      } else {
        JoinExtendFirst(s[0], rest, ' ');
      }
      assert s == [s[0]] + s[1..];
    }
  }

  /** Joining a piece in front adds it and one separator. */
  lemma {:induction false} JoinCons(a: string, rest: seq<string>, sep: char)
    requires |rest| >= 1
    ensures Join([a] + rest, sep) == a + [sep] + Join(rest, sep)
  {
    assert ([a] + rest)[1..] == rest;
  }

  /** Prefixing the first piece with a character prefixes the joined string
      with it. */
  lemma {:induction false} JoinExtendFirst(c: char, rest: seq<string>, sep: char)
    requires |rest| >= 1
    ensures Join([[c] + rest[0]] + rest[1..], sep) == [c] + Join(rest, sep)
  {
    var ps := [[c] + rest[0]] + rest[1..];
    assert ps[1..] == rest[1..];
    if |rest| > 1 {
      assert Join(rest, sep) == rest[0] + [sep] + Join(rest[1..], sep);
    }
  }

  /** Splitting at a space concatenates the pieces on either side. */
  lemma {:induction false} SplitAtSpace(x: string, y: string)
    ensures SplitOnSpace(x + " " + y) == SplitOnSpace(x) + SplitOnSpace(y)
    decreases |x|
  {
    if |x| == 0 {
      assert x + " " + y == [' '] + y;
    } else {
      assert (x + " " + y)[1..] == x[1..] + " " + y;
      SplitAtSpace(x[1..], y);
    }
  }

  /** A query with a doubled space has an empty piece, and `includes("")`
      holds of every string. */
  lemma {:induction false} EmptyPieceFromDoubleSpace(a: string, b: string)
    ensures "" in SplitOnSpace(a + "  " + b)
  {
    assert a + "  " + b == a + " " + (" " + b);
    SplitAtSpace(a, " " + b);
    assert " " + b == "" + " " + b;
    SplitAtSpace("", b);
    assert SplitOnSpace(a + "  " + b)[|SplitOnSpace(a)|] == "";
  }
}

=== FILE: tfidf.dfy ===
/** The TF-IDF index and ranked search of src/utils/tfidfSearch.ts.

    `Math.log` is the parameter `ln`, constrained only by `IsLog`: it maps 1
    to 0 and is strictly increasing. Every property below holds for any such
    function, so none depends on floating-point values. */
module TfIdf {
  import opened Text
  import opened Seqs
  import opened Catalog
  import opened Normalizer
  import opened StableSort

  // ---------------------------------------------------------------------
  // Documents

  /** `getProductId`: the identifier, or the name when the identifier is
      empty. */
  function ProductId(p: Product): (r: string)
    ensures r == p.identifier || r == p.name
    ensures p.identifier != "" ==> r == p.identifier
    ensures r == "" <==> p.identifier == "" && p.name == ""
  {
    if p.identifier != "" then p.identifier else p.name
  }

  /** `productType || type || ''`: the label of the product type when there
      is one, else the raw `type` field, else nothing. */
  function TypeText(p: Product): (r: string)
    ensures p.productType.Some? ==> r == TypeLabel(p.productType.value)
    ensures p.productType.None? && p.rawType.Some? ==> r == p.rawType.value
    ensures p.productType.None? && p.rawType.None? ==> r == ""
  {
    match p.productType
    case Some(t) => TypeLabel(t)
    case None => (match p.rawType case Some(s) => s case None => "")
  }

  /** The fields `getProductText` joins with single spaces, in its order. */
  function TextParts(p: Product): (r: seq<string>)
    ensures |r| >= 6
    ensures r[0] == p.name && r[1] == p.description
    ensures r[2] == CategoryLabel(p.productCategory) && r[3] == TypeText(p)
    ensures r[4] == ReasonLabel(p.shutdownReason)
    ensures r[5] == if p.shutdownReasonDetail.Some? then p.shutdownReasonDetail.value else ""
    ensures r[6..] == if p.notableFeatures.Some? then p.notableFeatures.value else []
  {
    var detail := match p.shutdownReasonDetail case Some(d) => d case None => "";
    var features := match p.notableFeatures case Some(fs) => fs case None => [];
    [p.name, p.description, CategoryLabel(p.productCategory), TypeText(p),
     ReasonLabel(p.shutdownReason), detail] + features
  }

  /** `getProductText`. */
  function ProductText(p: Product): string {
    Join(TextParts(p), ' ')
  }

  /** The processed terms of a product's text. */
  function Terms(p: Product): seq<string> {
    ProcessText(ProductText(p))
  }

  /** The terms of each part in turn, concatenated. */
  function TermsOfParts(parts: seq<string>): seq<string>
    decreases |parts|
  {
    if |parts| == 0 then [] else ProcessText(parts[0]) + TermsOfParts(parts[1..])
  }

  /** Processing parts joined by single spaces gives the terms of each part,
      in order: joining never merges or splits a word across parts. */
  lemma {:induction false} JoinTerms(parts: seq<string>)
    ensures ProcessText(Join(parts, ' ')) == TermsOfParts(parts)
    decreases |parts|
  {
    if |parts| == 0 {
      ProcessTextEmpty();
    } else if |parts| == 1 {
      assert TermsOfParts(parts) == ProcessText(parts[0]) + TermsOfParts([]);
    } else {
      JoinTerms(parts[1..]);
      ProcessTextAppend(parts[0], Join(parts[1..], ' '));
    }
  }

  /** A product's terms are the terms of its name, then of its description,
      category, type, shutdown reason, reason detail and each notable
      feature, in that order. */
  lemma {:induction false} ProductTerms(p: Product)
    ensures Terms(p) == TermsOfParts(TextParts(p))
    ensures Terms(p) == ProcessText(p.name) + TermsOfParts(TextParts(p)[1..])
  {
    JoinTerms(TextParts(p));
  }

  function TermSet(ts: seq<string>): set<string> {
    set t | t in ts
  }

  // ---------------------------------------------------------------------
  // The index

  /** `TFIDFIndex`. */
  datatype Index = Index(
    documents: map<string, seq<string>>,
    documentFrequency: map<string, nat>,
    totalDocuments: nat,
    products: seq<Product>)

  /** `documentFrequency.get(term) || 0`. */
  function Get(df: map<string, nat>, t: string): nat {
    if t in df then df[t] else 0
  }

  /** One product's `uniqueTerms.forEach`: every term of the set counts once
      more. The increments commute, so the set's iteration order is
      immaterial. */
  function AddTerms(df: map<string, nat>, ts: set<string>): (r: map<string, nat>)
    ensures r.Keys == df.Keys + ts
    ensures forall t :: t in ts ==> Get(r, t) == Get(df, t) + 1
    ensures forall t :: t !in ts ==> Get(r, t) == Get(df, t)
  {
    map t | t in df.Keys + ts :: Get(df, t) + (if t in ts then 1 else 0)
  }

  /** What `forEach` takes from one product: its id and its terms. */
  type Entry = (string, seq<string>)

  function EntryOf(p: Product): Entry {
    (ProductId(p), Terms(p))
  }

  function Entries(ps: seq<Product>): (es: seq<Entry>)
    ensures |es| == |ps|
    ensures forall i :: 0 <= i < |ps| ==> es[i] == EntryOf(ps[i])
  {
    seq(|ps|, i requires 0 <= i < |ps| => EntryOf(ps[i]))
  }

  /** `documents` after the `forEach` over the entries: a later entry with
      the same id overwrites an earlier one. */
  function Documents(es: seq<Entry>): map<string, seq<string>>
    decreases |es|
  {
    if |es| == 0 then map[]
    else
      var last := es[|es| - 1];
      Documents(es[..|es| - 1])[last.0 := last.1]
  }

  /** `documentFrequency` after the `forEach` over the entries. */
  function DocumentFrequency(es: seq<Entry>): map<string, nat>
    decreases |es|
  {
    if |es| == 0 then map[]
    else AddTerms(DocumentFrequency(es[..|es| - 1]), TermSet(es[|es| - 1].1))
  }

  /** The entries whose terms include `t`. */
  function HasTerm(t: string): Entry -> bool {
    (e: Entry) => t in e.1
  }

  /** What `buildTFIDFIndex` guarantees the scoring: no document frequency
      exceeds the number of documents, and every term of a stored document
      has a positive one. */
  ghost predicate WellFormed(idx: Index) {
    && (forall t :: Get(idx.documentFrequency, t) <= idx.totalDocuments)
    && (forall id, t :: id in idx.documents && t in idx.documents[id] ==> Get(idx.documentFrequency, t) >= 1)
  }

  /** `buildTFIDFIndex(products)`. */
  function BuildIndex(ps: seq<Product>): (idx: Index)
    ensures idx.totalDocuments == |ps| && idx.products == ps
    ensures forall t :: Get(idx.documentFrequency, t) == CountWhere(Entries(ps), HasTerm(t))
    ensures forall i :: 0 <= i < |ps| ==> ProductId(ps[i]) in idx.documents
    ensures WellFormed(idx)
  {
    var es := Entries(ps);
    DocumentFrequencyCounts(es);
    DocumentsKeys(es);
    EntriesWellFormed(es, ps);
    Index(Documents(es), DocumentFrequency(es), |ps|, ps)
  }

  /** `index.documents.get(getProductId(product)) || []`. */
  function DocumentOf(idx: Index, p: Product): seq<string> {
    if ProductId(p) in idx.documents then idx.documents[ProductId(p)] else []
  }

  // ---------------------------------------------------------------------
  // Scores

  /** What the model assumes of `Math.log`. */
  ghost predicate IsLog(ln: real -> real) {
    ln(1.0) == 0.0 && forall x: real, y: real :: 0.0 < x < y ==> ln(x) < ln(y)
  }

  /** `documentTokens.filter(t => t === term).length`. */
  function Count(doc: seq<string>, term: string): nat
    decreases |doc|
  {
    if |doc| == 0 then 0 else (if doc[0] == term then 1 else 0) + Count(doc[1..], term)
  }

  /** `calculateTF`: logarithmically damped term count. */
  function Tf(ln: real -> real, term: string, doc: seq<string>): real {
    var c := Count(doc, term);
    if c > 0 then 1.0 + ln(c as real) else 0.0
  }

  /** `calculateIDF`: smoothed, and 0 for a term no document has. */
  function Idf(ln: real -> real, term: string, idx: Index): real {
    var df := Get(idx.documentFrequency, term);
    if df == 0 then 0.0
    else ln((idx.totalDocuments + 1) as real / (df + 1) as real) + 1.0
  }

  /** The sum `calculateTFIDFScore` accumulates; a repeated query term counts
      once per occurrence. */
  function SumTfIdf(ln: real -> real, q: seq<string>, doc: seq<string>, idx: Index): real
    decreases |q|
  {
    if |q| == 0 then 0.0
    else Tf(ln, q[0], doc) * Idf(ln, q[0], idx) + SumTfIdf(ln, q[1..], doc, idx)
  }

  /** `calculateTFIDFScore`: the sum divided by the number of query terms. */
  function Score(ln: real -> real, q: seq<string>, doc: seq<string>, idx: Index): real {
    if |q| > 0 then SumTfIdf(ln, q, doc, idx) / (|q| as real) else 0.0
  }

  /** Some piece of the query split at single spaces occurs in the name. */
  predicate SomePieceIn(name: string, query: string) {
    exists w <- SplitOnSpace(query) :: Contains(name, w)
  }

  /** The name boost of `searchProducts`, both sides lower-cased: 2 for the
      whole query inside the name, else 0.5 for some space-separated piece of
      it inside the name, else nothing. */
  function NameBoost(name: string, query: string): real {
    var n := Lower(name);
    var q := Lower(query);
    if Contains(n, q) then 2.0 else if SomePieceIn(n, q) then 0.5 else 0.0
  }

  /** `{ product, score }`. */
  datatype SearchResult = SearchResult(product: Product, score: real)

  /** `finalScore` of one product, for the processed query terms `q`. */
  function FinalScore(ln: real -> real, query: string, q: seq<string>, idx: Index, p: Product): real {
    Score(ln, q, DocumentOf(idx, p), idx) + NameBoost(p.name, query)
  }

  /** Every product of the index with its final score, in index order. */
  function Scored(ln: real -> real, query: string, q: seq<string>, idx: Index): (r: seq<SearchResult>)
    ensures |r| == |idx.products|
    ensures forall i :: 0 <= i < |r| ==> r[i] == SearchResult(idx.products[i], FinalScore(ln, query, q, idx, idx.products[i]))
  {
    seq(|idx.products|, i requires 0 <= i < |idx.products| =>
      SearchResult(idx.products[i], FinalScore(ln, query, q, idx, idx.products[i])))
  }

  /** The threshold of `searchProducts`. */
  function Passing(): SearchResult -> bool {
    (x: SearchResult) => x.score >= 1.0
  }

  /** `results` before the sort: the passing products in index order. */
  function Candidates(ln: real -> real, query: string, q: seq<string>, idx: Index): seq<SearchResult> {
    Filter(Scored(ln, query, q, idx), Passing())
  }

  /** `(a, b) => b.score - a.score` as an ascending key. */
  function ByScoreDesc(): SearchResult -> real {
    (x: SearchResult) => -x.score
  }

  /** `results.sort((a, b) => b.score - a.score)`: a stable sort, highest
      score first. */
  function ByScore(c: seq<SearchResult>): seq<SearchResult> {
    SortBy(c, ByScoreDesc())
  }

  /** Sorting by score orders the results by descending score. */
  lemma {:induction false} ByScoreDescending(c: seq<SearchResult>)
    ensures var r := ByScore(c);
      forall i, j :: 0 <= i < j < |r| ==> r[i].score >= r[j].score
  {
    var r := ByScore(c);
    assert forall i, j :: 0 <= i < j < |r| ==> ByScoreDesc()(r[i]) <= ByScoreDesc()(r[j]);
  }

  /** Sorting by score keeps results with equal scores in input order. */
  lemma {:induction false} ByScoreKeepsTies(c: seq<SearchResult>, score: real)
    ensures WithKey(ByScore(c), ByScoreDesc(), -score) == WithKey(c, ByScoreDesc(), -score)
  {
    SortByStable(c, ByScoreDesc(), -score);
  }

  /** The ranking step of `searchProducts` for processed query terms `q`:
      the passing products, highest score first. */
  function Rank(ln: real -> real, query: string, q: seq<string>, idx: Index): seq<SearchResult> {
    ByScore(Candidates(ln, query, q, idx))
  }

  /** `searchProducts(query, index)`. */
  function Search(ln: real -> real, query: string, idx: Index): (r: seq<SearchResult>)
    ensures Trim(query) == "" || ProcessText(query) == [] ==> r == []
    ensures forall i, j :: 0 <= i < j < |r| ==> r[i].score >= r[j].score
  {
    if Trim(query) == "" then []
    else
      var q := ProcessText(query);
      if |q| == 0 then [] else ByScoreDescending(Candidates(ln, query, q, idx)); Rank(ln, query, q, idx)
  }

  // ---------------------------------------------------------------------
  // The index: proofs

  lemma {:induction false} CountWhereSnoc<T>(xs: seq<T>, x: T, p: T -> bool)
    ensures CountWhere(xs + [x], p) == CountWhere(xs, p) + (if p(x) then 1 else 0)
  {
    FilterSnoc(xs, x, p);
  }

  /** The document frequency of a term is the number of entries whose terms
      include it; a term no entry has is absent. */
  lemma {:induction false} DocumentFrequencyCounts(es: seq<Entry>)
    ensures forall t :: Get(DocumentFrequency(es), t) == CountWhere(es, HasTerm(t))
    decreases |es|
  {
    if |es| > 0 {
      var init := es[..|es| - 1];
      var last := es[|es| - 1];
      DocumentFrequencyCounts(init);
      assert es == init + [last];
      forall t ensures Get(DocumentFrequency(es), t) == CountWhere(es, HasTerm(t)) {
        CountWhereSnoc(init, last, HasTerm(t));
        assert t in TermSet(last.1) <==> HasTerm(t)(last);
      }
    }
  }

  /** Every entry's id has a document. */
  lemma {:induction false} DocumentsKeys(es: seq<Entry>)
    ensures forall i :: 0 <= i < |es| ==> es[i].0 in Documents(es)
    decreases |es|
  {
    if |es| > 0 {
      var init := es[..|es| - 1];
      DocumentsKeys(init);
      forall i | 0 <= i < |es| - 1 ensures es[i].0 in Documents(es) {
        assert es[i] == init[i];
      }
    }
  }

  /** Every stored document is the terms of some entry with its id. */
  lemma {:induction false} DocumentsFromEntries(es: seq<Entry>)
    ensures forall id :: id in Documents(es) ==>
      exists j :: 0 <= j < |es| && es[j].0 == id && es[j].1 == Documents(es)[id]
    decreases |es|
  {
    if |es| > 0 {
      var init := es[..|es| - 1];
      DocumentsFromEntries(init);
      forall id | id in Documents(es)
        ensures exists j :: 0 <= j < |es| && es[j].0 == id && es[j].1 == Documents(es)[id]
      {
        if id != es[|es| - 1].0 {
          assert id in Documents(init) && Documents(es)[id] == Documents(init)[id];
          var j :| 0 <= j < |init| && init[j].0 == id && init[j].1 == Documents(init)[id];
          assert es[j] == init[j];
        } else {
          assert es[|es| - 1].1 == Documents(es)[id];
        }
      }
    }
  }

  /** The index of any entry sequence is well formed. */
  lemma {:induction false} EntriesWellFormed(es: seq<Entry>, ps: seq<Product>)
    requires |es| == |ps|
    ensures WellFormed(Index(Documents(es), DocumentFrequency(es), |ps|, ps))
  {
    DocumentFrequencyCounts(es);
    DocumentsFromEntries(es);
    var idx := Index(Documents(es), DocumentFrequency(es), |ps|, ps);
    forall id, t | id in idx.documents && t in idx.documents[id]
      ensures Get(idx.documentFrequency, t) >= 1
    {
      var j :| 0 <= j < |es| && es[j].0 == id && es[j].1 == idx.documents[id];
      assert HasTerm(t)(es[j]);
    }
  }

  /** An entry's document is its own terms unless a later entry has the same
      id, in which case the later one's terms win. */
  lemma {:induction false} DocumentsLastWins(es: seq<Entry>, i: int)
    requires 0 <= i < |es|
    requires forall j :: i < j < |es| ==> es[j].0 != es[i].0
    ensures es[i].0 in Documents(es)
    ensures Documents(es)[es[i].0] == es[i].1
    decreases |es|
  {
    if i < |es| - 1 {
      var init := es[..|es| - 1];
      assert init[i] == es[i];
      DocumentsLastWins(init, i);
    }
  }

  /** With distinct ids every product is scored against its own terms. */
  lemma {:induction false} DocumentOfOwnTerms(ps: seq<Product>, i: int)
    requires 0 <= i < |ps|
    requires forall j :: 0 <= j < |ps| && j != i ==> ProductId(ps[j]) != ProductId(ps[i])
    ensures DocumentOf(BuildIndex(ps), ps[i]) == Terms(ps[i])
  {
    var es := Entries(ps);
    forall j | i < j < |es| ensures es[j].0 != es[i].0 {
      assert es[j].0 == ProductId(ps[j]);
    }
    DocumentsLastWins(es, i);
  }

  // ---------------------------------------------------------------------
  // Scores: proofs

  lemma {:induction false} LogNonNegative(ln: real -> real, x: real)
    requires IsLog(ln) && x >= 1.0
    ensures ln(x) >= 0.0
  {
    if x > 1.0 {
      assert ln(1.0) < ln(x);
    }
  }

  lemma {:induction false} CountPositive(doc: seq<string>, term: string)
    ensures Count(doc, term) > 0 <==> term in doc
    decreases |doc|
  {
    if |doc| > 0 {
      CountPositive(doc[1..], term);
      assert term in doc <==> doc[0] == term || term in doc[1..] by {
        assert doc == [doc[0]] + doc[1..];
      }
    }
  }

  /** The term frequency is 0 for an absent term and at least 1 otherwise,
      and it grows with the number of occurrences. */
  lemma {:induction false} TfBounds(ln: real -> real, term: string, doc: seq<string>)
    requires IsLog(ln)
    ensures term !in doc ==> Tf(ln, term, doc) == 0.0
    ensures term in doc ==> Tf(ln, term, doc) >= 1.0
  {
    CountPositive(doc, term);
    if term in doc {
      LogNonNegative(ln, Count(doc, term) as real);
    }
  }

  lemma {:induction false} TfMonotone(ln: real -> real, term: string, d1: seq<string>, d2: seq<string>)
    requires IsLog(ln)
    requires 0 < Count(d1, term) < Count(d2, term)
    ensures Tf(ln, term, d1) < Tf(ln, term, d2)
  {
  }

  /** The inverse document frequency is 0 for a term no document has, at
      least 1 for a term of at most all documents, and strictly smaller for a
      more frequent term. */
  lemma {:induction false} IdfBounds(ln: real -> real, term: string, idx: Index)
    requires IsLog(ln)
    requires Get(idx.documentFrequency, term) <= idx.totalDocuments
    ensures Get(idx.documentFrequency, term) == 0 ==> Idf(ln, term, idx) == 0.0
    ensures Get(idx.documentFrequency, term) > 0 ==> Idf(ln, term, idx) >= 1.0
  {
    var df := Get(idx.documentFrequency, term);
    if df > 0 {
      var n := (idx.totalDocuments + 1) as real;
      var d := (df + 1) as real;
      assert n / d >= 1.0 by {
        assert n >= d;
      }
      LogNonNegative(ln, n / d);
    }
  }

  lemma {:induction false} IdfDecreasing(ln: real -> real, t1: string, t2: string, idx: Index)
    requires IsLog(ln)
    requires 0 < Get(idx.documentFrequency, t1) < Get(idx.documentFrequency, t2)
    ensures Idf(ln, t1, idx) > Idf(ln, t2, idx)
  {
    var n := (idx.totalDocuments + 1) as real;
    var d1 := (Get(idx.documentFrequency, t1) + 1) as real;
    var d2 := (Get(idx.documentFrequency, t2) + 1) as real;
    assert n / d2 < n / d1 by {
      assert n / d2 * d2 == n && n / d1 * d1 == n;
      assert n / d2 * d1 < n;
    }
  }

  lemma {:induction false} SumNonNegative(ln: real -> real, q: seq<string>, doc: seq<string>, idx: Index)
    requires IsLog(ln) && WellFormed(idx)
    ensures SumTfIdf(ln, q, doc, idx) >= 0.0
    decreases |q|
  {
    if |q| > 0 {
      SumNonNegative(ln, q[1..], doc, idx);
      TfBounds(ln, q[0], doc);
      IdfBounds(ln, q[0], idx);
    }
  }

  /** Scores against a well-formed index are never negative. */
  lemma {:induction false} ScoreNonNegative(ln: real -> real, q: seq<string>, doc: seq<string>, idx: Index)
    requires IsLog(ln) && WellFormed(idx)
    ensures Score(ln, q, doc, idx) >= 0.0
  {
    SumNonNegative(ln, q, doc, idx);
  }

  /** A document holding every query term, each of positive document
      frequency, sums to at least one per query term. */
  lemma {:induction false} SumAllTerms(ln: real -> real, q: seq<string>, doc: seq<string>, idx: Index)
    requires IsLog(ln) && WellFormed(idx)
    requires forall k :: 0 <= k < |q| ==> q[k] in doc && Get(idx.documentFrequency, q[k]) >= 1
    ensures SumTfIdf(ln, q, doc, idx) >= |q| as real
    decreases |q|
  {
    if |q| > 0 {
      SumAllTerms(ln, q[1..], doc, idx);
      TfBounds(ln, q[0], doc);
      IdfBounds(ln, q[0], idx);
      var a := Tf(ln, q[0], doc);
      var b := Idf(ln, q[0], idx);
      assert a * b >= 1.0 by {
        assert a * b >= 1.0 * b;
      }
    }
  }

  lemma {:induction false} SumNoTerms(ln: real -> real, q: seq<string>, doc: seq<string>, idx: Index)
    requires IsLog(ln)
    requires forall k :: 0 <= k < |q| ==> q[k] !in doc
    ensures SumTfIdf(ln, q, doc, idx) == 0.0
    decreases |q|
  {
    if |q| > 0 {
      SumNoTerms(ln, q[1..], doc, idx);
      TfBounds(ln, q[0], doc);
    }
  }

  // ---------------------------------------------------------------------
  // Search: proofs

  /** A query that is blank or has no terms finds nothing; any other is
      ranked on its processed terms. */
  lemma {:induction false} SearchIsRank(ln: real -> real, query: string, idx: Index)
    ensures Trim(query) == "" ==> Search(ln, query, idx) == []
    ensures ProcessText(query) == [] ==> Search(ln, query, idx) == []
    ensures Trim(query) != "" && ProcessText(query) != [] ==>
      Search(ln, query, idx) == Rank(ln, query, ProcessText(query), idx)
  {
  }

  /** Exactly the products whose final score reaches 1 are returned, each with
      that score. */
  lemma {:induction false} RankMembership(ln: real -> real, query: string, q: seq<string>, idx: Index, x: SearchResult)
    ensures x in Rank(ln, query, q, idx) <==>
      x.product in idx.products
      && x.score == FinalScore(ln, query, q, idx, x.product)
      && x.score >= 1.0
  {
    var c := Candidates(ln, query, q, idx);
    var r := Rank(ln, query, q, idx);
    assert x in r <==> x in c by {
      assert x in r <==> x in multiset(r);
      assert x in c <==> x in multiset(c);
    }
    var s := Scored(ln, query, q, idx);
    if x.product in idx.products && x.score == FinalScore(ln, query, q, idx, x.product) && x.score >= 1.0 {
      var i :| 0 <= i < |idx.products| && idx.products[i] == x.product;
      assert s[i] == x;
    }
  }

  /** Results with equal scores keep the order of the catalogue: for every
      score value, the results carrying it are, in order, the passing
      products carrying it, which are in index order. */
  lemma {:induction false} RankTiesInCatalogueOrder(ln: real -> real, query: string, q: seq<string>, idx: Index, score: real)
    ensures WithKey(Rank(ln, query, q, idx), ByScoreDesc(), -score)
         == WithKey(Candidates(ln, query, q, idx), ByScoreDesc(), -score)
  {
    ByScoreKeepsTies(Candidates(ln, query, q, idx), score);
  }

  /** A product whose name contains the whole query (ignoring ASCII case) is
      always found. */
  lemma {:induction false} NameMatchFound(ln: real -> real, query: string, q: seq<string>, idx: Index, p: Product)
    requires IsLog(ln) && WellFormed(idx)
    requires p in idx.products
    requires Contains(Lower(p.name), Lower(query))
    ensures SearchResult(p, FinalScore(ln, query, q, idx, p)) in Rank(ln, query, q, idx)
  {
    ScoreNonNegative(ln, q, DocumentOf(idx, p), idx);
    RankMembership(ln, query, q, idx, SearchResult(p, FinalScore(ln, query, q, idx, p)));
  }

  /** A product whose document holds every query term is always found,
      whatever its name. */
  lemma {:induction false} AllTermsFound(ln: real -> real, query: string, q: seq<string>, idx: Index, p: Product)
    requires IsLog(ln) && WellFormed(idx)
    requires q != [] && p in idx.products
    requires forall k :: 0 <= k < |q| ==> q[k] in DocumentOf(idx, p)
    ensures SearchResult(p, FinalScore(ln, query, q, idx, p)) in Rank(ln, query, q, idx)
  {
    ScoreAllTerms(ln, q, idx, p);
    RankMembership(ln, query, q, idx, SearchResult(p, FinalScore(ln, query, q, idx, p)));
  }

  /** Search never returns more results than the catalogue has products. */
  lemma {:induction false} SearchAtMostProducts(ln: real -> real, query: string, idx: Index)
    ensures |Search(ln, query, idx)| <= |idx.products|
  {
    SearchIsRank(ln, query, idx);
    if Trim(query) != "" && ProcessText(query) != [] {
      var q := ProcessText(query);
      assert |Candidates(ln, query, q, idx)| <= |Scored(ln, query, q, idx)|;
    }
  }

  /** Through `searchProducts`: once the query gets past both early exits,
      a product whose name contains it is returned. */
  lemma {:induction false} NameMatchSearched(ln: real -> real, query: string, idx: Index, p: Product)
    requires IsLog(ln) && WellFormed(idx)
    requires Trim(query) != "" && ProcessText(query) != []
    requires p in idx.products
    requires Contains(Lower(p.name), Lower(query))
    ensures SearchResult(p, FinalScore(ln, query, ProcessText(query), idx, p)) in Search(ln, query, idx)
  {
    SearchIsRank(ln, query, idx);
    NameMatchFound(ln, query, ProcessText(query), idx, p);
  }

  /** Through `searchProducts`: a product whose document holds every term of
      a non-blank query is returned. */
  lemma {:induction false} AllTermsSearched(ln: real -> real, query: string, idx: Index, p: Product)
    requires IsLog(ln) && WellFormed(idx)
    requires Trim(query) != "" && ProcessText(query) != []
    requires p in idx.products
    requires forall k :: 0 <= k < |ProcessText(query)| ==> ProcessText(query)[k] in DocumentOf(idx, p)
    ensures SearchResult(p, FinalScore(ln, query, ProcessText(query), idx, p)) in Search(ln, query, idx)
  {
    SearchIsRank(ln, query, idx);
    AllTermsFound(ln, query, ProcessText(query), idx, p);
  }

  /** A term of an indexed document has a positive document frequency. */
  lemma {:induction false} DocumentTermCounted(idx: Index, p: Product, t: string)
    requires WellFormed(idx)
    requires t in DocumentOf(idx, p)
    ensures Get(idx.documentFrequency, t) >= 1
  {
    assert ProductId(p) in idx.documents;
  }

  /** The document of `p` holding every query term scores at least one. */
  lemma {:induction false} ScoreAllTerms(ln: real -> real, q: seq<string>, idx: Index, p: Product)
    requires IsLog(ln) && WellFormed(idx)
    requires q != []
    requires forall k :: 0 <= k < |q| ==> q[k] in DocumentOf(idx, p)
    ensures Score(ln, q, DocumentOf(idx, p), idx) >= 1.0
  {
    var doc := DocumentOf(idx, p);
    forall k | 0 <= k < |q| ensures Get(idx.documentFrequency, q[k]) >= 1 {
      DocumentTermCounted(idx, p, q[k]);
    }
    SumAllTerms(ln, q, doc, idx);
    AtLeastOneEach(SumTfIdf(ln, q, doc, idx), |q|);
  }

  /** A sum of at least one per term averages at least one. */
  lemma {:induction false} AtLeastOneEach(sum: real, n: nat)
    requires n > 0 && sum >= n as real
    ensures sum / (n as real) >= 1.0
  {
  }

  /** A product sharing no term with the query and with no piece of the query
      in its name is never found. */
  lemma {:induction false} UnrelatedNotFound(ln: real -> real, query: string, q: seq<string>, idx: Index, p: Product)
    requires IsLog(ln)
    requires forall k :: 0 <= k < |q| ==> q[k] !in DocumentOf(idx, p)
    requires !SomePieceIn(Lower(p.name), Lower(query))
    ensures forall x <- Rank(ln, query, q, idx) :: x.product != p
  {
    SumNoTerms(ln, q, DocumentOf(idx, p), idx);
    if Contains(Lower(p.name), Lower(query)) {
      WholeGivesPiece(Lower(p.name), Lower(query));
    }
    assert FinalScore(ln, query, q, idx, p) == 0.0;
    forall x <- Rank(ln, query, q, idx) ensures x.product != p {
      RankMembership(ln, query, q, idx, x);
    }
  }

  /** If the whole query occurs in the name, so does its first piece: the
      partial boost is implied by the full one. */
  lemma {:induction false} WholeGivesPiece(name: string, query: string)
    requires Contains(name, query)
    ensures SomePieceIn(name, query)
  {
    var ps := SplitOnSpace(query);
    PrefixPiece(query);
    var w := ps[0];
    assert query[..|w|] == w;
    ContainsIffOccurs(name, query);
    var i :| OccursAt(name, query, i);
    assert name[i..i + |w|] == query[..|w|];
    assert OccursAt(name, w, i);
    ContainsIffOccurs(name, w);
  }

  /** The first piece of a split is a prefix of the string. */
  lemma {:induction false} PrefixPiece(s: string)
    ensures |SplitOnSpace(s)[0]| <= |s| && s[..|SplitOnSpace(s)[0]|] == SplitOnSpace(s)[0]
    decreases |s|
  {
    if |s| > 0 {
      PrefixPiece(s[1..]);
    }
  }

  /** A query ending in a space, as one typed word by word, has an empty last
      piece, which every name contains: every product gets at least the
      partial name boost, and exactly that unless its name holds the whole
      query (then it gets the full boost). */
  lemma {:induction false} TrailingSpaceBoostsAll(name: string, query: string)
    requires |query| > 0 && query[|query| - 1] == ' '
    ensures NameBoost(name, query) >= 0.5
    ensures NameBoost(name, query) == if Contains(Lower(name), Lower(query)) then 2.0 else 0.5
  {
    var q := Lower(query);
    var x := q[..|q| - 1];
    assert q == x + " " + "";
    SplitAtSpace(x, "");
    assert "" in SplitOnSpace(q);
    assert Contains(Lower(name), "");
  }
}

=== FILE: use_filters.dfy ===
/** The filter state hook of src/hooks/useFilters.ts: toggling values in
    and out of the four selection lists, setting the query, clearing, and the
    active-filter count. React's state updates become functions from the old
    state to the new one. */
module UseFilters {
  import opened Seqs
  import opened Catalog
  import opened Filters

  function Without<T(==)>(x: T): T -> bool {
    y => y != x
  }

  /** A toggle: remove every occurrence of a present value, append an absent
      one. */
  function Toggle<T(==)>(xs: seq<T>, x: T): (r: seq<T>)
    ensures x in r <==> x !in xs
    ensures forall y <- xs :: y != x ==> y in r
    ensures forall y <- r :: y != x ==> y in xs
    ensures x !in xs ==> r == xs + [x]
    ensures x in xs ==> IsSubsequence(r, xs) && |r| < |xs|
  {
    if x in xs then
      FilterDrops(xs, Without(x), x);
      Filter(xs, Without(x))
    else xs + [x]
  }

  function ToggleLifespanCategory(f: FilterState, c: LifespanCategory): FilterState {
    f.(lifespanCategories := Toggle(f.lifespanCategories, c))
  }

  function ToggleProductType(f: FilterState, t: ProductType): FilterState {
    f.(productTypes := Toggle(f.productTypes, t))
  }

  function ToggleProductCategory(f: FilterState, c: ProductCategory): FilterState {
    f.(productCategories := Toggle(f.productCategories, c))
  }

  function ToggleShutdownReason(f: FilterState, r: ShutdownReason): FilterState {
    f.(shutdownReasons := Toggle(f.shutdownReasons, r))
  }

  function SetSearchQuery(f: FilterState, q: string): FilterState {
    f.(searchQuery := q)
  }

  /** `clearAllFilters` goes back to `initialFilters`, which is `NoFilters`. */
  function ClearAllFilters(f: FilterState): FilterState {
    NoFilters
  }

  /** `activeFilterCount`: the selected values plus one for a non-empty
      query. */
  function ActiveFilterCount(f: FilterState): nat {
    |f.lifespanCategories| + |f.productTypes| + |f.productCategories| + |f.shutdownReasons|
    + (if f.searchQuery != "" then 1 else 0)
  }

  /** Every user action the hook offers. */
  datatype Action =
    | ToggleLifespan(c: LifespanCategory)
    | ToggleType(t: ProductType)
    | ToggleCategory(k: ProductCategory)
    | ToggleReason(r: ShutdownReason)
    | SetQuery(q: string)
    | ClearAll

  function Step(f: FilterState, a: Action): FilterState {
    match a
    case ToggleLifespan(c) => ToggleLifespanCategory(f, c)
    case ToggleType(t) => ToggleProductType(f, t)
    case ToggleCategory(k) => ToggleProductCategory(f, k)
    case ToggleReason(r) => ToggleShutdownReason(f, r)
    case SetQuery(q) => SetSearchQuery(f, q)
    case ClearAll => ClearAllFilters(f)
  }

  /** The state after a sequence of actions from `initialFilters`. */
  function Run(actions: seq<Action>): FilterState
    decreases |actions|
  {
    if |actions| == 0 then NoFilters
    else Step(Run(actions[..|actions| - 1]), actions[|actions| - 1])
  }

  /** No selection list holds a value twice. */
  predicate NoDuplicates(f: FilterState) {
    Distinct(f.lifespanCategories) && Distinct(f.productTypes)
    && Distinct(f.productCategories) && Distinct(f.shutdownReasons)
  }

  // ---------------------------------------------------------------------
  // Proofs

  lemma {:induction false} ToggleKeepsDistinct<T>(xs: seq<T>, x: T)
    requires Distinct(xs)
    ensures Distinct(Toggle(xs, x))
  {
    if x in xs {
      FilterDistinct(xs, Without(x));
    }
  }

  /** In a list without duplicates a toggle adds or removes exactly one
      entry. */
  lemma {:induction false} ToggleLength<T>(xs: seq<T>, x: T)
    requires Distinct(xs)
    ensures |Toggle(xs, x)| == if x in xs then |xs| - 1 else |xs| + 1
  {
    if x in xs {
      FilterOutOne(xs, x, Without(x));
    }
  }

  /** Toggling an absent value twice restores the list exactly; toggling a
      present one twice restores its contents, the value moving to the
      end. */
  lemma {:induction false} ToggleTwice<T>(xs: seq<T>, x: T)
    ensures x !in xs ==> Toggle(Toggle(xs, x), x) == xs
    ensures forall y :: y in Toggle(Toggle(xs, x), x) <==> y in xs
  {
    if x !in xs {
      FilterSnoc(xs, x, Without(x));
      forall i | 0 <= i < |xs| ensures Without(x)(xs[i]) {
        assert xs[i] in xs;
      }
      FilterAll(xs, Without(x));
    }
  }

  /** Every state the hook can reach has no duplicate selections. */
  lemma {:induction false} ReachableNoDuplicates(actions: seq<Action>)
    ensures NoDuplicates(Run(actions))
    decreases |actions|
  {
    if |actions| > 0 {
      var f := Run(actions[..|actions| - 1]);
      ReachableNoDuplicates(actions[..|actions| - 1]);
      match actions[|actions| - 1]
      case ToggleLifespan(c) => ToggleKeepsDistinct(f.lifespanCategories, c);
      case ToggleType(t) => ToggleKeepsDistinct(f.productTypes, t);
      case ToggleCategory(k) => ToggleKeepsDistinct(f.productCategories, k);
      case ToggleReason(r) => ToggleKeepsDistinct(f.shutdownReasons, r);
      case SetQuery(q) =>
      case ClearAll =>
    }
  }

  /** The count is 0 exactly in the initial state. */
  lemma {:induction false} CountZeroIffInitial(f: FilterState)
    ensures ActiveFilterCount(f) == 0 <==> f == NoFilters
  {
  }

  /** In a state without duplicates, a toggle moves the count by exactly one,
      up when the value was absent and down when it was present. */
  lemma {:induction false} ToggleMovesCountByOne(f: FilterState, a: Action)
    requires NoDuplicates(f)
    requires !a.SetQuery? && !a.ClearAll?
    ensures ActiveFilterCount(Step(f, a)) ==
      match a
      case ToggleLifespan(c) => if c in f.lifespanCategories then ActiveFilterCount(f) - 1 else ActiveFilterCount(f) + 1
      case ToggleType(t) => if t in f.productTypes then ActiveFilterCount(f) - 1 else ActiveFilterCount(f) + 1
      case ToggleCategory(k) => if k in f.productCategories then ActiveFilterCount(f) - 1 else ActiveFilterCount(f) + 1
      case ToggleReason(r) => if r in f.shutdownReasons then ActiveFilterCount(f) - 1 else ActiveFilterCount(f) + 1
  {
    match a
    case ToggleLifespan(c) => ToggleLength(f.lifespanCategories, c);
    case ToggleType(t) => ToggleLength(f.productTypes, t);
    case ToggleCategory(k) => ToggleLength(f.productCategories, k);
    case ToggleReason(r) => ToggleLength(f.shutdownReasons, r);
  }

  /** Each action changes only its own part of the state. */
  lemma {:induction false} ActionsAreLocal(f: FilterState, a: Action)
    ensures !a.ToggleLifespan? && !a.ClearAll? ==> Step(f, a).lifespanCategories == f.lifespanCategories
    ensures !a.ToggleType? && !a.ClearAll? ==> Step(f, a).productTypes == f.productTypes
    ensures !a.ToggleCategory? && !a.ClearAll? ==> Step(f, a).productCategories == f.productCategories
    ensures !a.ToggleReason? && !a.ClearAll? ==> Step(f, a).shutdownReasons == f.shutdownReasons
    ensures !a.SetQuery? && !a.ClearAll? ==> Step(f, a).searchQuery == f.searchQuery
  {
  }
}
